=== FILE: README.md ===
# aithoughts newsletter admin — a Dafny model of its core

This project models the part of the aithoughts site that decides things,
leaving out what only renders or talks to outside services. The site is a
Next.js newsletter site with an admin area. The model covers:

- **User table and roles.** The table of users with their tier (`free`,
  `paid`, `premium`) and role (`user`, `admin`, `super_admin`). The queries
  read and change it: the tier and role lookups, `isUserAdmin`, the
  `setUserAsAdmin` upsert, `removeAdminRole`, `getAllAdmins` and the
  premium-content rule.
- **Newsletter, product and subscription tables.** Their column defaults
  and unique slugs.
- **Authorization gates.** `requireAdminAuth` (401, then 403) for API
  routes. `requireAuth`, `requireAdmin` and `isCurrentUserAdmin` (redirects)
  for pages and server actions. The ownership checks of the user-data
  helpers.
- **Server actions.** The admin actions, each of which runs the admin gate
  first and then its zod schema.
- **Set-admin route.** `POST` and `GET` of the set-admin API route.
- **File upload.** The upload route and the text extraction it relies on:
  title, description, excerpt, reformatted content, the MIME allow-list,
  and the PDF/Word placeholders.
- **AI generation.** The AI-generation route and the AI service behind it:
  title from the first `# ` heading, description, excerpt, read time, tags,
  and image-placeholder substitution against an image oracle. Also the
  `enhancePrompt` fallback.
- **Slugs.** The two `generateSlug` functions: with a timestamp
  (AI-generation route) and without one (upload route).
- **Dashboard logic.** The client's `getFirstParagraphs`, the local list
  update after a delete or a publish, and the guards in front of its
  requests.

Everything is a pure function over immutable datatypes. The one exception
is two loops written as methods: the image substitution and
`generateNewsletterContent`. Tables are maps from id to row. Several
inputs become parameters:

- the identity provider's session;
- the clock (a `nat` of milliseconds);
- the chat model's reply;
- the image model (a function from request number, description and title
  to an optional URL);
- `JSON.parse`, the zod e-mail check and database error messages.

Text is `seq<char>`, restricted to ASCII white space and ASCII case
mapping.

Files, one module each: `wrappers` (Option/Result), `strings` (the
JavaScript string operations the code uses), `schema`, `queries`, `http`
(response envelopes and JavaScript truthiness), `admin_auth`, `auth`,
`user_data_access`, `admin_actions`, `set_admin_route`, `file_processing`,
`slugs`, `upload_route`, `link_scan` (the lazy link regular expressions),
`ai_service`, `ai_generate_route`, `dashboard`.

## Model

| member | source | states |
|---|---|---|
| Schema.ParseTier | src/db/schema.ts:15 | reading a tier name is the exact inverse of spelling it: `Some(t)` iff the text is `t`'s name, so only `free`, `paid`, `premium` are tiers |
| Schema.ParseRole | src/db/schema.ts:16 | only `user`, `admin`, `super_admin` are roles; parsing inverts naming |
| Schema.ParseStatus | src/db/schema.ts:17 | only `draft`, `published`, `archived` are statuses; parsing inverts naming |
| Queries.UserRows | src/db/queries.ts:24-26 | looking a user up by identity id gives at most one row (the column is unique), empty exactly when the id has no row, and only rows with that id |
| Queries.CreateUserSubscription | src/db/queries.ts:20-22 | inserting a user fails with a unique violation on `clerkUserId` exactly when the id already has a row; otherwise the table gains exactly that row: the given id, email and name, tier `free`, role `user` and active unless given, updated now |
| Queries.NewUserDefaults | src/db/schema.ts:26-30 | a user inserted without tier, role or active flag is on the free tier, not an admin, cannot read premium content, and is active |
| Queries.IsUserAdmin | src/db/queries.ts:265-273 | a user is an admin iff they have a row and its role is `admin` or `super_admin`; a missing row counts as role `user` |
| Queries.CanUserAccessContent | src/db/queries.ts:240-246 | non-premium content is open to everyone; premium content is refused exactly to users whose tier is `free`, which includes users without a row |
| Queries.UnknownUserIsFreeMember | src/db/queries.ts:32-35 | a user without a row reads only free content and is not an admin |
| Queries.GetUserTier | src/db/queries.ts:32-35 | the tier stored in the user's row, and `free` when the id has no row |
| Queries.GetUserRole | src/db/queries.ts:265-268 | the role stored in the user's row, and `user` when the id has no row |
| Queries.SetUserAsAdmin | src/db/queries.ts:275-301 | the upsert: an existing row gets role `admin` and the new email and name, keeping its tier and active flag; a new id gets a row with tier `premium`, role `admin`, active; only that key changes |
| Queries.SetUserAsAdminGrants | src/db/queries.ts:275-301 | after the upsert the user is an admin, and every other user's admin status and tier are as before |
| Queries.SetUserAsAdminDemotesSuperAdmin | src/db/queries.ts:281-290 | a `super_admin` passed to the upsert ends up a plain `admin` |
| Queries.RemoveAdminRole | src/db/queries.ts:311-319 | the user's role becomes `user` and only `updatedAt` changes besides; an unknown id changes nothing; no other row changes |
| Queries.RemoveAdminRoleRevokes | src/db/queries.ts:311-319 | after removal the user fails `isUserAdmin`, and every other user's admin status is as before |
| Queries.GetAllAdmins | src/db/queries.ts:303-309 | a row is listed iff it is active and its role is exactly `admin`; every listed row is the stored row of an admin |
| Queries.Summaries | lib/actions/admin-actions.ts:71-78 | the admin summaries are exactly the summaries of the listed rows, no more and no fewer |
| Queries.SummaryListed | src/db/queries.ts:303-309 | a user's summary is among the admin summaries iff that user is active and has role `admin` |
| Queries.AdminListingIsNarrower | src/db/queries.ts:303-309 | a `super_admin`, or an inactive admin, passes `isUserAdmin` but is not listed |
| Queries.SetUserAsAdminListed | src/db/queries.ts:275-309 | after the upsert the user is listed iff the id was new or the existing row was active, since the update leaves `isActive` alone |
| Queries.CreateNewsletter | src/db/queries.ts:54-56 | the insert fails with a slug unique violation exactly when the slug is taken; otherwise exactly one row goes in, under the next identity: the given fields, view count 0, status `draft` and not premium unless given; the other rows stay as they are |
| Queries.GetAllNewsletters | src/db/queries.ts:38-40 | every stored newsletter is listed, and only stored newsletters |
| Queries.NewsletterDefaults | src/db/schema.ts:44-50 | an insert naming neither status nor premium flag stores a free-to-read draft |
| Queries.SameSlugTwice | src/db/schema.ts:39 | two inserts with the same slug: the first succeeds and the second fails |
| Queries.IncrementNewsletterViewCount | src/db/queries.ts:66-68 | that row's view count goes up by exactly one, no other row changes, and an unknown id changes nothing |
| Queries.CreateAIProduct | src/db/queries.ts:116-118 | fails exactly on a taken slug; otherwise exactly the product built from the input is stored under the next identity, with currency `USD`, active and not featured unless given |
| Queries.GetAllAIProducts | src/db/queries.ts:100-102 | a stored product is listed iff it is active, and only stored products are listed |
| Queries.SubscribeToNewsletter | src/db/queries.ts:208-210 | a new active row for that user and newsletter is added under the next id |
| Queries.UnsubscribeFromNewsletter | src/db/queries.ts:212-214 | every row of that user and newsletter becomes inactive; no row is deleted and no other row changes |
| Queries.UserNewsletterSubscriptions | src/db/queries.ts:216-218 | a stored subscription is listed iff it belongs to that user and is active, and only stored rows are listed |
| Queries.UnsubscribeHides | src/db/queries.ts:212-218 | after unsubscribing, the user's listing no longer holds that newsletter but still holds every other subscription it held |
| AdminAuth.RequireAdminAuth | lib/admin-auth.ts:5-25 | no session gives 401 `Authentication required`; a signed-in non-admin gets 403 `Admin access required`; the caller passes exactly when signed in with an admin role |
| AdminAuth.AuthenticationComesFirst | lib/admin-auth.ts:7-16 | without a session the answer is 401 whatever the user table holds: the role is never consulted |
| Auth.RequireAuth | lib/auth.ts:5-13 | a signed-in caller continues with their own id; anyone else is redirected to `/sign-in` |
| Auth.GetCurrentUser | lib/auth.ts:27-30 | a (non-empty) id is returned exactly when the caller is signed in, and it is the id `requireAuth` continues with |
| Auth.RequireAdmin | lib/auth.ts:15-25 | no session redirects to `/sign-in` before any role check; a non-admin is redirected to `/`; an admin continues with their id |
| Auth.IsCurrentUserAdmin | lib/auth.ts:32-40 | false without a session, otherwise exactly `isUserAdmin` of the caller |
| Auth.GatesAgree | lib/auth.ts:15-40 | the page gate, the API gate of lib/admin-auth.ts and the boolean check admit exactly the same callers, and "sign in" from one is "sign in" from the other |
| UserDataAccess.RequireUserOwnership | lib/user-data-access.ts:9-17 | the same decision as `requireAuth`: the caller's id, or a redirect to `/sign-in` |
| UserDataAccess.GetCurrentUserData | lib/user-data-access.ts:22-33 | no session redirects to `/sign-in`, a caller without a row to `/sign-up`; otherwise the caller's own row |
| UserDataAccess.ValidateUserOwnership | lib/user-data-access.ts:39-47 | for a signed-in caller it throws `Access denied` iff the requested id is not theirs; on a match it returns that id |
| UserDataAccess.GetUserDataIfOwner | lib/user-data-access.ts:52-55 | data comes back only to a signed-in caller asking for their own id, and it is their row; asking for another id throws |
| UserDataAccess.OwnerOnly | lib/user-data-access.ts:39-55 | whatever the session and table, a row is returned iff the caller is signed in, asks for themself and has a row, and then it is the requested user's row |
| AdminActions.Check | lib/actions/admin-actions.ts:17-26 | a schema check yields no issue iff it holds, else exactly one issue on its field |
| AdminActions.ValidateNewsletter | lib/actions/admin-actions.ts:16-28 | accepted iff title, slug, description, content, excerpt and author are non-empty, the read time (an integer here) is at least 1 and the status is `draft` or `published`; the insert copies the fields, defaults `isPremium` to false and never carries `archived` |
| AdminActions.PublishedAtOf | lib/actions/admin-actions.ts:88-91 | `publishedAt` becomes a date exactly when a non-empty string is given, else null |
| AdminActions.ArchivedIsRefused | lib/actions/admin-actions.ts:22 | an `archived` status is refused with an issue on `status`, whatever the other fields |
| AdminActions.ValidateProduct | lib/actions/admin-actions.ts:30-42 | accepted iff all seven text fields are non-empty; then every field is carried over from the input, features and tags as given, active defaulting to true and featured to false |
| AdminActions.ValidateUser | lib/actions/admin-actions.ts:50-56 | accepted iff id and name are non-empty, the e-mail passes and the tier is absent or one of the three names; tier defaults to `free`, active to true, and the role is left to the column default |
| AdminActions.GetAdminData | lib/actions/admin-actions.ts:59-80 | only an admin gets data; it lists every stored newsletter, a stored product iff it is active, and as admins exactly the summaries of `getAllAdmins`: a user's summary iff that user is active with role `admin` |
| AdminActions.CreateNewsletterAction | lib/actions/admin-actions.ts:82-94 | gate, then schema issues, then the insert: a row is stored iff the caller is an admin, the input passes the schema and the slug is free; a taken slug is a unique violation on `slug`; the stored row is exactly the one built from the validated input under the next id, and its status is not `archived` |
| AdminActions.CreatedNewsletterShows | lib/actions/admin-actions.ts:59-94 | after a successful create, the admin data lists exactly the newsletters it listed before plus the new one |
| AdminActions.CreateAIProductAction | lib/actions/admin-actions.ts:96-101 | gate, then schema issues, then the insert: a product is stored iff the caller is an admin, the input passes the schema and the slug is free; a taken slug is a unique violation on `slug`; the stored row is exactly the one built from the validated input under the next id |
| AdminActions.CreatedProductShows | lib/actions/admin-actions.ts:59-101 | a created product shows in the admin data iff it was created active |
| AdminActions.SetUserAsAdminAction | lib/actions/admin-actions.ts:103-108 | gate, then schema issues; success iff both pass, and then the target is an admin by the `setUserAsAdmin` upsert |
| AdminActions.CreateUserAction | lib/actions/admin-actions.ts:110-115 | gate, then schema issues, then the insert: a user is stored iff the caller is an admin, the input passes the schema and the id has no row; an existing id is a unique violation on `clerkUserId`; the stored row is exactly the one built from the validated input, and it is not an admin |
| AdminActions.CreatedUserLooksUp | lib/actions/admin-actions.ts:110-115 | a created user reads back with the tier named in the input (`free` when none) and role `user`, and may read premium content iff that tier is not `free` |
| AdminActions.GateBeforeEverything | lib/actions/admin-actions.ts:60-111 | for a caller who is not an admin, every action answers with the gate's redirect (`/sign-in` or `/`) whatever its input, so nothing is validated or written |
| SetAdminRoute.CallerCheck | app/api/admin/set-admin/route.ts:9-24 | the route's inline 401/403 checks decide exactly as `requireAdminAuth` |
| SetAdminRoute.Post | app/api/admin/set-admin/route.ts:6-50 | 401, then 403, then 400 if any of the three fields is missing (with no write); success iff the caller is an admin and all three are present, and then the table is the upsert's and the target is an admin |
| SetAdminRoute.Get | app/api/admin/set-admin/route.ts:53-107 | the same 401/403 order, then 400 without `clerkUserId`; `isAdmin` is the named user's status; `allAdmins` is the summaries of `getAllAdmins`, so a user is listed iff active with role `admin` |
| SetAdminRoute.GetReportsTarget | app/api/admin/set-admin/route.ts:83 | two different admins asking about the same user get the same answer: the target's status, not the caller's |
| SetAdminRoute.PostThenGet | app/api/admin/set-admin/route.ts:36-84 | a successful POST followed by a GET about the same user reports that user as an admin |
| FileProcessing.FirstCandidate | lib/file-processing.ts:47-52 | the position of the first line whose trimmed form is 11–99 characters and does not start with `#`; no earlier line qualifies |
| FileProcessing.ExtractTitle | lib/file-processing.ts:44-54 | the title is the first qualifying trimmed line among the first ten, else `Uploaded Newsletter`; never empty |
| FileProcessing.ExtractDescription | lib/file-processing.ts:56-64 | the trimmed first `\n\n` paragraph: the fixed fallback if it has 20 characters or fewer, itself up to 200, else its first 200 plus `...`; at most 203 characters |
| FileProcessing.ExtractExcerpt | lib/file-processing.ts:66-70 | no line feed, at most 203 characters, the whole cleaned text when it has 200 or fewer, else its first 200 plus `...` |
| FileProcessing.FormatLine | lib/file-processing.ts:75-85 | an empty trimmed line becomes empty, a short line with no `.` or `,` becomes `## ` + line, any other line stays trimmed |
| FileProcessing.FormatLines | lib/file-processing.ts:74-85 | one formatted block per line, in order |
| FileProcessing.FormatContent | lib/file-processing.ts:72-88 | splitting the result at `\n\n` gives back the formatted lines of the input, one per line |
| FileProcessing.FormatContentSingleLine | lib/file-processing.ts:72-88 | a text without a line feed formats to exactly its one line's block, with no `\n\n` separator added |
| FileProcessing.DescriptionsIdentifyTypes | lib/file-processing.ts:101-114 | two accepted types get the same description iff they are the same type: the four descriptions are pairwise different |
| FileProcessing.FileTypeDescription | lib/file-processing.ts:101-114 | `Unknown File Type` exactly for a type that `validateFileType` (lines 90-99) refuses |
| FileProcessing.ProcessTextFile | lib/file-processing.ts:11-20 | a text file always gets a non-empty title and description, and an excerpt without line feeds |
| FileProcessing.ProcessPdfFile | lib/file-processing.ts:22-31 | the placeholder depends only on the file name: a title `PDF Document - ` followed by the name, and non-empty description and excerpt |
| FileProcessing.ProcessWordFile | lib/file-processing.ts:33-42 | the same for Word files, with the title prefix `Word Document - ` |
| Slugs.KeepSlugCharsAndSpace | app/api/admin/newsletters/upload/route.ts:102 | only `[a-z0-9]`, `-` and white space survive, the letters and digits all survive in order, and a leading hyphen or space is kept |
| Slugs.SpaceRunsToHyphen | app/api/admin/newsletters/upload/route.ts:103 | no white space is left, and the result is empty only for empty input |
| Slugs.SpaceRunsToHyphenAlnums | app/api/admin/newsletters/upload/route.ts:103 | turning white-space runs into hyphens keeps every letter and digit in order |
| Slugs.CollapseHyphens | app/api/admin/newsletters/upload/route.ts:104 | no two hyphens in a row are left; a leading hyphen stays, and none appears where there was none |
| Slugs.CollapseHyphensKeeps | app/api/admin/newsletters/upload/route.ts:104 | collapsing keeps every letter and digit and adds no white space or other character |
| Slugs.BaseSlug | app/api/admin/newsletters/upload/route.ts:99-106 | the upload slug is only `[a-z0-9-]` with no double hyphen, and its letters and digits are exactly those of the lower-cased title, in order |
| Slugs.BaseSlugTrimIsNoOp | app/api/admin/newsletters/upload/route.ts:105 | the final `trim()` never changes anything, because no white space is left by then |
| Slugs.BaseSlugEmpty | app/api/admin/newsletters/upload/route.ts:99-106 | the slug is empty exactly when the title has no ASCII letter, digit, white space or hyphen |
| Slugs.BaseSlugKeepsLeadingHyphen | app/api/admin/newsletters/ai-generate/route.ts:89-94 | a title starting with white space or a hyphen gives a slug starting with a hyphen: `trim()` does not remove it |
| Slugs.BaseSlugOfSlugText | app/api/admin/newsletters/upload/route.ts:99-106 | well-formed slug text is its own slug |
| Slugs.BaseSlugIdempotent | app/api/admin/newsletters/upload/route.ts:99-106 | slugging a slug changes nothing |
| Slugs.TimestampedSlug | app/api/admin/newsletters/ai-generate/route.ts:88-99 | the AI slug is only `[a-z0-9-]`, starts with the base slug and ends in a digit |
| Slugs.SlugTimestampRoundTrip | app/api/admin/newsletters/ai-generate/route.ts:97-98 | the timestamp can be read back from the slug: the trailing digits after the last hyphen denote the clock reading |
| Slugs.TimestampedSlugsDiffer | app/api/admin/newsletters/ai-generate/route.ts:96-98 | slugs taken at different clock readings differ, whatever the titles |
| Slugs.SymbolOnlyTitleSlug | app/api/admin/newsletters/ai-generate/route.ts:89-98 | a title without ASCII letters, digits, white space or hyphens gives `-` + timestamp |
| Strings.NatToDecimal | app/api/admin/newsletters/ai-generate/route.ts:98 | the decimal numeral of the timestamp: digits only, no leading zero |
| Strings.DecimalRoundTrip | app/api/admin/newsletters/ai-generate/route.ts:98 | the numeral's value is the number it was made from |
| UploadRoute.InvalidFileType | app/api/admin/newsletters/upload/route.ts:29-34 | a refused type is answered with status 400 and a message ending in the detected type's description |
| UploadRoute.ProcessUploadedFile | app/api/admin/newsletters/upload/route.ts:66-97 | succeeds exactly on the four allowed types: `text/plain` goes to the text extractor, PDF to the PDF placeholder, DOC and DOCX to the Word placeholder; anything else fails with the fixed message; a success has a non-empty title and description |
| UploadRoute.UploadReadTime | app/api/admin/newsletters/upload/route.ts:54 | the ceiling of length/1000: the least number of 1000-character minutes covering the content, zero exactly for empty content |
| UploadRoute.UploadRecord | app/api/admin/newsletters/upload/route.ts:44-56 | status `published`, not premium, tags `uploaded`/`file-import`, author `admin` unless given; the title is the form's, else the extracted one, else `Uploaded Newsletter - ` + name; the slug is the timestamp-free slug of the form title, else the extracted title, else the name |
| UploadRoute.Post | app/api/admin/newsletters/upload/route.ts:13-64 | auth, then missing file (400), then refused type (400), then the insert; past those checks it succeeds exactly when the slug is free and stores one published, non-premium row built from the record under the next identity, which no stored row has; a taken slug gives the generic 500; any error leaves the table unchanged |
| UploadRoute.UploadFallbacksUnused | app/api/admin/newsletters/upload/route.ts:45-47 | every accepted type yields a title and a description, so the `Uploaded Newsletter - ` and `Newsletter uploaded from` fallbacks never apply |
| UploadRoute.BlankTextFile | app/api/admin/newsletters/upload/route.ts:48-54 | an empty text file is stored with empty content, read time 0 and the `No excerpt available` excerpt |
| UploadRoute.SameTitleUploadedTwice | app/api/admin/newsletters/upload/route.ts:46 | with no timestamp in the slug, a second upload under the same form title is refused with a 500 and stores nothing |
| AiService.FirstH1 | lib/ai-service.ts:195 | the capture of `^#\s+(.+)$` in multi-line mode: none iff no position matches; a capture is non-empty and stays on one line |
| AiService.GeneratedTitle | lib/ai-service.ts:195-196 | the first H1 capture when there is one; otherwise the custom title when non-empty, else the prompt |
| AiService.FirstH1At | lib/ai-service.ts:195 | the leftmost position at or after the start where the heading pattern matches |
| AiService.LeadingHeadingIsTitle | lib/ai-service.ts:195-196 | a reply opening with `# t` is titled `t`, overriding the custom title |
| AiService.NoHashNoHeading | lib/ai-service.ts:196 | a reply without `#` is titled with the custom title if truthy, else the prompt |
| AiService.RemoveTitleLine | lib/ai-service.ts:200 | the first line starting with `#` loses its text and keeps its line break; nothing else changes |
| AiService.BlankSubheadings | lib/ai-service.ts:201 | no line starting with `##` remains, and the text gets no longer |
| AiService.BlankSubheadingsIdentity | lib/ai-service.ts:201 | text without `##` lines passes through unchanged |
| AiService.BlankSubheadingsIdempotent | lib/ai-service.ts:201 | removing `##` lines twice is removing them once |
| AiService.KeptLine | lib/ai-service.ts:201 | a line not starting with `##` is kept whole, with its line break, and the lines after it are treated on their own |
| AiService.BlankedLine | lib/ai-service.ts:201 | a line starting with `##` loses all its text but keeps its line break |
| AiService.Body | lib/ai-service.ts:199-202 | the reply without its title line and `##` lines, with exactly its leading and trailing white space removed |
| AiService.FirstLine | lib/ai-service.ts:203 | the text before the first line feed: a prefix with no line feed, followed by one if the text has one, and the whole text if it has none |
| AiService.Describe | lib/ai-service.ts:199-204 | the first `min(150, length)` characters of the body's first line, followed by `...` |
| AiService.Excerpt | lib/ai-service.ts:207-211 | the first `min(200, length)` characters of the body, followed by `...` |
| AiService.DescriptionStartsExcerpt | lib/ai-service.ts:199-211 | the description's text is where the excerpt's text starts |
| AiService.WordCount | lib/ai-service.ts:214 | `split(/\s+/)` yields one piece more than the text has runs of white space |
| Strings.SplitSpaceRunsCount | lib/ai-service.ts:214 | `split(/\s+/)` yields one piece more than the text has maximal runs of white space |
| AiService.ReadTime | lib/ai-service.ts:215 | at least 1, and the least number of 200-word minutes covering the words |
| AiService.ReadTimeUnique | lib/ai-service.ts:215 | those bounds determine the read time |
| AiService.ReadTimeMonotone | lib/ai-service.ts:215 | more words never give a shorter read time |
| AiService.Dedup | lib/ai-service.ts:291 | a `Set` built by adding items in order: no duplicates, every added item and only added items |
| AiService.DedupDistinct | lib/ai-service.ts:291 | a list without repeats comes out unchanged, order included |
| AiService.DedupPrefix | lib/ai-service.ts:291-316 | items added later never disturb the order of those added earlier |
| AiService.LongWords | lib/ai-service.ts:294-299 | exactly the prompt words longer than three characters |
| AiService.TopicTags | lib/ai-service.ts:306-316 | `technology` iff the lower-cased content mentions `tech`; `ai` iff it mentions `ai` or `artificial intelligence`; `business` iff it mentions `business` or `startup`; no other tag and no repeats |
| AiService.TagList | lib/ai-service.ts:318 | at most five distinct tags, a prefix of the de-duplicated list, each a long prompt word, a fixed tag or a topic tag; fewer than five means none was dropped |
| AiService.GenerateTags | lib/ai-service.ts:290-319 | at most five distinct tags, each a lower-cased prompt word longer than three characters or one of the fixed and topic tags; fewer than five means every such word, both fixed tags and every topic tag are there |
| AiService.FixedTagsPresent | lib/ai-service.ts:302-303 | with at most three distinct long prompt words, `newsletter` and `insights` both make the cut |
| AiService.FirstWordLeads | lib/ai-service.ts:294-318 | the first long prompt word always leads the tag list |
| AiService.TechnologyTestIsRedundant | lib/ai-service.ts:306 | any text containing `technology` contains `tech`, so the first test never decides anything |
| LinkScan.LinkAt | lib/ai-service.ts:229 | one match of `!\[(.*?)\]\((.*?)\)` at a position, read lazily within one line |
| LinkScan.LinkAtShape | lib/ai-service.ts:229 | a match spells out the opener, its text, `](`, its url and `)` |
| LinkScan.LinkAtOneLine | lib/ai-service.ts:229 | neither capture of a match crosses a line |
| LinkScan.NextLinkFirst | lib/ai-service.ts:229 | the next match found is the match at its start, and no match starts before it |
| LinkScan.ScanLinks | lib/ai-service.ts:229 | the global scan's matches lie in the text and do not overlap, left to right |
| LinkScan.ScanLinksMatches | lib/ai-service.ts:229 | every scanned item is the match at its start; no match starts before the first item, between two items or after the last |
| LinkScan.PlaceholderRoundTrip | lib/ai-service.ts:229-234 | a placeholder written the way the prompt asks for is read back with its description and url |
| LinkScan.ScanWithoutOpener | lib/ai-service.ts:229 | text in which `![` does not occur has no placeholders |
| AiService.IsSendable | lib/ai-service.ts:235 | a description is sent iff it is not blank |
| AiService.Requests | lib/ai-service.ts:233-235 | a description is requested iff it is sendable and belongs to a placeholder; at most one request per placeholder |
| AiService.RequestsAreSendableTexts | lib/ai-service.ts:233-235 | the requests are exactly the placeholders' descriptions filtered on being sendable, in order |
| AiService.GrantedUrls | lib/ai-service.ts:238-241 | a URL is collected iff the image model granted it (non-empty) for some request; at most one per request; none when every request is refused |
| AiService.Substituted | lib/ai-service.ts:233-252 | the content after the loop, request by request; with every request refused it is the generated content |
| AiService.SubstitutedAtStart | lib/ai-service.ts:233-241 | a placeholder at the start whose request is granted becomes `![d](url)` followed by the rest; a blank or refused one leaves the content as it is |
| AiService.PlaceholderAlone | lib/ai-service.ts:229 | a reply holding one well-formed placeholder and no other `![` has exactly that placeholder |
| AiService.LonePlaceholder | lib/ai-service.ts:229-241 | for such a reply, a granted request turns the placeholder into `![d](url)` and keeps the rest; a blank description or a refusal keeps the reply unchanged |
| AiService.SubstituteImages | lib/ai-service.ts:229-253 | the requests are those of the placeholders, the images the granted URLs, and the content the result of the loop; if every request fails the content is the generated content and there are no images |
| AiService.SubstituteEach | lib/ai-service.ts:233-252 | the loop: requests are the sendable descriptions, images the granted URLs, and the content is the request-by-request substitution, untouched when every request is refused |
| Strings.ReplaceFirst | lib/ai-service.ts:240 | `replace` with a string pattern: the text is unchanged without an occurrence; otherwise only the first occurrence is replaced, by the expanded replacement, which is the replacement itself when it holds no `$` |
| Strings.Substitution | lib/ai-service.ts:240 | a replacement without `$` is inserted as it is |
| Strings.DollarPairIsOneDollar | lib/ai-service.ts:240 | `$$` in a replacement comes out as one `$`, so a description or URL holding `$` patterns is not inserted verbatim |
| AiService.VideoUrls | lib/ai-service.ts:256-262 | the videos are exactly the non-empty link URLs that are not image URLs |
| AiService.GenerateNewsletterContent | lib/ai-service.ts:126-288 | a missing key fails before the chat model or any image request; a thrown or empty reply fails; a success carries the derived title, description, excerpt, tags and read time, media lists exactly when media was asked for, and then the substituted content, which is the reply itself when every image request fails |
| AiService.GeneratedFrom | lib/ai-service.ts:192-287 | what a successful generation returns for a reply: every field derived from it, the media fields exactly when media was asked for |
| AiService.EnhancePrompt | lib/ai-service.ts:39-124 | a missing key fails first; a non-empty reply always succeeds, as the parsed JSON, or when it is not JSON as the raw reply with the original prompt kept, no media suggestions and the reasoning `Enhanced prompt generated` |
| Http.OrElse | app/api/admin/newsletters/upload/route.ts:22 | `x \|\| fallback`: a truthy value is kept, a missing or empty one is replaced |
| Strings.Clip | app/api/admin/newsletters/ai-generate/route.ts:31-33 | `slice(0, n) + '...'`: a prefix of the content of `min(n, length)` characters followed by `...` |
| AiGenerateRoute.PublishedRecord | app/api/admin/newsletters/ai-generate/route.ts:26-40 | the publish branch stores the given content; the title or `Untitled Newsletter`; description and excerpt clipped at 150 and 200; status published, not premium, tags `newsletter`/`published`; read time at least 1; a slug that starts with the base slug and carries the clock reading |
| AiGenerateRoute.AiRecord | app/api/admin/newsletters/ai-generate/route.ts:53-65 | the generate branch stores the AI fields as they are, published and not premium, under a slug from the AI title that carries the clock reading |
| AiGenerateRoute.Persist | app/api/admin/newsletters/ai-generate/route.ts:68-84 | the insert succeeds exactly when the slug is free and then adds one new row built from the record; a refusal is a 500 carrying the error's message and leaves the table unchanged |
| AiGenerateRoute.Post | app/api/admin/newsletters/ai-generate/route.ts:7-85 | auth first; `publish` with content stores the preview without calling the generator; otherwise a missing prompt is a 400; the generator is called exactly when both branches are passed over; its failure is a 500 with no insert; its success is the generator's result for the reply (title, description, excerpt, tags, read time, and with `includeMedia` defaulting to true the substituted content and media) and is what gets stored; every stored row is published, not premium, dated now and slugged with now; any error leaves the table unchanged |
| AiGenerateRoute.UntitledPublish | app/api/admin/newsletters/ai-generate/route.ts:29-30 | publishing without a title stores `Untitled Newsletter` under `untitled-newsletter-<now>` |
| AiGenerateRoute.DescriptionStartsExcerpt | app/api/admin/newsletters/ai-generate/route.ts:31-33 | in the publish branch the description's text is a prefix of the excerpt's |
| AiGenerateRoute.PersistTakesOnlyItsSlug | app/api/admin/newsletters/ai-generate/route.ts:68 | a stored newsletter makes no slug other than its own taken |
| AiGenerateRoute.RepublishLater | app/api/admin/newsletters/ai-generate/route.ts:88-99 | publishing the same body again at another time is never blocked by the first copy |
| Dashboard.NormalizeNewlines | app/admin/admin-dashboard-client.tsx:473 | replacing CR LF pairs by LF never lengthens the text |
| Dashboard.NormalizedHasNoCr | app/admin/admin-dashboard-client.tsx:473 | when every CR precedes an LF, no CR is left after normalising |
| Dashboard.NormalizeWithoutCr | app/admin/admin-dashboard-client.tsx:473 | text without CR is left unchanged |
| Dashboard.SplitBlankRuns | app/admin/admin-dashboard-client.tsx:475 | `split(/\n{2,}/)` always yields a piece |
| Dashboard.TrimmedNonEmpty | app/admin/admin-dashboard-client.tsx:476-477 | trimming and dropping empty pieces never adds pieces |
| Dashboard.AtLeastOne | app/admin/admin-dashboard-client.tsx:478 | `Math.max(1, n)`: at least 1 and at least `n`, and `n` itself when positive |
| Dashboard.BlocksAreParagraphs | app/admin/admin-dashboard-client.tsx:473-477 | every block is non-empty, trimmed and free of blank lines, and free of CR when each CR of the text precedes an LF |
| Dashboard.SplitJoinedBlocks | app/admin/admin-dashboard-client.tsx:475-478 | paragraphs joined with `\n\n` split back into the same paragraphs |
| Dashboard.BlocksOfJoin | app/admin/admin-dashboard-client.tsx:473-478 | the blocks of joined paragraphs without CR are those paragraphs |
| Dashboard.FirstParagraphsAreLeadingBlocks | app/admin/admin-dashboard-client.tsx:472-479 | when every CR of the text precedes an LF, the output's blocks are exactly the first `max(1, maxParagraphs)` blocks of the input, in order, so there are never more than that |
| Dashboard.GetFirstParagraphs | app/admin/admin-dashboard-client.tsx:472-479 | empty exactly when the text has no block, and otherwise starts with the first block |
| Dashboard.NonPositiveMaxGivesFirstBlock | app/admin/admin-dashboard-client.tsx:478 | a maximum below one still yields the first block |
| Dashboard.FirstParagraphsIdempotent | app/admin/admin-dashboard-client.tsx:472-479 | applying the function twice with the same maximum is applying it once (when every CR precedes an LF) |
| Dashboard.CrLfSameAsLf | app/admin/admin-dashboard-client.tsx:473 | CR LF input gives the same result as its LF-normalised form (when every CR precedes an LF) |
| Dashboard.LoneCrBreaksNormalisation | app/admin/admin-dashboard-client.tsx:473 | without that condition both claims fail: `a\r\r\nb` gives `a\r\nb`, while its normalised form gives `a\nb` |
| Dashboard.RemoveId | app/admin/admin-dashboard-client.tsx:267 | the filter keeps exactly the entries whose id is not the target |
| Dashboard.RemoveIdAppend | app/admin/admin-dashboard-client.tsx:267 | the filter works piecewise, so the kept entries stay in their order |
| Dashboard.RemoveAbsentId | app/admin/admin-dashboard-client.tsx:267 | a list without the target is left as it is |
| Dashboard.ConfirmDelete | app/admin/admin-dashboard-client.tsx:255-279 | no selected id (or id 0) changes nothing; otherwise the selection is cleared in any case, and the list is filtered only when the request succeeded |
| Dashboard.DeleteRemovesExactlyTarget | app/admin/admin-dashboard-client.tsx:255-279 | after a successful delete no entry carries the id, and every other entry remains |
| Dashboard.GenerateRequest | app/admin/admin-dashboard-client.tsx:282-300 | no request for a blank prompt; otherwise the prompt as typed, the title only when non-empty, and no publish flag |
| Dashboard.GenerateRequestPassesPromptCheck | app/admin/admin-dashboard-client.tsx:284-287 | a request the dashboard sends never gets the route's `Prompt is required` answer |
| Dashboard.PublishRequest | app/admin/admin-dashboard-client.tsx:358-389 | no request without a preview or with a blank edited title or content; otherwise the edited title and content with `publish` set |
| Dashboard.PublishRequestPublishesEdits | app/admin/admin-dashboard-client.tsx:384-389 | a publish request takes the route's publish branch, storing the edited title and content |
| Dashboard.OnPublished | app/admin/admin-dashboard-client.tsx:411-426 | exactly one entry, for the returned row, is appended after the old list, and the preview, modal, title, content, prompt and AI title are reset |
| Dashboard.NoSecondPublish | app/admin/admin-dashboard-client.tsx:358-369 | once a publish went through, pressing the button again sends nothing |

## Left out

- **Unicode.** The model uses ASCII white space (space, tab, LF, CR, VT,
  FF) for `\s` and `trim()`, and ASCII A–Z for `toLowerCase()`. Other
  Unicode white space and case mapping are not modelled. Only LF and CR
  end a line for `^`, `$` and `.`; JavaScript also ends lines at U+2028
  and U+2029, so for `"# a\u2028b"` the source's `^#\s+(.+)$` captures
  `a` where FirstH1 captures `a\u2028b`, and RemoveTitleLine,
  BlankSubheadings and LinkAt differ from the source in the same way.
- **Chat model, image model and prompt text.** The OpenAI chat and image
  calls are oracle parameters, and the prompt texts sent to them are not
  modelled. Their replies cannot be specified.
- **Identity provider, clock, file reading and JSON parsing.** These are
  parameters: the `auth()` session, `Date.now()`, `File.text()`, and
  `request.json()` / `formData()`. A body that fails to parse (a catch-all
  500) is not modelled, and neither is any other unexpected throw that ends
  in a route's catch-all 500.
- **Database.** Tables are in-memory maps. Ordering, `limit`/`offset` and
  atomicity are not modelled. The only database error modelled is a
  unique violation. Timestamps other than the clock reading passed in are
  not modelled: `createdAt`, and `new Date(...)` parsing, which stays the
  string given.
- AdminActions.GetAdminData: returns every newsletter and every active
  product as sets, without the limit of 50 and without the ordering,
  because ordering and pagination are not modelled.
- Queries.GetAllNewsletters: the same; the order by `publishedAt` and the
  limit and offset are not modelled.
- Queries.GetAllAIProducts: the same; the order by `createdAt` and the
  limit and offset are not modelled.
- AdminActions.ValidateUser: `z.string().email()` is an oracle parameter,
  not its pattern. zod type errors (a field of the wrong JSON type) are
  not modelled: inputs are typed.
- AdminActions.ValidateNewsletter: read times are integers. The source's
  `z.number().min(1)` (`lib/actions/admin-actions.ts:26`) also accepts a
  fractional read time such as 1.5, which the `integer()` column
  (`src/db/schema.ts:48`) then refuses with a database error that is not a
  unique violation; floating-point input is not modelled, so neither that
  input nor that error is.
- AiGenerateRoute.Post: the "no newsletter returned" branch
  (`app/api/admin/newsletters/ai-generate/route.ts:72-75`) is not modelled,
  because an insert that does not throw always returns its row.
- SetAdminRoute.Post: the body's three fields are modelled as optional
  strings. A truthy field of another JSON type (a number, an object) is
  passed on to the upsert by the route; the model cannot express that
  body, and the database's handling of such values is not modelled.
- **User ids.** The users table's generated `id` column is not modelled:
  users are keyed by `clerkUserId`, the column every query uses.
- Queries.Summaries: an admin summary leaves out the row's numeric `id`
  that `getAdminData` copies, since that column is not modelled.
- AiService.Describe: lengths count characters. JavaScript's `slice(0,
  150)` counts UTF-16 code units, which differ for text outside the Basic
  Multilingual Plane.
- AiService.Excerpt: the same, for `slice(0, 200)`.
- Strings.Clip: the same, for the clips of the publish branch.
- FileProcessing.ExtractTitle: the same, for the line length bounds
  `> 10` and `< 100`.
- FileProcessing.ExtractDescription: the same, for `length > 20` and
  `slice(0, 200)`.
- FileProcessing.ExtractExcerpt: the same, for `slice(0, 200)`.
- FileProcessing.FormatLine: the same, for `length < 50`.
- UploadRoute.UploadReadTime: the same, for `content.length / 1000`.
- AiService.LongWords: the same, for `word.length > 3`.
- AiService.GenerateTags: the same, through the long-word test.
- **One clock reading per call.** The slug's timestamp and `publishedAt`
  are both read at the same `now`.
- UploadRoute.UploadRecord: the `No content extracted` content and the
  read time of 5 for a missing extraction are not modelled. Every accepted
  type yields content, so those fallbacks are dead code.
- UploadRoute.Post: the 500 for a failed extraction after the type check
  is modelled as a constant reply. It cannot occur, because the extraction
  accepts exactly the allowed types.
- Dashboard.FirstParagraphsAreLeadingBlocks: holds only when every CR is
  followed by LF. Otherwise a block may end in a CR, which forms a CR LF
  pair with the `\n\n` that joins it to the next block, so reading the
  output's blocks normalises that CR away.
- Dashboard.FirstParagraphsIdempotent: holds only when every CR is
  followed by LF. `Dashboard.LoneCrBreaksNormalisation` gives an input for
  which one replacement pass of `/\r\n/g` leaves a CR LF pair behind.
- Dashboard.CrLfSameAsLf: holds only under the same condition, for the same
  reason.
- **The rest of the dashboard.** Loading flags, toasts, modals and the
  newsletter list's `createdAt` are not modelled. Neither is the render half
  of the dashboard or any page markup.
- **Thin routes.** The CRUD routes that pass requests straight to the
  queries are not modelled: newsletters, blog posts, AI products, users,
  enhance-prompt and test-env. Neither are the seed and test scripts.
- **Other queries.** `checkFreeTierNewsletterLimit` (calendar-month
  arithmetic) and the blog, presentation, bio and testimonial queries are
  not modelled. No core operation depends on them.

=== FILE: admin_actions.dfy ===
/** The server actions of lib/actions/admin-actions.ts.  Each one runs
    `requireAdmin()` first, then parses its input with a zod schema, then
    writes.  A schema is modelled as a validator that collects one issue per
    failing field, in the schema's field order, and fills in the defaults. */
module AdminActions {
  import opened Wrappers
  import opened Strings
  import opened Schema
  import opened Queries
  import opened AdminAuth
  import opened Auth

  /** A zod issue: the field it is about and the schema's own message, or
      `None` where zod's built-in message applies. */
  datatype Issue = Issue(field: String, message: Option<String>)

  /** How an action ends: redirected by the gate, rejected by the schema
      (`ZodError`), rejected by the database, or done. */
  datatype ActionOutcome<+T> =
    | Redirected(path: String)
    | Invalid(issues: seq<Issue>)
    | DbFailed(error: DbError)
    | Done(value: T)

  /** One check: no issue when it holds. */
  function Check(ok: bool, field: String, message: Option<String>): (r: seq<Issue>)
    ensures r == [] <==> ok
    ensures !ok ==> r == [Issue(field, message)]
  {
    if ok then [] else [Issue(field, message)]
  }

  /** `z.string().min(1, message)`. */
  function Required(s: String, field: String, message: String): seq<Issue> {
    Check(s != [], field, Some(message))
  }

  // ---------------------------------------------------------------------------
  // createNewsletterSchema
  // ---------------------------------------------------------------------------

  datatype NewsletterInput = NewsletterInput(
    title: String,
    slug: String,
    description: String,
    content: String,
    excerpt: String,
    status: String,
    publishedAt: Option<String>,
    authorId: String,
    tags: Option<seq<String>>,
    readTime: int,
    isPremium: Option<bool>)

  /** `z.enum(['draft', 'published'])`: `archived` is not accepted. */
  predicate IsCreatableStatus(s: String) {
    ParseStatus(s) == Some(Draft) || ParseStatus(s) == Some(Published)
  }

  function NewsletterIssues(d: NewsletterInput): seq<Issue> {
    Required(d.title, "title", "Title is required")
    + Required(d.slug, "slug", "Slug is required")
    + Required(d.description, "description", "Description is required")
    + Required(d.content, "content", "Content is required")
    + Required(d.excerpt, "excerpt", "Excerpt is required")
    + Check(IsCreatableStatus(d.status), "status", None)
    + Required(d.authorId, "authorId", "Author ID is required")
    + Check(d.readTime >= 1, "readTime", Some("Read time must be at least 1 minute"))
  }

  /** `publishedAt ? new Date(publishedAt) : null`: an empty string counts
      as absent. */
  function PublishedAtOf(publishedAt: Option<String>): (r: Option<Moment>)
    ensures r.Some? <==> publishedAt.Some? && publishedAt.value != []
    ensures r.Some? ==> r.value == Parsed(publishedAt.value)
  {
    if publishedAt.Some? && publishedAt.value != [] then Some(Parsed(publishedAt.value)) else None
  }

  /** `createNewsletterSchema.parse` followed by the `publishedAt`
      conversion: the row to insert, or the issues. */
  function ValidateNewsletter(d: NewsletterInput): (r: Result<NewsletterInsert, seq<Issue>>)
    ensures r.Success? <==>
              && d.title != [] && d.slug != [] && d.description != [] && d.content != []
              && d.excerpt != [] && d.authorId != [] && d.readTime >= 1
              && (d.status == "draft" || d.status == "published")
    ensures r.Failure? ==> r.error != []
    ensures r.Success? ==>
              var n := r.value;
              && n.title == d.title && n.slug == d.slug && n.content == d.content
              && n.description == Some(d.description) && n.excerpt == Some(d.excerpt)
              && n.status.Some? && StatusName(n.status.value) == d.status && n.status.value != Archived
              && n.readTime == Some(d.readTime) && n.tags == d.tags && n.authorId == d.authorId
              && n.isPremium == Some(d.isPremium.GetOr(false))
              && n.publishedAt == PublishedAtOf(d.publishedAt)
  {
    var issues := NewsletterIssues(d);
    if issues != [] then Failure(issues)
    else
      Success(NewsletterInsert(
        d.title, d.slug, Some(d.description), d.content, Some(d.excerpt), ParseStatus(d.status),
        PublishedAtOf(d.publishedAt), d.authorId, d.tags, Some(d.readTime),
        Some(d.isPremium.GetOr(false))))
  }

  /** An `archived` newsletter is refused with an issue on `status`, and an
      input that is otherwise valid is refused for that alone. */
  lemma ArchivedIsRefused(d: NewsletterInput)
    requires d.status == "archived"
    ensures ValidateNewsletter(d).Failure?
    ensures Issue("status", None) in NewsletterIssues(d)
  {
    assert ParseStatus(d.status) == Some(Archived);
  }

  // ---------------------------------------------------------------------------
  // createAIProductSchema
  // ---------------------------------------------------------------------------

  datatype ProductInput = ProductInput(
    name: String,
    slug: String,
    description: String,
    longDescription: String,
    category: String,
    price: String,
    currency: String,
    features: Option<seq<String>>,
    tags: Option<seq<String>>,
    isActive: Option<bool>,
    isFeatured: Option<bool>)

  function ProductIssues(d: ProductInput): seq<Issue> {
    Required(d.name, "name", "Name is required")
    + Required(d.slug, "slug", "Slug is required")
    + Required(d.description, "description", "Description is required")
    + Required(d.longDescription, "longDescription", "Long description is required")
    + Required(d.category, "category", "Category is required")
    + Required(d.price, "price", "Price is required")
    + Required(d.currency, "currency", "Currency is required")
  }

  /** `createAIProductSchema.parse`: every text field non-empty; active and
      not featured unless the input says otherwise. */
  function ValidateProduct(d: ProductInput): (r: Result<ProductInsert, seq<Issue>>)
    ensures r.Success? <==>
              d.name != [] && d.slug != [] && d.description != [] && d.longDescription != []
              && d.category != [] && d.price != [] && d.currency != []
    ensures r.Failure? ==> r.error != []
    ensures r.Success? ==>
              var p := r.value;
              && p.name == d.name && p.slug == d.slug && p.currency == Some(d.currency)
              && p.description == d.description && p.longDescription == Some(d.longDescription)
              && p.category == Some(d.category) && p.price == Some(d.price)
              && p.features == d.features && p.tags == d.tags
              && p.isActive == Some(d.isActive.GetOr(true))
              && p.isFeatured == Some(d.isFeatured.GetOr(false))
  {
    var issues := ProductIssues(d);
    if issues != [] then Failure(issues)
    else
      Success(ProductInsert(
        d.name, d.slug, d.description, Some(d.longDescription), Some(d.category), Some(d.price),
        Some(d.currency), d.features, d.tags,
        Some(d.isActive.GetOr(true)), Some(d.isFeatured.GetOr(false))))
  }

  // ---------------------------------------------------------------------------
  // setAdminSchema and createUserSchema
  // ---------------------------------------------------------------------------

  /** `z.string().email()`; its pattern is not modelled. */
  type EmailCheck = String -> bool

  datatype SetAdminInput = SetAdminInput(clerkUserId: String, email: String, name: String)

  function SetAdminIssues(d: SetAdminInput, isEmail: EmailCheck): seq<Issue> {
    Required(d.clerkUserId, "clerkUserId", "Clerk User ID is required")
    + Check(isEmail(d.email), "email", Some("Valid email is required"))
    + Required(d.name, "name", "Name is required")
  }

  datatype UserInput = UserInput(
    clerkUserId: String,
    email: String,
    name: String,
    tier: Option<String>,
    isActive: Option<bool>)

  /** `z.enum(['free', 'paid', 'premium']).default('free')`. */
  predicate IsTierOrAbsent(tier: Option<String>) {
    tier.None? || ParseTier(tier.value).Some?
  }

  function UserIssues(d: UserInput, isEmail: EmailCheck): seq<Issue> {
    Required(d.clerkUserId, "clerkUserId", "Clerk User ID is required")
    + Check(isEmail(d.email), "email", Some("Valid email is required"))
    + Required(d.name, "name", "Name is required")
    + Check(IsTierOrAbsent(d.tier), "tier", None)
  }

  /** `createUserSchema.parse`: tier `free` and active unless given; the
      role is left to the column default. */
  function ValidateUser(d: UserInput, isEmail: EmailCheck): (r: Result<UserInsert, seq<Issue>>)
    ensures r.Success? <==>
              d.clerkUserId != [] && isEmail(d.email) && d.name != []
              && (d.tier.None? || d.tier.value in ["free", "paid", "premium"])
    ensures r.Failure? ==> r.error != []
    ensures r.Success? ==>
              var u := r.value;
              && u.clerkUserId == d.clerkUserId && u.email == d.email && u.name == Some(d.name)
              && u.tier.Some? && TierName(u.tier.value) == d.tier.GetOr("free")
              && u.role.None?
              && u.isActive == Some(d.isActive.GetOr(true))
  {
    var issues := UserIssues(d, isEmail);
    if issues != [] then Failure(issues)
    else
      var tier := if d.tier.Some? then ParseTier(d.tier.value).value else Free;
      Success(UserInsert(d.clerkUserId, d.email, Some(d.name), Some(tier), None,
                         Some(d.isActive.GetOr(true))))
  }

  // ---------------------------------------------------------------------------
  // The actions
  // ---------------------------------------------------------------------------

  /** What `getAdminData` returns. */
  datatype AdminData = AdminData(
    newsletters: set<NewsletterRow>,
    aiProducts: set<ProductRow>,
    admins: set<AdminSummary>)

  /** `getAdminData`: behind the gate, the newsletters (`getAllNewsletters`),
      the active products (`getAllAIProducts`) and the summaries of the
      listed admins (`getAllAdmins`). */
  function GetAdminData(session: Session, users: Users, newsletters: Newsletters, products: Products)
    : (r: ActionOutcome<AdminData>)
    requires UsersKeyed(users)
    ensures !RequireAdmin(session, users).Continue? ==> r == Redirected(RequireAdmin(session, users).path)
    ensures r.Done? <==> RequireAdmin(session, users).Continue?
    ensures r.Done? ==>
              && (forall id | id in newsletters.rows :: newsletters.rows[id] in r.value.newsletters)
              && (forall n | n in r.value.newsletters :: n in newsletters.rows.Values)
    ensures r.Done? ==>
              && (forall id | id in products.rows :: products.rows[id] in r.value.aiProducts <==> products.rows[id].isActive)
              && (forall p | p in r.value.aiProducts :: p.isActive && p in products.rows.Values)
    ensures r.Done? ==>
              && (forall id | id in users :: Summary(users[id]) in r.value.admins <==> users[id].role == Admin && users[id].isActive)
              && (forall s | s in r.value.admins :: s.role == Admin && s.clerkUserId in users
                                                     && users[s.clerkUserId].isActive
                                                     && s == Summary(users[s.clerkUserId]))
    ensures r.Done? ==> r.value.admins == Summaries(GetAllAdmins(users))
  {
    match RequireAdmin(session, users)
    case Continue(_) =>
      var admins := GetAllAdmins(users);
      SummaryListed(users);
      Done(AdminData(GetAllNewsletters(newsletters), GetAllAIProducts(products), Summaries(admins)))
    case Redirect(path) => Redirected(path)
    case Throw(_) => Redirected(HomePath)
  }

  /** `createNewsletterAction`: behind the gate and the schema, the insert;
      a taken slug is the database's unique violation. */
  function CreateNewsletterAction(session: Session, users: Users, t: Newsletters, d: NewsletterInput)
    : (r: ActionOutcome<(Newsletters, seq<NewsletterRow>)>)
    requires NewslettersValid(t)
    ensures !RequireAdmin(session, users).Continue? ==> r == Redirected(RequireAdmin(session, users).path)
    ensures RequireAdmin(session, users).Continue? && ValidateNewsletter(d).Failure? ==>
              r == Invalid(ValidateNewsletter(d).error)
    ensures r.Done? <==>
              RequireAdmin(session, users).Continue? && ValidateNewsletter(d).Success? && !SlugTaken(t, d.slug)
    ensures r.DbFailed? <==>
              RequireAdmin(session, users).Continue? && ValidateNewsletter(d).Success? && SlugTaken(t, d.slug)
    ensures r.DbFailed? ==> r.error == UniqueViolation("slug")
    ensures r.Done? ==>
              && NewslettersValid(r.value.0) && |r.value.1| == 1
              && r.value.1[0] == NewNewsletterRow(t.nextId, ValidateNewsletter(d).value)
              && r.value.0.rows == t.rows[t.nextId := r.value.1[0]]
              && r.value.1[0].status != Archived
  {
    match RequireAdmin(session, users)
    case Continue(_) =>
      (match ValidateNewsletter(d)
       case Failure(issues) => Invalid(issues)
       case Success(n) =>
         match CreateNewsletter(t, n)
         case Failure(e) => DbFailed(e)
         case Success(res) => Done((res.0, [res.1])))
    case Redirect(path) => Redirected(path)
    case Throw(_) => Redirected(HomePath)
  }

  /** `createAIProductAction`: behind the gate and the schema, the insert;
      a taken slug is the database's unique violation. */
  function CreateAIProductAction(session: Session, users: Users, t: Products, d: ProductInput)
    : (r: ActionOutcome<(Products, seq<ProductRow>)>)
    requires ProductsValid(t)
    ensures !RequireAdmin(session, users).Continue? ==> r == Redirected(RequireAdmin(session, users).path)
    ensures RequireAdmin(session, users).Continue? && ValidateProduct(d).Failure? ==>
              r == Invalid(ValidateProduct(d).error)
    ensures r.Done? <==>
              RequireAdmin(session, users).Continue? && ValidateProduct(d).Success? && !ProductSlugTaken(t, d.slug)
    ensures r.DbFailed? <==>
              RequireAdmin(session, users).Continue? && ValidateProduct(d).Success? && ProductSlugTaken(t, d.slug)
    ensures r.Done? ==>
              && ProductsValid(r.value.0) && |r.value.1| == 1
              && r.value.1[0] == NewProductRow(t.nextId, ValidateProduct(d).value)
              && r.value.0.rows == t.rows[t.nextId := r.value.1[0]]
  {
    match RequireAdmin(session, users)
    case Continue(_) =>
      (match ValidateProduct(d)
       case Failure(issues) => Invalid(issues)
       case Success(p) =>
         match CreateAIProduct(t, p)
         case Failure(e) => DbFailed(e)
         case Success(res) => Done((res.0, [res.1])))
    case Redirect(path) => Redirected(path)
    case Throw(_) => Redirected(HomePath)
  }

  /** A newsletter created through the action shows up in the admin data
      read afterwards, next to every newsletter that was there before. */
  lemma CreatedNewsletterShows(
    session: Session, users: Users, t: Newsletters, products: Products, n: NewsletterInput)
    requires UsersKeyed(users) && NewslettersValid(t)
    requires CreateNewsletterAction(session, users, t, n).Done?
    ensures var c := CreateNewsletterAction(session, users, t, n);
            GetAdminData(session, users, c.value.0, products).value.newsletters
              == GetAdminData(session, users, t, products).value.newsletters + {c.value.1[0]}
  {
    var c := CreateNewsletterAction(session, users, t, n);
    var t' := c.value.0;
    var row := c.value.1[0];
    assert t.nextId !in t.rows;
    assert t'.rows[t.nextId] == row;
    var before := GetAllNewsletters(t);
    var after := GetAllNewsletters(t');
    forall x | x in after ensures x in before + {row} {
      var id :| id in t'.rows && t'.rows[id] == x;
      if id != t.nextId { assert t.rows[id] == x; }
    }
    forall x | x in before + {row} ensures x in after {
      if x != row {
        var id :| id in t.rows && t.rows[id] == x;
        assert t'.rows[id] == x;
      }
    }
    assert after == before + {row};
  }

  /** A product created through the action shows up in the admin data read
      afterwards exactly when it is active, which it is unless the input
      says otherwise. */
  lemma CreatedProductShows(
    session: Session, users: Users, t: Newsletters, products: Products, p: ProductInput)
    requires UsersKeyed(users) && ProductsValid(products)
    requires CreateAIProductAction(session, users, products, p).Done?
    ensures var c := CreateAIProductAction(session, users, products, p);
            (c.value.1[0] in GetAdminData(session, users, t, c.value.0).value.aiProducts
             <==> p.isActive.GetOr(true))
  {
    var c := CreateAIProductAction(session, users, products, p);
    assert c.value.0.rows[products.nextId] == c.value.1[0];
  }

  /** `setUserAsAdminAction`. */
  function SetUserAsAdminAction(session: Session, users: Users, d: SetAdminInput, isEmail: EmailCheck, now: nat)
    : (r: ActionOutcome<(Users, seq<UserRow>)>)
    requires UsersKeyed(users)
    ensures !RequireAdmin(session, users).Continue? ==> r == Redirected(RequireAdmin(session, users).path)
    ensures r.Done? <==> RequireAdmin(session, users).Continue? && SetAdminIssues(d, isEmail) == []
    ensures RequireAdmin(session, users).Continue? && SetAdminIssues(d, isEmail) != [] ==>
              r == Invalid(SetAdminIssues(d, isEmail))
    ensures r.Done? ==>
              && d.clerkUserId != [] && d.name != [] && isEmail(d.email)
              && UsersKeyed(r.value.0) && IsUserAdmin(r.value.0, d.clerkUserId)
              && r.value == SetUserAsAdmin(users, d.clerkUserId, d.email, d.name, now)
  {
    match RequireAdmin(session, users)
    case Continue(_) =>
      var issues := SetAdminIssues(d, isEmail);
      if issues != [] then Invalid(issues)
      else Done(SetUserAsAdmin(users, d.clerkUserId, d.email, d.name, now))
    case Redirect(path) => Redirected(path)
    case Throw(_) => Redirected(HomePath)
  }

  /** `createUserAction`. */
  function CreateUserAction(session: Session, users: Users, d: UserInput, isEmail: EmailCheck, now: nat)
    : (r: ActionOutcome<(Users, seq<UserRow>)>)
    requires UsersKeyed(users)
    ensures !RequireAdmin(session, users).Continue? ==> r == Redirected(RequireAdmin(session, users).path)
    ensures RequireAdmin(session, users).Continue? && ValidateUser(d, isEmail).Failure? ==>
              r == Invalid(ValidateUser(d, isEmail).error)
    ensures r.DbFailed? <==>
              RequireAdmin(session, users).Continue? && ValidateUser(d, isEmail).Success?
              && d.clerkUserId in users
    ensures r.DbFailed? ==> r.error == UniqueViolation("clerkUserId")
    ensures r.Done? <==>
              RequireAdmin(session, users).Continue? && ValidateUser(d, isEmail).Success?
              && d.clerkUserId !in users
    ensures r.Done? ==>
              && UsersKeyed(r.value.0) && |r.value.1| == 1
              && r.value.1[0] == NewUserRow(ValidateUser(d, isEmail).value, now)
              && r.value.0 == users[d.clerkUserId := r.value.1[0]]
              && !IsUserAdmin(r.value.0, d.clerkUserId)
  {
    match RequireAdmin(session, users)
    case Continue(_) =>
      (match ValidateUser(d, isEmail)
       case Failure(issues) => Invalid(issues)
       case Success(u) =>
         match CreateUserSubscription(users, u, now)
         case Failure(e) => DbFailed(e)
         case Success(res) => Done((res.0, [res.1])))
    case Redirect(path) => Redirected(path)
    case Throw(_) => Redirected(HomePath)
  }

  /** A created user reads back through the tier and role lookups: the
      tier named in the input (`free` when none), role `user`, and premium
      content open to them exactly when that tier is not `free`. */
  lemma CreatedUserLooksUp(session: Session, users: Users, d: UserInput, isEmail: EmailCheck, now: nat)
    requires UsersKeyed(users)
    requires CreateUserAction(session, users, d, isEmail, now).Done?
    ensures var after := CreateUserAction(session, users, d, isEmail, now).value.0;
            && TierName(GetUserTier(after, d.clerkUserId)) == d.tier.GetOr("free")
            && GetUserRole(after, d.clerkUserId) == User
            && (CanUserAccessContent(after, d.clerkUserId, true) <==> d.tier.GetOr("free") != "free")
  {
    var after := CreateUserAction(session, users, d, isEmail, now).value.0;
    var u := ValidateUser(d, isEmail).value;
    assert after[d.clerkUserId] == NewUserRow(u, now);
  }

  /** Nothing is validated or written for a caller the gate turns away:
      every action answers with the gate's redirect, whatever its input. */
  lemma GateBeforeEverything(
    session: Session, users: Users, t: Newsletters, products: Products,
    n: NewsletterInput, p: ProductInput, a: SetAdminInput, u: UserInput, isEmail: EmailCheck, now: nat)
    requires UsersKeyed(users) && NewslettersValid(t) && ProductsValid(products)
    requires !IsCurrentUserAdmin(session, users)
    ensures var path := if SignedIn(session) then HomePath else SignInPath;
            && GetAdminData(session, users, t, products) == Redirected(path)
            && CreateNewsletterAction(session, users, t, n) == Redirected(path)
            && CreateAIProductAction(session, users, products, p) == Redirected(path)
            && SetUserAsAdminAction(session, users, a, isEmail, now) == Redirected(path)
            && CreateUserAction(session, users, u, isEmail, now) == Redirected(path)
  {
    GatesAgree(session, users);
  }
}

=== FILE: admin_auth.dfy ===
/** `requireAdminAuth` (lib/admin-auth.ts), the gate in front of the admin
    API routes: 401 without a session, 403 for a signed-in user who is not
    an admin, and no error otherwise. */
module AdminAuth {
  import opened Wrappers
  import opened Strings
  import opened Schema
  import opened Queries
  import opened Http

  /** The identity provider's answer to `auth()`: the signed-in user's id,
      if any. */
  type Session = Option<UserId>

  /** `userId` is truthy: there is a session with a non-empty id. */
  predicate SignedIn(session: Session) {
    session.Some? && session.value != []
  }

  const AuthenticationRequired: ErrorReply := ErrorReply(401, "Authentication required")
  const AdminAccessRequired: ErrorReply := ErrorReply(403, "Admin access required")

  /** `requireAdminAuth`: the error response to return, or `None` to go on. */
  function RequireAdminAuth(session: Session, users: Users): (r: Option<ErrorReply>)
    ensures r.None? <==> SignedIn(session) && session.value in users
                         && (users[session.value].role == Admin || users[session.value].role == SuperAdmin)
    ensures !SignedIn(session) ==> r == Some(AuthenticationRequired)
    ensures SignedIn(session) && !IsUserAdmin(users, session.value) ==> r == Some(AdminAccessRequired)
  {
    if !SignedIn(session) then Some(AuthenticationRequired)
    else if !IsUserAdmin(users, session.value) then Some(AdminAccessRequired)
    else None
  }

  /** The role is looked up only once a session exists: without one the
      answer is 401 whatever the user table holds. */
  lemma AuthenticationComesFirst(session: Session, users: Users, others: Users)
    requires !SignedIn(session)
    ensures RequireAdminAuth(session, users) == RequireAdminAuth(session, others) == Some(AuthenticationRequired)
  {
  }
}

=== FILE: ai_generate_route.dfy ===
/** app/api/admin/newsletters/ai-generate/route.ts: an admin either
    publishes content written beforehand (the dashboard's preview) or has
    the AI service write a newsletter from a prompt; either way one
    published newsletter is stored under a slug that ends in the clock
    reading. */
module AiGenerateRoute {
  import opened Wrappers
  import opened Strings
  import opened Schema
  import opened Queries
  import opened Http
  import opened AdminAuth
  import opened Slugs
  import opened AiService

  /** The JSON body. `publish` is its truthiness; `authorId` and
      `includeMedia` are `None` when the body leaves them out, which is when
      the destructuring defaults `'admin'` and `true` apply. */
  datatype GenerateBody = GenerateBody(
    prompt: Option<String>,
    title: Option<String>,
    content: Option<String>,
    publish: bool,
    authorId: Option<String>,
    includeMedia: Option<bool>)

  /** What a call did: the answer, the table afterwards, and the outcome of
      the AI service when it was called. */
  datatype Outcome = Outcome(
    reply: Reply<NewsletterRow>,
    store: Newsletters,
    generated: Option<Result<Generated, String>>)

  const PromptRequired: ErrorReply := ErrorReply(400, "Prompt is required")
  const UntitledTitle: String := "Untitled Newsletter"
  const UntitledSlugBase: String := "untitled-newsletter"
  const PublishedTags: seq<String> := ["newsletter", "published"]

  /** The author a body names, `admin` when it names none. */
  function AuthorOf(body: GenerateBody): String {
    body.authorId.GetOr("admin")
  }

  /** The newsletter the publish branch stores: the body's title and
      content, a description and an excerpt clipped from the content, and a
      slug ending in `now`. */
  function PublishedRecord(title: Option<String>, content: String, authorId: String, now: nat)
    : (n: NewsletterInsert)
    ensures n.title == OrElse(title, UntitledTitle) && n.content == content && n.authorId == authorId
    ensures n.description.Some? && IsClipOf(n.description.value, content, 150)
    ensures n.excerpt.Some? && IsClipOf(n.excerpt.value, content, 200)
    ensures BaseSlug(OrElse(title, UntitledSlugBase)) <= n.slug
    ensures SlugTimestamp(n.slug) == Some(now)
    ensures n.status == Some(Published) && n.publishedAt == Some(At(now)) && n.isPremium == Some(false)
    ensures n.tags == Some(PublishedTags)
    ensures n.readTime.Some? && n.readTime.value >= 1
  {
    SlugTimestampRoundTrip(OrElse(title, UntitledSlugBase), now);
    NewsletterInsert(
      OrElse(title, UntitledTitle),
      TimestampedSlug(OrElse(title, UntitledSlugBase), now),
      Some(Clip(content, 150)),
      content,
      Some(Clip(content, 200)),
      Some(Published),
      Some(At(now)),
      authorId,
      Some(PublishedTags),
      Some(ReadTime(WordCount(content))),
      Some(false))
  }

  /** The newsletter the generate branch stores: the AI service's fields as
      they are, and a slug made from its title that ends in `now`. */
  function AiRecord(g: Generated, authorId: String, now: nat): (n: NewsletterInsert)
    ensures n.title == g.title && n.content == g.content && n.authorId == authorId
    ensures n.description == Some(g.description) && n.excerpt == Some(g.excerpt)
    ensures n.tags == Some(g.tags) && n.readTime == Some(g.readTime as int)
    ensures BaseSlug(g.title) <= n.slug
    ensures SlugTimestamp(n.slug) == Some(now)
    ensures n.status == Some(Published) && n.publishedAt == Some(At(now)) && n.isPremium == Some(false)
  {
    SlugTimestampRoundTrip(g.title, now);
    NewsletterInsert(
      g.title,
      TimestampedSlug(g.title, now),
      Some(g.description),
      g.content,
      Some(g.excerpt),
      Some(Published),
      Some(At(now)),
      authorId,
      Some(g.tags),
      Some(g.readTime),
      Some(false))
  }

  /** `createNewsletter` inside the route's `try`: a refused insert is
      caught and answered with a 500 carrying the error's message, which
      `dbMessage` stands for. */
  function Persist(store: Newsletters, n: NewsletterInsert, dbMessage: DbError -> String)
    : (r: (Reply<NewsletterRow>, Newsletters))
    requires NewslettersValid(store)
    ensures NewslettersValid(r.1)
    ensures r.0.Ok? <==> !SlugTaken(store, n.slug)
    ensures r.0.Err? ==> r.0.e == ErrorReply(500, dbMessage(UniqueViolation("slug"))) && r.1 == store
    ensures r.0.Ok? ==>
              && r.0.data.id !in store.rows
              && r.1.rows == store.rows[r.0.data.id := r.0.data]
              && r.0.data == NewNewsletterRow(r.0.data.id, n)
  {
    match CreateNewsletter(store, n)
    case Failure(e) => (Err(ErrorReply(500, dbMessage(e))), store)
    case Success(res) => (Ok(res.1), res.0)
  }

  /** `POST`. The AI service is called only when the body does not carry
      content to publish and does carry a prompt; `chat` and `oracle` stand
      for the model's replies. */
  method Post(
    session: Session, users: Users, store: Newsletters, body: GenerateBody, now: nat,
    apiKeyConfigured: bool, chat: ChatReply, oracle: ImageOracle, dbMessage: DbError -> String)
    returns (out: Outcome)
    requires NewslettersValid(store)
    ensures NewslettersValid(out.store)
    ensures RequireAdminAuth(session, users).Some? ==>
              out == Outcome(Err(RequireAdminAuth(session, users).value), store, None)
    ensures RequireAdminAuth(session, users).None? && body.publish && Truthy(body.content) ==>
              && out.generated.None?
              && (out.reply, out.store) ==
                   Persist(store, PublishedRecord(body.title, body.content.value, AuthorOf(body), now), dbMessage)
    ensures RequireAdminAuth(session, users).None? && !(body.publish && Truthy(body.content))
            && !Truthy(body.prompt) ==>
              out == Outcome(Err(PromptRequired), store, None)
    ensures out.generated.Some? <==>
              RequireAdminAuth(session, users).None? && !(body.publish && Truthy(body.content))
              && Truthy(body.prompt)
    ensures out.generated.Some? ==>
              (out.generated.value.Success? <==> apiKeyConfigured && chat.Answered? && chat.text != [])
    ensures out.generated.Some? && out.generated.value.Success? ==>
              && out.generated.value.value.title == GeneratedTitle(chat.text, body.title, body.prompt.value)
              && GeneratedFrom(out.generated.value.value, chat.text, body.prompt.value, body.title,
                               body.includeMedia.GetOr(true), oracle)
              && (out.reply, out.store) ==
                   Persist(store, AiRecord(out.generated.value.value, AuthorOf(body), now), dbMessage)
    ensures out.generated.Some? && out.generated.value.Failure? ==>
              out.reply == Err(ErrorReply(500, out.generated.value.error)) && out.store == store
    ensures out.reply.Ok? ==>
              && out.store.rows == store.rows[out.reply.data.id := out.reply.data]
              && out.reply.data.id !in store.rows
              && out.reply.data.status == Published && !out.reply.data.isPremium
              && out.reply.data.publishedAt == Some(At(now))
              && SlugTimestamp(out.reply.data.slug) == Some(now)
    ensures out.reply.Err? ==> out.store == store
  {
    match RequireAdminAuth(session, users)
    case Some(e) =>
      return Outcome(Err(e), store, None);
    case None =>
    var author := AuthorOf(body);
    if body.publish && Truthy(body.content) {
      var (reply, after) := Persist(store, PublishedRecord(body.title, body.content.value, author, now), dbMessage);
      return Outcome(reply, after, None);
    }
    if !Truthy(body.prompt) {
      return Outcome(Err(PromptRequired), store, None);
    }
    var run := GenerateNewsletterContent(
      apiKeyConfigured, body.prompt.value, body.title, body.includeMedia.GetOr(true), chat, oracle);
    match run.result
    case Failure(message) =>
      out := Outcome(Err(ErrorReply(500, message)), store, Some(run.result));
    case Success(g) =>
      var (reply, after) := Persist(store, AiRecord(g, author, now), dbMessage);
      out := Outcome(reply, after, Some(run.result));
  }

  /** Publishing without a title stores `Untitled Newsletter` under the
      slug `untitled-newsletter-<now>`. */
  lemma UntitledPublish(title: Option<String>, content: String, authorId: String, now: nat)
    requires !Truthy(title)
    ensures var n := PublishedRecord(title, content, authorId, now);
            n.title == UntitledTitle && n.slug == UntitledSlugBase + "-" + NatToDecimal(now)
  {
    assert IsSlugText(UntitledSlugBase) by {
      assert forall i | 0 <= i < |UntitledSlugBase| :: IsSlugChar(UntitledSlugBase[i]);
    }
    BaseSlugOfSlugText(UntitledSlugBase);
  }

  /** The description the publish branch stores, without its ellipsis, is
      a prefix of the excerpt's. */
  lemma DescriptionStartsExcerpt(title: Option<String>, content: String, authorId: String, now: nat)
    ensures var n := PublishedRecord(title, content, authorId, now);
            var d := n.description.value;
            var e := n.excerpt.value;
            d[..|d| - 3] <= e[..|e| - 3]
  {
    var n := PublishedRecord(title, content, authorId, now);
    var d := n.description.value;
    var e := n.excerpt.value;
    assert d[..|d| - 3] == Take(content, 150);
    assert e[..|e| - 3] == Take(content, 200);
  }

  /** A stored row blocks only its own slug: any other slug is taken
      afterwards exactly when it was taken before. */
  lemma PersistTakesOnlyItsSlug(store: Newsletters, n: NewsletterInsert, dbMessage: DbError -> String, slug: String)
    requires NewslettersValid(store) && slug != n.slug
    ensures SlugTaken(Persist(store, n, dbMessage).1, slug) <==> SlugTaken(store, slug)
  {
    var r := Persist(store, n, dbMessage);
    if r.0.Ok? {
      if SlugTaken(r.1, slug) {
        var id :| id in r.1.rows && r.1.rows[id].slug == slug;
        assert id != r.0.data.id;
        assert store.rows[id].slug == slug;
      }
      if SlugTaken(store, slug) {
        var id :| id in store.rows && store.rows[id].slug == slug;
        assert r.1.rows[id] == store.rows[id];
      }
    }
  }

  /** Publishing the same body twice at two different clock readings: the
      first newsletter never stands in the way of the second, which is
      refused only if some older row already had its slug. */
  lemma RepublishLater(
    store: Newsletters, title: Option<String>, content: String, authorId: String, n1: nat, n2: nat,
    dbMessage: DbError -> String)
    requires NewslettersValid(store) && n1 != n2
    ensures var first := Persist(store, PublishedRecord(title, content, authorId, n1), dbMessage);
            var second := Persist(first.1, PublishedRecord(title, content, authorId, n2), dbMessage);
            second.0.Ok? <==> !SlugTaken(store, PublishedRecord(title, content, authorId, n2).slug)
  {
    var r1 := PublishedRecord(title, content, authorId, n1);
    var r2 := PublishedRecord(title, content, authorId, n2);
    assert r1.slug != r2.slug;
    PersistTakesOnlyItsSlug(store, r1, dbMessage, r2.slug);
  }
}

=== FILE: ai_service.dfy ===
/** The deterministic part of lib/ai-service.ts.  The chat and image models
    are parameters: the chat reply is given as a `ChatReply`, the image model
    as an oracle answering the n-th image request.  Everything the service
    derives from the reply is modelled exactly: the H1 title, the heading
    stripping behind the description and excerpt, the word count and read
    time, the tag list, the image placeholders among the reply's links (the
    link scan itself is in LinkScan), and the loop that swaps placeholders
    for generated images. */
module AiService {
  import opened Wrappers
  import opened Strings
  import opened LinkScan

  // ---------------------------------------------------------------------------
  // The title: `content.match(/^#\s+(.+)$/m)`
  // ---------------------------------------------------------------------------

  /** The length of the run of white space starting at `i`. */
  function SpaceRun(s: String, i: nat): (m: nat)
    requires i <= |s|
    ensures i + m <= |s|
    ensures forall j | i <= j < i + m :: IsSpace(s[j])
    ensures i + m == |s| || !IsSpace(s[i + m])
    decreases |s| - i
  {
    if i < |s| && IsSpace(s[i]) then 1 + SpaceRun(s, i + 1) else 0
  }

  /** How far the greedy `\s+` may reach so that `.+` still takes a
      character: the largest `j` in `1..k` with a character other than a
      line terminator at `q + j`, or 0 when there is none. */
  function TextStart(s: String, q: nat, k: nat): (r: nat)
    ensures r <= k
    ensures r > 0 ==> q + r < |s| && !IsLineTerminator(s[q + r])
    ensures forall i | q + r < i <= q + k && i < |s| :: IsLineTerminator(s[i])
  {
    if k == 0 then 0
    else if q + k < |s| && !IsLineTerminator(s[q + k]) then k
    else TextStart(s, q, k - 1)
  }

  /** Where `(.+)` starts when `^#\s+(.+)$` is tried at `p`, or 0 when the
      pattern does not match there.  `\s` also matches line terminators, so
      the white space may run on into the following lines. */
  function H1TextStart(s: String, p: nat): (t: nat)
    requires p < |s|
    ensures t > 0 ==> p + 1 < t < |s| && !IsLineTerminator(s[t])
  {
    if !IsLineStart(s, p) || s[p] != '#' then 0
    else
      var k := TextStart(s, p + 1, SpaceRun(s, p + 1));
      if k == 0 then 0 else p + 1 + k
  }

  /** `^#\s+(.+)$` matches at `p`. */
  predicate IsH1(s: String, p: nat) {
    p < |s| && H1TextStart(s, p) > 0
  }

  /** The capture `(.+)`: the rest of the line from where it starts. */
  function H1Text(s: String, p: nat): (r: String)
    requires IsH1(s, p)
    ensures r != [] && NoLineTerminator(r)
  {
    var t := H1TextStart(s, p);
    s[t..LineEnd(s, t)]
  }

  /** The leftmost match at or after `p`, or `|s|`. */
  function FirstH1At(s: String, p: nat): (q: nat)
    requires p <= |s|
    ensures p <= q <= |s|
    ensures q < |s| ==> IsH1(s, q)
    ensures forall j | p <= j < q :: !IsH1(s, j)
    decreases |s| - p
  {
    if p == |s| || IsH1(s, p) then p else FirstH1At(s, p + 1)
  }

  /** `content.match(/^#\s+(.+)$/m)`, reduced to its capture. */
  function FirstH1(s: String): (r: Option<String>)
    ensures r.None? <==> forall q | 0 <= q < |s| :: !IsH1(s, q)
    ensures r.Some? ==> r.value != [] && NoLineTerminator(r.value)
  {
    var q := FirstH1At(s, 0);
    if q < |s| then Some(H1Text(s, q)) else None
  }

  /** `titleMatch ? titleMatch[1] : (customTitle || prompt)`. */
  function GeneratedTitle(content: String, customTitle: Option<String>, prompt: String): (r: String)
    ensures FirstH1(content).Some? ==> r == FirstH1(content).value
    ensures FirstH1(content).None? && customTitle.Some? && customTitle.value != [] ==> r == customTitle.value
    ensures FirstH1(content).None? && (customTitle.None? || customTitle.value == []) ==> r == prompt
  {
    match FirstH1(content)
    case Some(t) => t
    case None => if customTitle.GetOr([]) != [] then customTitle.value else prompt
  }

  /** A reply that opens with the heading `# t` is titled `t`, whatever
      title the caller asked for. */
  lemma LeadingHeadingIsTitle(t: String, rest: String, customTitle: Option<String>, prompt: String)
    requires t != [] && NoLineTerminator(t) && !IsSpace(t[0])
    requires rest == [] || IsLineTerminator(rest[0])
    ensures GeneratedTitle("# " + t + rest, customTitle, prompt) == t
  {
    var s := "# " + t + rest;
    assert s[2..2 + |t|] == t;
    assert SpaceRun(s, 2) == 0;
    assert SpaceRun(s, 1) == 1;
    assert TextStart(s, 1, 1) == 1;
    assert H1TextStart(s, 0) == 2;
    assert FirstH1At(s, 0) == 0;
    LineEndAt(s, 2, 2 + |t|);
    assert H1Text(s, 0) == t;
  }

  /** A reply without any `#` has no title match: the caller's title, or
      else the prompt, is used. */
  lemma NoHashNoHeading(content: String, customTitle: Option<String>, prompt: String)
    requires '#' !in content
    ensures GeneratedTitle(content, customTitle, prompt) ==
              if customTitle.GetOr([]) != [] then customTitle.value else prompt
  {
    forall q | 0 <= q < |content|
      ensures !IsH1(content, q)
    {
      assert content[q] != '#';
    }
  }

  // ---------------------------------------------------------------------------
  // Description and excerpt
  // ---------------------------------------------------------------------------

  /** The first line start holding `#` at or after `p`, or `|s|`. */
  function FirstHashLine(s: String, p: nat): (q: nat)
    requires p <= |s|
    ensures p <= q <= |s|
    ensures q < |s| ==> IsLineStart(s, q) && s[q] == '#'
    ensures forall j | p <= j < q :: !(IsLineStart(s, j) && s[j] == '#')
    decreases |s| - p
  {
    if p == |s| || (IsLineStart(s, p) && s[p] == '#') then p else FirstHashLine(s, p + 1)
  }

  /** `.replace(/^#.*$/m, '')`: the first line that starts with `#` loses
      its text; its line terminator stays. */
  function RemoveTitleLine(s: String): (r: String)
    ensures var q := FirstHashLine(s, 0);
            q == |s| ==> r == s
    ensures var q := FirstHashLine(s, 0);
            q < |s| ==> r == s[..q] + s[LineEnd(s, q)..]
  {
    var q := FirstHashLine(s, 0);
    if q == |s| then s else s[..q] + s[LineEnd(s, q)..]
  }

  /** Position `i` of `s` starts a line beginning with `##`; whether
      position 0 is a line start is given by `atStart`. */
  predicate SubheadingAt(s: String, i: nat, atStart: bool) {
    i + 1 < |s| && (if i == 0 then atStart else IsLineTerminator(s[i - 1]))
    && s[i] == '#' && s[i + 1] == '#'
  }

  predicate NoSubheading(s: String, atStart: bool) {
    forall i | 0 <= i < |s| :: !SubheadingAt(s, i, atStart)
  }

  /** `.replace(/^##.*$/gm, '')`: every line that starts with `##` loses its
      text; every other character is kept. */
  function BlankSubheadings(s: String, atStart: bool): (r: String)
    ensures NoSubheading(r, atStart)
    ensures |r| <= |s|
    ensures s != [] && IsLineTerminator(s[0]) ==> r != [] && r[0] == s[0]
    decreases |s|
  {
    if s == [] then []
    else if atStart && |s| >= 2 && s[0] == '#' && s[1] == '#' then
      var rest := s[LineEnd(s, 0)..];
      var r := BlankSubheadings(rest, false);
      assert forall i | 0 < i < |r| :: SubheadingAt(r, i, atStart) == SubheadingAt(r, i, false);
      assert r != [] ==> IsLineTerminator(r[0]);
      r
    else
      var rest := BlankSubheadings(s[1..], IsLineTerminator(s[0]));
      var r := [s[0]] + rest;
      assert forall i | 1 <= i < |r| :: SubheadingAt(r, i, atStart) ==> SubheadingAt(rest, i - 1, IsLineTerminator(s[0]));
      r
  }

  /** Text without `##` lines passes through unchanged. */
  lemma {:induction false} BlankSubheadingsIdentity(s: String, atStart: bool)
    requires NoSubheading(s, atStart)
    ensures BlankSubheadings(s, atStart) == s
    decreases |s|
  {
    if s != [] {
      assert !SubheadingAt(s, 0, atStart);
      forall i | 0 <= i < |s| - 1
        ensures !SubheadingAt(s[1..], i, IsLineTerminator(s[0]))
      {
        assert !SubheadingAt(s, i + 1, atStart);
      }
      BlankSubheadingsIdentity(s[1..], IsLineTerminator(s[0]));
    }
  }

  /** A line that starts with `##`. */
  predicate IsSubheadingLine(l: String) {
    |l| >= 2 && l[0] == '#' && l[1] == '#'
  }

  /** A character that does not open a `##` line is kept. */
  lemma CharKept(s: String, atStart: bool)
    requires s != [] && !(atStart && |s| >= 2 && s[0] == '#' && s[1] == '#')
    ensures BlankSubheadings(s, atStart) == [s[0]] + BlankSubheadings(s[1..], IsLineTerminator(s[0]))
  {
  }

  /** Inside a line every character is kept. */
  lemma {:induction false} MidLineKept(l: String, tail: String)
    requires NoLineTerminator(l)
    ensures BlankSubheadings(l + tail, false) == l + BlankSubheadings(tail, false)
    decreases |l|
  {
    if l == [] {
      assert l + tail == tail;
    } else {
      var s := l + tail;
      assert s[0] == l[0] && s[1..] == l[1..] + tail;
      CharKept(s, false);
      MidLineKept(l[1..], tail);
      assert l == [l[0]] + l[1..];
    }
  }

  /** A line terminator is kept, and the next line starts after it. */
  lemma TerminatorKept(tail: String, atStart: bool)
    requires tail != [] && IsLineTerminator(tail[0])
    ensures BlankSubheadings(tail, atStart) == [tail[0]] + BlankSubheadings(tail[1..], true)
  {
    CharKept(tail, atStart);
  }

  /** A line that does not start with `##` is kept up to its end. */
  lemma {:induction false} LineKept(l: String, tail: String)
    requires NoLineTerminator(l) && !IsSubheadingLine(l) && l != []
    requires tail == [] || IsLineTerminator(tail[0])
    ensures BlankSubheadings(l + tail, true) == l + BlankSubheadings(tail, false)
  {
    var s := l + tail;
    assert s[0] == l[0] && s[1..] == l[1..] + tail;
    assert !(|s| >= 2 && s[0] == '#' && s[1] == '#') by {
      if |l| == 1 && |s| >= 2 { assert s[1] == tail[0]; }
    }
    CharKept(s, true);
    MidLineKept(l[1..], tail);
    assert l == [l[0]] + l[1..];
  }

  /** A line `l` that does not start with `##` is kept whole, with the
      line terminator that ends it; the lines after it are treated on
      their own. */
  lemma KeptLine(l: String, tail: String)
    requires NoLineTerminator(l) && !IsSubheadingLine(l)
    requires tail == [] || IsLineTerminator(tail[0])
    ensures tail == [] ==> BlankSubheadings(l, true) == l
    ensures tail != [] ==>
              BlankSubheadings(l + tail, true) == l + [tail[0]] + BlankSubheadings(tail[1..], true)
  {
    if l == [] {
      assert l + tail == tail;
      if tail != [] { TerminatorKept(tail, true); }
    } else if tail == [] {
      LineKept(l, tail);
      assert l + tail == l;
    } else {
      LineKept(l, tail);
      TerminatorKept(tail, false);
      var b := BlankSubheadings(tail[1..], true);
      assert l + ([tail[0]] + b) == l + [tail[0]] + b;
    }
  }

  /** A line `l` that starts with `##` loses all its text; the line
      terminator that ends it is kept. */
  lemma BlankedLine(l: String, tail: String)
    requires NoLineTerminator(l) && IsSubheadingLine(l)
    requires tail == [] || IsLineTerminator(tail[0])
    ensures tail == [] ==> BlankSubheadings(l, true) == []
    ensures tail != [] ==>
              BlankSubheadings(l + tail, true) == [tail[0]] + BlankSubheadings(tail[1..], true)
  {
    var s := l + tail;
    LineEndAt(s, 0, |l|);
    assert s[|l|..] == tail;
    if tail == [] {
      assert s == l;
    } else {
      TerminatorKept(tail, false);
    }
  }

  /** Removing the `##` lines a second time changes nothing. */
  lemma BlankSubheadingsIdempotent(s: String, atStart: bool)
    ensures BlankSubheadings(BlankSubheadings(s, atStart), atStart) == BlankSubheadings(s, atStart)
  {
    BlankSubheadingsIdentity(BlankSubheadings(s, atStart), atStart);
  }

  /** The reply without its title line and its `##` lines, trimmed. */
  function Body(content: String): (r: String)
    ensures IsTrimmed(r) && |r| <= |content|
    ensures IsTrimOf(r, BlankSubheadings(RemoveTitleLine(content), true))
  {
    var b := BlankSubheadings(RemoveTitleLine(content), true);
    var r := Trim(b);
    TrimInfix(b);
    assert |r| <= |b|;
    r
  }

  /** `s.split('\n')[0]`: the text before the first line feed. */
  function FirstLine(s: String): (r: String)
    ensures r <= s
    ensures '\n' !in r
    ensures '\n' in s ==> |r| < |s| && s[|r|] == '\n'
    ensures '\n' !in s ==> r == s
  {
    FirstPieceIsPrefix(s, "\n");
    if '\n' in s then IndexOfChar(s, '\n'); Split(s, "\n")[0]
    else Split(s, "\n")[0]
  }

  /** The body's first line cut to 150 characters, then `...`. */
  function Describe(body: String): (r: String)
    ensures IsClipOf(r, FirstLine(body), 150)
    ensures |r| <= 153 && |r| >= 3 && r[|r| - 3..] == "..."
    ensures r[..|r| - 3] <= body
    ensures '\n' !in r
  {
    var line := FirstLine(body);
    var r := Clip(line, 150);
    assert r[..|r| - 3] <= line;
    r
  }

  /** The body cut to 200 characters, then `...`. */
  function Excerpt(body: String): (r: String)
    ensures IsClipOf(r, body, 200)
    ensures |r| <= 203 && |r| >= 3 && r[|r| - 3..] == "..."
    ensures r[..|r| - 3] <= body
  {
    Clip(body, 200)
  }

  /** The description's text is where the excerpt's text starts, and it
      stops at the first line feed of the body. */
  lemma DescriptionStartsExcerpt(body: String)
    ensures var d := Describe(body);
            var e := Excerpt(body);
            d[..|d| - 3] <= e[..|e| - 3]
  {
    var d := Describe(body);
    var e := Excerpt(body);
    assert d[..|d| - 3] == Take(FirstLine(body), 150);
    assert e[..|e| - 3] == Take(body, 200);
  }

  // ---------------------------------------------------------------------------
  // Read time
  // ---------------------------------------------------------------------------

  /** `content.split(/\s+/).length`. */
  function WordCount(content: String): (n: nat)
    ensures n >= 1
    ensures n == 1 + RunEnds(content)
  {
    SplitSpaceRunsCount(content);
    |SplitSpaceRuns(content)|
  }

  /** `Math.max(1, Math.ceil(words / 200))`: the number of 200-word minutes,
      rounded up, and at least one. */
  function ReadTime(words: nat): (r: nat)
    ensures r >= 1
    ensures words <= 200 * r
    ensures r == 1 || 200 * (r - 1) < words
  {
    if words <= 200 then 1 else (words + 199) / 200
  }

  /** The three facts above determine the read time. */
  lemma ReadTimeUnique(words: nat, r: nat)
    requires r >= 1 && words <= 200 * r && (r == 1 || 200 * (r - 1) < words)
    ensures ReadTime(words) == r
  {
  }

  /** More words never read faster. */
  lemma ReadTimeMonotone(a: nat, b: nat)
    requires a <= b
    ensures ReadTime(a) <= ReadTime(b)
  {
  }

  // ---------------------------------------------------------------------------
  // Tags (`generateTagsFromContent`)
  // ---------------------------------------------------------------------------

  predicate NoDuplicates(xs: seq<String>) {
    forall i, j | 0 <= i < j < |xs| :: xs[i] != xs[j]
  }

  /** The order in which a `Set` built by `add`-ing the items of `xs` lists
      them: each item where it first occurs. */
  function Dedup(xs: seq<String>): (r: seq<String>)
    ensures NoDuplicates(r)
    ensures forall i | 0 <= i < |r| :: r[i] in xs
    ensures forall x | x in xs :: x in r
    ensures |r| <= |xs|
  {
    if xs == [] then []
    else
      var d := Dedup(xs[..|xs| - 1]);
      if xs[|xs| - 1] in d then d else d + [xs[|xs| - 1]]
  }

  /** A list without repeats is its own de-duplication. */
  lemma {:induction false} DedupDistinct(xs: seq<String>)
    requires NoDuplicates(xs)
    ensures Dedup(xs) == xs
  {
    if xs != [] {
      var init := xs[..|xs| - 1];
      assert NoDuplicates(init);
      DedupDistinct(init);
      assert xs[|xs| - 1] !in init;
      assert init + [xs[|xs| - 1]] == xs;
    }
  }

  /** Items added later never disturb the order of those added earlier. */
  lemma {:induction false} DedupPrefix(xs: seq<String>, ys: seq<String>)
    ensures Dedup(xs) <= Dedup(xs + ys)
    decreases |ys|
  {
    if ys == [] {
      assert xs + ys == xs;
    } else {
      var init := ys[..|ys| - 1];
      DedupPrefix(xs, init);
      assert (xs + ys)[..|xs + ys| - 1] == xs + init;
    }
  }

  /** Adding one item grows the list by at most that item, kept at the end. */
  lemma DedupSnoc(xs: seq<String>, y: String)
    ensures Dedup(xs) <= Dedup(xs + [y])
    ensures |Dedup(xs + [y])| <= |Dedup(xs)| + 1
    ensures y in Dedup(xs + [y])
  {
    assert (xs + [y])[..|xs|] == xs;
  }

  /** The prompt's lower-cased words longer than three characters, in order. */
  function LongWords(words: seq<String>): (r: seq<String>)
    ensures forall w :: w in r <==> w in words && |w| > 3
  {
    if words == [] then []
    else (if |words[0]| > 3 then [words[0]] else []) + LongWords(words[1..])
  }

  function PromptTags(prompt: String): seq<String> {
    LongWords(SplitSpaceRuns(ToLower(prompt)))
  }

  const TechnologyTag: String := "technology"
  const AiTag: String := "ai"
  const BusinessTag: String := "business"

  /** The topic tags the lower-cased content earns, in the order they are
      added: `technology` for a mention of `tech`, `ai` for `ai` or
      `artificial intelligence`, `business` for `business` or `startup`. */
  function TopicTags(content: String): (r: seq<String>)
    ensures forall t | t in r :: t in [TechnologyTag, AiTag, BusinessTag]
    ensures NoDuplicates(r)
    ensures TechnologyTag in r <==> Includes(ToLower(content), "tech")
    ensures AiTag in r <==> Includes(ToLower(content), AiTag) || Includes(ToLower(content), "artificial intelligence")
    ensures BusinessTag in r <==> Includes(ToLower(content), BusinessTag) || Includes(ToLower(content), "startup")
  {
    var low := ToLower(content);
    TechnologyTestIsRedundant(low);
    var tech := Includes(low, TechnologyTag) || Includes(low, "tech");
    var ai := Includes(low, AiTag) || Includes(low, "artificial intelligence");
    var business := Includes(low, BusinessTag) || Includes(low, "startup");
    (if tech then [TechnologyTag] else [])
    + (if ai then [AiTag] else [])
    + (if business then [BusinessTag] else [])
  }

  /** `Array.from(tags).slice(0, 5)` after adding the long prompt `words`,
      `newsletter`, `insights` and the `topics`, in that order. */
  function TagList(words: seq<String>, topics: seq<String>): (r: seq<String>)
    ensures |r| <= 5
    ensures NoDuplicates(r)
    ensures forall t | t in r :: t in words || t in ["newsletter", "insights"] || t in topics
    ensures r <= Dedup(words + ["newsletter", "insights"] + topics)
    ensures |r| < 5 ==> forall t | t in words || t in ["newsletter", "insights"] || t in topics :: t in r
  {
    var items := words + ["newsletter", "insights"] + topics;
    var all := Dedup(items);
    var r := Take(all, 5);
    assert forall t | t in r :: t in all;
    assert forall t | t in words || t in ["newsletter", "insights"] || t in topics :: t in items;
    r
  }

  /** `generateTagsFromContent`: at most five distinct tags, each a long
      lower-cased prompt word, one of the two fixed tags or a topic tag. */
  function GenerateTags(content: String, prompt: String): (r: seq<String>)
    ensures |r| <= 5
    ensures NoDuplicates(r)
    ensures forall t | t in r :: (|t| > 3 && t in SplitSpaceRuns(ToLower(prompt)))
                                 || t in ["newsletter", "insights", TechnologyTag, AiTag, BusinessTag]
    ensures |r| < 5 ==> "newsletter" in r && "insights" in r
    ensures |r| < 5 ==> forall t | t in TopicTags(content) :: t in r
    ensures |r| < 5 ==> forall w | w in SplitSpaceRuns(ToLower(prompt)) && |w| > 3 :: w in r
  {
    TagList(PromptTags(prompt), TopicTags(content))
  }

  /** With at most three distinct long prompt words, both fixed tags make
      the cut. */
  lemma FixedTagsPresent(words: seq<String>, topics: seq<String>)
    requires |Dedup(words)| <= 3
    ensures "newsletter" in TagList(words, topics)
    ensures "insights" in TagList(words, topics)
  {
    TwoAfterThreeKept(words, "newsletter", "insights", topics);
  }

  lemma TwoAfterThreeKept(words: seq<String>, a: String, b: String, topics: seq<String>)
    requires |Dedup(words)| <= 3
    ensures a in Take(Dedup(words + [a, b] + topics), 5)
    ensures b in Take(Dedup(words + [a, b] + topics), 5)
  {
    DedupTwoMore(words, a, b);
    KeptInTake(a, words + [a, b], topics);
    KeptInTake(b, words + [a, b], topics);
  }

  lemma DedupTwoMore(words: seq<String>, a: String, b: String)
    requires |Dedup(words)| <= 3
    ensures |Dedup(words + [a, b])| <= 5
    ensures a in Dedup(words + [a, b]) && b in Dedup(words + [a, b])
  {
    var p1 := words + [a];
    DedupSnoc(words, a);
    DedupSnoc(p1, b);
    InPrefix(a, Dedup(p1), Dedup(p1 + [b]));
    assert p1 + [b] == words + [a, b];
  }

  lemma KeptInTake(x: String, xs: seq<String>, ys: seq<String>)
    requires x in Dedup(xs) && |Dedup(xs)| <= 5
    ensures x in Take(Dedup(xs + ys), 5)
  {
    DedupPrefix(xs, ys);
    InPrefix(x, Dedup(xs), Take(Dedup(xs + ys), 5));
  }

  lemma InPrefix(x: String, p: seq<String>, q: seq<String>)
    requires x in p && p <= q
    ensures x in q
  {
    var i :| 0 <= i < |p| && p[i] == x;
    assert q[i] == x;
  }

  /** The first long prompt word always leads the tag list. */
  lemma FirstWordLeads(words: seq<String>, topics: seq<String>)
    requires words != []
    ensures TagList(words, topics) != []
    ensures TagList(words, topics)[0] == words[0]
  {
    var rest := words[1..] + ["newsletter", "insights"] + topics;
    DedupPrefix([words[0]], rest);
    assert [words[0]] + rest == words + ["newsletter", "insights"] + topics;
    assert Dedup([words[0]]) == [words[0]] by {
      assert [words[0]][..0] == [];
    }
  }

  /** `technology` already contains `tech`, so that test alone decides the
      technology tag. */
  lemma TechnologyTestIsRedundant(low: String)
    ensures Includes(low, TechnologyTag) ==> Includes(low, "tech")
  {
    if Includes(low, TechnologyTag) {
      var i := IndexOf(low, TechnologyTag);
      assert low[i..i + 4] == TechnologyTag[..4];
      IncludesWitness(low, "tech", i);
    }
  }

  // ---------------------------------------------------------------------------
  // Swapping placeholders for generated images
  // ---------------------------------------------------------------------------

  /** `content.match(/!\[(.*?)\]\((.*?)\)/g)`. */
  function Placeholders(content: String): seq<Link> {
    ScanLinks(content, 0, "![")
  }

  /** The image model: the `n`-th request, for a description and the
      newsletter title, yields a URL or nothing.  A `null` reply and a thrown
      error, which `generateNewsletterImage` and the loop both swallow, are
      both `None`. */
  type ImageOracle = (nat, String, String) -> Option<String>

  /** `if (actualImageUrl)`: an empty URL counts as a failure. */
  predicate Granted(reply: Option<String>) {
    reply.Some? && reply.value != []
  }

  /** `description && description.trim()`: the description is non-empty
      and not all white space. */
  predicate IsSendable(d: String)
    ensures IsSendable(d) <==> !IsBlank(d)
  {
    TrimEmptyIffBlank(d);
    d != [] && Trim(d) != []
  }

  /** The placeholder descriptions that are sent to the image model, in
      order: the sendable ones. */
  function Requests(ms: seq<Link>): (r: seq<String>)
    ensures |r| <= |ms|
    ensures forall k | 0 <= k < |r| :: !IsBlank(r[k])
    ensures forall d :: d in r <==> IsSendable(d) && exists k | 0 <= k < |ms| :: ms[k].text == d
  {
    if ms == [] then []
    else
      var n := |ms| - 1;
      var init := Requests(ms[..n]);
      var d := ms[n].text;
      assert forall k | 0 <= k < n :: ms[..n][k] == ms[k];
      if IsSendable(d) then init + [d] else init
  }

  /** The descriptions of the matches, in order. */
  function Texts(ms: seq<Link>): (r: seq<String>)
    ensures |r| == |ms| && forall k | 0 <= k < |ms| :: r[k] == ms[k].text
  {
    if ms == [] then [] else [ms[0].text] + Texts(ms[1..])
  }

  /** The sendable descriptions among `ds`, in order. */
  function Sendable(ds: seq<String>): (r: seq<String>)
    ensures forall d :: d in r <==> d in ds && IsSendable(d)
  {
    if ds == [] then []
    else (if IsSendable(ds[0]) then [ds[0]] else []) + Sendable(ds[1..])
  }

  lemma {:induction false} SendableAppend(a: seq<String>, b: seq<String>)
    ensures Sendable(a + b) == Sendable(a) + Sendable(b)
  {
    if a == [] {
      assert a + b == b;
    } else {
      assert (a + b)[1..] == a[1..] + b;
      SendableAppend(a[1..], b);
    }
  }

  /** The requests are exactly the sendable descriptions, in match order. */
  lemma {:induction false} RequestsAreSendableTexts(ms: seq<Link>)
    ensures Requests(ms) == Sendable(Texts(ms))
  {
    if ms != [] {
      var n := |ms| - 1;
      RequestsAreSendableTexts(ms[..n]);
      TextsSnoc(ms);
      SendableAppend(Texts(ms[..n]), [ms[n].text]);
      assert Sendable([ms[n].text]) == if IsSendable(ms[n].text) then [ms[n].text] else [];
    }
  }

  lemma TextsSnoc(ms: seq<Link>)
    requires ms != []
    ensures Texts(ms) == Texts(ms[..|ms| - 1]) + [ms[|ms| - 1].text]
  {
  }

  /** Every request so far was refused. */
  predicate AllRefused(requests: seq<String>, title: String, oracle: ImageOracle) {
    forall k | 0 <= k < |requests| :: !Granted(oracle(k, requests[k], title))
  }

  /** The URLs the image model granted, in request order. */
  function GrantedUrls(requests: seq<String>, title: String, oracle: ImageOracle): (r: seq<String>)
    ensures |r| <= |requests|
    ensures forall k | 0 <= k < |r| :: r[k] != []
    ensures AllRefused(requests, title, oracle) ==> r == []
    ensures forall u :: u in r <==>
              exists k | 0 <= k < |requests| :: Granted(oracle(k, requests[k], title)) && oracle(k, requests[k], title).value == u
  {
    if requests == [] then []
    else
      var n := |requests| - 1;
      var init := GrantedUrls(requests[..n], title, oracle);
      var reply := oracle(n, requests[n], title);
      assert forall k | 0 <= k < n :: requests[..n][k] == requests[k];
      if Granted(reply) then init + [reply.value] else init
  }

  /** `![description](url)`. */
  function ImageMarkdown(description: String, url: String): (r: String)
    ensures |r| == |description| + |url| + 5
  {
    "![" + description + "](" + url + ")"
  }

  /** The content after the loop has handled the matches `ms` in turn: a
      sendable description whose request (numbered by the requests before
      it) is granted has the first occurrence of its placeholder text
      replaced by an image with the granted URL; any other match changes
      nothing. */
  function Substituted(generated: String, ms: seq<Link>, title: String, oracle: ImageOracle): (r: String)
    requires forall k | 0 <= k < |ms| :: ms[k].start <= ms[k].end <= |generated|
    ensures AllRefused(Requests(ms), title, oracle) ==> r == generated
  {
    if ms == [] then generated
    else
      var n := |ms| - 1;
      var prev := Substituted(generated, ms[..n], title, oracle);
      var m := ms[n];
      var reply := oracle(|Requests(ms[..n])|, m.text, title);
      RequestsStep(ms, n);
      assert ms[..n + 1] == ms;
      AllRefusedPrefix(Requests(ms[..n]), m.text, title, oracle);
      if IsSendable(m.text) && Granted(reply) then
        ReplaceFirst(prev, generated[m.start..m.end], ImageMarkdown(m.text, reply.value))
      else prev
  }

  /** One more match: the content so far, with that match handled. */
  lemma SubstitutedStep(generated: String, ms: seq<Link>, i: nat, title: String, oracle: ImageOracle)
    requires i < |ms|
    requires forall k | 0 <= k < |ms| :: ms[k].start <= ms[k].end <= |generated|
    ensures var m := ms[i];
            var prev := Substituted(generated, ms[..i], title, oracle);
            var reply := oracle(|Requests(ms[..i])|, m.text, title);
            Substituted(generated, ms[..i + 1], title, oracle) ==
              if IsSendable(m.text) && Granted(reply)
              then ReplaceFirst(prev, generated[m.start..m.end], ImageMarkdown(m.text, reply.value))
              else prev
  {
    assert ms[..i + 1][..i] == ms[..i] && ms[..i + 1][i] == ms[i];
  }

  /** The requests before the last were refused when all were; a granted
      last request means not all were refused. */
  lemma AllRefusedPrefix(requests: seq<String>, d: String, title: String, oracle: ImageOracle)
    ensures AllRefused(requests + [d], title, oracle) ==> AllRefused(requests, title, oracle)
    ensures Granted(oracle(|requests|, d, title)) ==> !AllRefused(requests + [d], title, oracle)
  {
    if AllRefused(requests + [d], title, oracle) {
      RefusedStep(requests, d, title, oracle);
    }
  }

  lemma RequestsStep(ms: seq<Link>, i: nat)
    requires i < |ms|
    ensures Requests(ms[..i + 1]) ==
              Requests(ms[..i]) + if IsSendable(ms[i].text) then [ms[i].text] else []
  {
    assert ms[..i + 1][..i] == ms[..i];
  }

  lemma GrantedStep(requests: seq<String>, d: String, title: String, oracle: ImageOracle)
    ensures var reply := oracle(|requests|, d, title);
            GrantedUrls(requests + [d], title, oracle) ==
              GrantedUrls(requests, title, oracle) + if Granted(reply) then [reply.value] else []
  {
    assert (requests + [d])[..|requests|] == requests;
  }

  lemma RefusedStep(requests: seq<String>, d: String, title: String, oracle: ImageOracle)
    requires AllRefused(requests + [d], title, oracle)
    ensures AllRefused(requests, title, oracle)
    ensures !Granted(oracle(|requests|, d, title))
  {
    assert (requests + [d])[|requests|] == d;
    forall k | 0 <= k < |requests|
      ensures !Granted(oracle(k, requests[k], title))
    {
      assert (requests + [d])[k] == requests[k];
    }
  }

  /** The loop over the placeholders of the generated content: every
      non-blank description is sent, in order; a granted URL replaces the
      first occurrence of the placeholder's text in the content so far and
      is recorded; a refusal leaves the placeholder in place. */
  method SubstituteImages(generated: String, title: String, oracle: ImageOracle)
    returns (content: String, images: seq<String>, requests: seq<String>)
    ensures requests == Requests(Placeholders(generated))
    ensures images == GrantedUrls(requests, title, oracle)
    ensures |images| <= |requests| <= |Placeholders(generated)|
    ensures AllRefused(requests, title, oracle) ==> content == generated && images == []
    ensures content == Substituted(generated, Placeholders(generated), title, oracle)
  {
    content, images, requests := SubstituteEach(generated, Placeholders(generated), title, oracle);
  }

  /** The loop itself, over any matches that lie within `generated`. */
  method SubstituteEach(generated: String, ms: seq<Link>, title: String, oracle: ImageOracle)
    returns (content: String, images: seq<String>, requests: seq<String>)
    requires forall k | 0 <= k < |ms| :: ms[k].start <= ms[k].end <= |generated|
    ensures requests == Requests(ms)
    ensures images == GrantedUrls(requests, title, oracle)
    ensures |images| <= |requests| <= |ms|
    ensures AllRefused(requests, title, oracle) ==> content == generated && images == []
    ensures content == Substituted(generated, ms, title, oracle)
  {
    content, images, requests := generated, [], [];
    var i := 0;
    while i < |ms|
      invariant 0 <= i <= |ms|
      invariant requests == Requests(ms[..i])
      invariant images == GrantedUrls(requests, title, oracle)
      invariant content == Substituted(generated, ms[..i], title, oracle)
    {
      var m := ms[i];
      RequestsStep(ms, i);
      SubstitutedStep(generated, ms, i, title, oracle);
      if IsSendable(m.text) {
        var reply := oracle(|requests|, m.text, title);
        GrantedStep(requests, m.text, title, oracle);
        if Granted(reply) {
          var placeholder := generated[m.start..m.end];
          content := ReplaceFirst(content, placeholder, ImageMarkdown(m.text, reply.value));
          images := images + [reply.value];
        }
        requests := requests + [m.text];
      }
      i := i + 1;
    }
    assert ms[..i] == ms;
  }

  /** A match at the very start: handled, it becomes the image when its
      request is granted and no `$` appears in the image text, and leaves
      the content as it is when the request is not made or is refused. */
  lemma SubstitutedAtStart(g: String, m: Link, title: String, oracle: ImageOracle)
    requires m.start == 0 <= m.end <= |g|
    ensures var reply := oracle(0, m.text, title);
            IsSendable(m.text) && Granted(reply) && '$' !in ImageMarkdown(m.text, reply.value) ==>
              Substituted(g, [m], title, oracle) == ImageMarkdown(m.text, reply.value) + g[m.end..]
    ensures !(IsSendable(m.text) && Granted(oracle(0, m.text, title))) ==>
              Substituted(g, [m], title, oracle) == g
  {
    var ms := [m];
    assert ms[..0] == [];
    var pat := g[0..m.end];
    assert OccursAt(g, pat, 0);
    assert IndexOf(g, pat) == 0;
    assert g[..0] == [];
  }

  /** The scan of `![d](u)` followed by text without `![` finds that
      placeholder alone. */
  lemma PlaceholderAlone(d: String, u: String, rest: String)
    requires NoLineTerminator(d) && NoLineTerminator(u)
    requires !Includes(d, "](") && ')' !in u
    requires !Includes(rest, "![")
    ensures var g := ImageMarkdown(d, u) + rest;
            Placeholders(g) == [Link(0, d, u, |d| + |u| + 5)]
  {
    var g := ImageMarkdown(d, u) + rest;
    var e := |d| + |u| + 5;
    PlaceholderRoundTrip(d, u, rest);
    assert NextLink(g, 0, "![") == LinkAt(g, 0, "![");
    assert g[e..] == rest;
    forall q | e <= q <= |g|
      ensures !OccursAt(g, "![", q)
    {
      if OccursAt(g, "![", q) {
        assert rest[q - e..q - e + 2] == g[q..q + 2];
        IncludesWitness(rest, "![", q - e);
      }
    }
    ScanWithoutOpener(g, e, "![");
  }

  /** A reply holding one placeholder `![d](u)`, written the way the prompt
      asks for: the scan finds it alone; when its description is sendable
      and the image model grants a URL, the placeholder becomes an image
      with that URL and the rest of the reply is kept; otherwise the reply
      is kept as it is.  A `$` in the description or URL would be read as a
      replacement pattern, so the first case asks for none. */
  lemma LonePlaceholder(d: String, u: String, rest: String, title: String, oracle: ImageOracle)
    requires NoLineTerminator(d) && NoLineTerminator(u)
    requires !Includes(d, "](") && ')' !in u
    requires !Includes(rest, "![")
    ensures var g := ImageMarkdown(d, u) + rest;
            var reply := oracle(0, d, title);
            IsSendable(d) && Granted(reply) && '$' !in d && '$' !in reply.value ==>
              Substituted(g, Placeholders(g), title, oracle) == ImageMarkdown(d, reply.value) + rest
    ensures var g := ImageMarkdown(d, u) + rest;
            !(IsSendable(d) && Granted(oracle(0, d, title))) ==>
              Substituted(g, Placeholders(g), title, oracle) == g
  {
    var g := ImageMarkdown(d, u) + rest;
    var m := Link(0, d, u, |d| + |u| + 5);
    PlaceholderAlone(d, u, rest);
    SubstitutedAtStart(g, m, title, oracle);
    assert g[m.end..] == rest;
    var reply := oracle(0, d, title);
    if reply.Some? && '$' !in d && '$' !in reply.value {
      assert '$' !in ImageMarkdown(d, reply.value);
    }
  }

  /** The URLs of `\[.*?\]\((.*?)\)` matches that are non-empty and not
      generated images, in order. */
  function VideoUrls(links: seq<Link>, images: seq<String>): (r: seq<String>)
    ensures |r| <= |links|
    ensures forall k | 0 <= k < |r| :: r[k] != [] && r[k] !in images
    ensures forall u :: u in r <==> u != [] && u !in images && exists k | 0 <= k < |links| :: links[k].url == u
  {
    if links == [] then []
    else
      var rest := VideoUrls(links[1..], images);
      var u := links[0].url;
      assert forall k | 0 <= k < |links| - 1 :: links[1..][k] == links[k + 1];
      if u != [] && u !in images then [u] + rest else rest
  }

  /** `finalContent.match(/\[.*?\]\((.*?)\)/g)` filtered as above. */
  function Videos(content: String, images: seq<String>): seq<String> {
    VideoUrls(ScanLinks(content, 0, "["), images)
  }

  // ---------------------------------------------------------------------------
  // generateNewsletterContent and enhancePrompt
  // ---------------------------------------------------------------------------

  /** What the chat model call produces: the first choice's text (empty when
      it is missing), or a thrown error with its message, if it has one. */
  datatype ChatReply = Answered(text: String) | Threw(message: Option<String>)

  datatype Generated = Generated(
    title: String,
    content: String,
    description: String,
    excerpt: String,
    tags: seq<String>,
    readTime: nat,
    images: Option<seq<String>>,
    videos: Option<seq<String>>)

  /** The outcome, whether the chat model was asked, and the descriptions
      sent to the image model. */
  datatype GenerationRun = GenerationRun(
    result: Result<Generated, String>,
    chatAsked: bool,
    imageRequests: seq<String>)

  const MissingKeyForGeneration: String :=
    "OpenAI API key not configured. Please set OPENAI_API_KEY environment variable."
  const NoContentGenerated: String := "No content generated by AI"
  const GenerationFailed: String := "Failed to generate content"

  /** What a successful `generateNewsletterContent` returns for the reply
      `text`: the title, description, excerpt, tags and read time derived
      from it; with media, the content after the image loop, the granted
      URLs and the video links of that content; without media, the reply
      itself and no media lists. */
  predicate GeneratedFrom(
    g: Generated, text: String, prompt: String, customTitle: Option<String>, includeMedia: bool,
    oracle: ImageOracle)
  {
    && g.title == GeneratedTitle(text, customTitle, prompt)
    && g.description == Describe(Body(text))
    && g.excerpt == Excerpt(Body(text))
    && g.tags == GenerateTags(text, prompt)
    && g.readTime == ReadTime(WordCount(text))
    && (includeMedia ==>
          && g.content == Substituted(text, Placeholders(text), g.title, oracle)
          && g.images == Some(GrantedUrls(Requests(Placeholders(text)), g.title, oracle))
          && g.videos == Some(Videos(g.content, g.images.value)))
    && (!includeMedia ==> g.content == text && g.images.None? && g.videos.None?)
  }

  /** `generateNewsletterContent`. */
  method GenerateNewsletterContent(
    apiKeyConfigured: bool, prompt: String, customTitle: Option<String>, includeMedia: bool,
    chat: ChatReply, oracle: ImageOracle)
    returns (run: GenerationRun)
    ensures !apiKeyConfigured ==>
              run == GenerationRun(Failure(MissingKeyForGeneration), false, [])
    ensures apiKeyConfigured ==> run.chatAsked
    ensures apiKeyConfigured && chat.Threw? ==>
              run.result == Failure(chat.message.GetOr(GenerationFailed)) && run.imageRequests == []
    ensures apiKeyConfigured && chat == Answered([]) ==>
              run.result == Failure(NoContentGenerated) && run.imageRequests == []
    ensures run.result.Success? <==> apiKeyConfigured && chat.Answered? && chat.text != []
    ensures run.result.Success? ==>
              var g := run.result.value;
              var text := chat.text;
              && g.title == GeneratedTitle(text, customTitle, prompt)
              && g.description == Describe(Body(text))
              && g.excerpt == Excerpt(Body(text))
              && g.tags == GenerateTags(text, prompt)
              && g.readTime == ReadTime(WordCount(text))
              && (g.images.Some? <==> includeMedia)
              && (g.videos.Some? <==> includeMedia)
    ensures run.result.Success? ==>
              GeneratedFrom(run.result.value, chat.text, prompt, customTitle, includeMedia, oracle)
    ensures run.result.Success? && !includeMedia ==>
              run.result.value.content == chat.text && run.imageRequests == []
    ensures run.result.Success? && includeMedia ==>
              var g := run.result.value;
              && run.imageRequests == Requests(Placeholders(chat.text))
              && g.images.value == GrantedUrls(run.imageRequests, g.title, oracle)
              && g.content == Substituted(chat.text, Placeholders(chat.text), g.title, oracle)
              && (AllRefused(run.imageRequests, g.title, oracle) ==> g.content == chat.text)
              && g.videos.value == Videos(g.content, g.images.value)
  {
    if !apiKeyConfigured {
      return GenerationRun(Failure(MissingKeyForGeneration), false, []);
    }
    match chat
    case Threw(message) =>
      run := GenerationRun(Failure(message.GetOr(GenerationFailed)), true, []);
    case Answered(text) =>
      if text == [] {
        return GenerationRun(Failure(NoContentGenerated), true, []);
      }
      var title := GeneratedTitle(text, customTitle, prompt);
      var body := Body(text);
      var g := Generated(title, text, Describe(body), Excerpt(body),
                         GenerateTags(text, prompt), ReadTime(WordCount(text)), None, None);
      if includeMedia {
        var content, images, requests := SubstituteImages(text, title, oracle);
        g := g.(content := content, images := Some(images), videos := Some(Videos(content, images)));
        run := GenerationRun(Success(g), true, requests);
      } else {
        run := GenerationRun(Success(g), true, []);
      }
  }

  datatype Enhancement = Enhancement(
    originalPrompt: String,
    enhancedPrompt: String,
    imageSuggestions: seq<String>,
    videoSuggestions: seq<String>,
    reasoning: String)

  const MissingKeyForEnhancement: String := "OpenAI API key not configured"
  const NoEnhancement: String := "No enhancement generated"
  const EnhancementFailed: String := "Failed to enhance prompt"
  const FallbackReasoning: String := "Enhanced prompt generated"

  /** `enhancePrompt`: `parse` stands for `JSON.parse`, `None` for a reply
      that is not JSON. */
  function EnhancePrompt(
    apiKeyConfigured: bool, originalPrompt: String, chat: ChatReply,
    parse: String -> Option<Enhancement>): (r: Result<Enhancement, String>)
    ensures !apiKeyConfigured ==> r == Failure(MissingKeyForEnhancement)
    ensures r.Success? <==> apiKeyConfigured && chat.Answered? && chat.text != []
    ensures r.Success? && parse(chat.text).Some? ==> r.value == parse(chat.text).value
    ensures r.Success? && parse(chat.text).None? ==>
              && r.value.originalPrompt == originalPrompt
              && r.value.enhancedPrompt == chat.text
              && r.value.imageSuggestions == [] && r.value.videoSuggestions == []
              && r.value.reasoning == FallbackReasoning
    ensures apiKeyConfigured && chat.Threw? ==> r == Failure(chat.message.GetOr(EnhancementFailed))
    ensures apiKeyConfigured && chat == Answered([]) ==> r == Failure(NoEnhancement)
  {
    if !apiKeyConfigured then Failure(MissingKeyForEnhancement)
    else match chat
      case Threw(message) => Failure(message.GetOr(EnhancementFailed))
      case Answered(text) =>
        if text == [] then Failure(NoEnhancement)
        else match parse(text)
          case Some(e) => Success(e)
          case None => Success(Enhancement(originalPrompt, text, [], [], FallbackReasoning))
  }
}

=== FILE: auth.dfy ===
/** The page-side gates of lib/auth.ts.  Next.js's `redirect()` ends the
    request by throwing; the model returns the redirect target instead. */
module Auth {
  import opened Wrappers
  import opened Strings
  import opened Schema
  import opened Queries
  import opened AdminAuth

  /** How a server function ends: with a value, by redirecting, or by
      throwing an error with a message. */
  datatype Flow<+T> = Continue(value: T) | Redirect(path: String) | Throw(message: String)

  const SignInPath: String := "/sign-in"
  const HomePath: String := "/"

  /** `getCurrentUser`: the session's user id, as the identity provider
      reports it. */
  function GetCurrentUser(session: Session): (r: Option<UserId>)
    ensures (r.Some? && r.value != []) <==> SignedIn(session)
    ensures RequireAuth(session).Continue? ==> r == Some(RequireAuth(session).value)
  {
    session
  }

  /** `requireAuth`: the signed-in user's id, or a redirect to the sign-in
      page. */
  function RequireAuth(session: Session): (r: Flow<UserId>)
    ensures r.Continue? <==> SignedIn(session)
    ensures r.Continue? ==> r.value == session.value && r.value != []
    ensures !r.Continue? ==> r == Redirect(SignInPath)
  {
    if !SignedIn(session) then Redirect(SignInPath) else Continue(session.value)
  }

  /** `requireAdmin`: sign-in first, then the role; non-admins go home. */
  function RequireAdmin(session: Session, users: Users): (r: Flow<UserId>)
    ensures !SignedIn(session) ==> r == Redirect(SignInPath)
    ensures SignedIn(session) && !IsUserAdmin(users, session.value) ==> r == Redirect(HomePath)
    ensures r.Continue? <==> SignedIn(session) && IsUserAdmin(users, session.value)
    ensures r.Continue? ==> r.value == session.value
  {
    match RequireAuth(session)
    case Continue(id) => if !IsUserAdmin(users, id) then Redirect(HomePath) else Continue(id)
    case Redirect(path) => Redirect(path)
    case Throw(message) => Throw(message)
  }

  /** `isCurrentUserAdmin`: false without a session, else `isUserAdmin`. */
  predicate IsCurrentUserAdmin(session: Session, users: Users)
    ensures !SignedIn(session) ==> !IsCurrentUserAdmin(session, users)
    ensures SignedIn(session) ==> (IsCurrentUserAdmin(session, users) <==> IsUserAdmin(users, session.value))
  {
    var id := GetCurrentUser(session);
    if id.None? || id.value == [] then false else IsUserAdmin(users, id.value)
  }

  /** The page gate, the API gate and the boolean check agree on who is let
      through, and a caller turned away by the API with 401 is the one the
      page gate sends to sign in. */
  lemma GatesAgree(session: Session, users: Users)
    ensures RequireAdmin(session, users).Continue? <==> RequireAdminAuth(session, users).None?
    ensures RequireAdmin(session, users).Continue? <==> IsCurrentUserAdmin(session, users)
    ensures RequireAdminAuth(session, users) == Some(AuthenticationRequired) <==>
              RequireAdmin(session, users) == Redirect(SignInPath)
  {
  }
}

=== FILE: dashboard.dfy ===
/** The logic of app/admin/admin-dashboard-client.tsx that is not
    rendering: `getFirstParagraphs` for the view dialog, the local
    newsletter list after a delete or a publish, and the guards that decide
    whether a generate or publish request is sent at all. */
module Dashboard {
  import opened Wrappers
  import opened Strings
  import opened Schema
  import opened Http
  import opened Slugs
  import opened AiGenerateRoute

  // ---------------------------------------------------------------------------
  // getFirstParagraphs
  // ---------------------------------------------------------------------------

  /** `markdown.replace(/\r\n/g, '\n')`: each CR LF pair, found left to
      right, becomes one LF. */
  function NormalizeNewlines(s: String): (r: String)
    ensures |r| <= |s|
  {
    if |s| >= 2 && s[0] == '\r' && s[1] == '\n' then "\n" + NormalizeNewlines(s[2..])
    else if s == [] then []
    else [s[0]] + NormalizeNewlines(s[1..])
  }

  /** Every CR is the first half of a CR LF pair. */
  predicate CrOnlyBeforeLf(s: String) {
    forall i | 0 <= i < |s| && s[i] == '\r' :: i + 1 < |s| && s[i + 1] == '\n'
  }

  /** Under `CrOnlyBeforeLf` the normalised text has no CR left. */
  lemma {:induction false} NormalizedHasNoCr(s: String)
    requires CrOnlyBeforeLf(s)
    ensures '\r' !in NormalizeNewlines(s)
    decreases |s|
  {
    if |s| >= 2 && s[0] == '\r' && s[1] == '\n' {
      assert CrOnlyBeforeLf(s[2..]) by {
        forall i | 0 <= i < |s[2..]| && s[2..][i] == '\r'
          ensures i + 1 < |s[2..]| && s[2..][i + 1] == '\n'
        {
          assert s[i + 2] == '\r';
        }
      }
      NormalizedHasNoCr(s[2..]);
    } else if s != [] {
      assert s[0] != '\r';
      assert CrOnlyBeforeLf(s[1..]) by {
        forall i | 0 <= i < |s[1..]| && s[1..][i] == '\r'
          ensures i + 1 < |s[1..]| && s[1..][i + 1] == '\n'
        {
          assert s[i + 1] == '\r';
        }
      }
      NormalizedHasNoCr(s[1..]);
    }
  }

  /** Text without a CR is already normalised. */
  lemma {:induction false} NormalizeWithoutCr(s: String)
    requires '\r' !in s
    ensures NormalizeNewlines(s) == s
    decreases |s|
  {
    if s != [] {
      assert s[0] != '\r';
      assert '\r' !in s[1..];
      NormalizeWithoutCr(s[1..]);
    }
  }

  /** No two line feeds in a row. */
  predicate NoBlankLine(s: String) {
    forall i | 0 <= i < |s| - 1 :: !(s[i] == '\n' && s[i + 1] == '\n')
  }

  /** Drops a leading run of line feeds. */
  function SkipNewlines(s: String): (r: String)
    ensures |r| <= |s|
    ensures r == [] || r[0] != '\n'
  {
    if s != [] && s[0] == '\n' then SkipNewlines(s[1..]) else s
  }

  /** The scan behind `SplitBlankRuns`: `cur` is the piece read so far. */
  function SplitBlankRunsFrom(s: String, cur: String): (parts: seq<String>)
    ensures |parts| >= 1
    decreases |s|
  {
    if s == [] then [cur]
    else if |s| >= 2 && s[0] == '\n' && s[1] == '\n' then [cur] + SplitBlankRunsFrom(SkipNewlines(s), [])
    else SplitBlankRunsFrom(s[1..], cur + [s[0]])
  }

  /** `s.split(/\n{2,}/)`: the pieces between the maximal runs of two or
      more line feeds. */
  function SplitBlankRuns(s: String): (parts: seq<String>)
    ensures |parts| >= 1
  {
    SplitBlankRunsFrom(s, [])
  }

  /** `.map(b => b.trim()).filter(b => b.length > 0)`. */
  function TrimmedNonEmpty(pieces: seq<String>): (r: seq<String>)
    ensures |r| <= |pieces|
  {
    if pieces == [] then []
    else
      var t := Trim(pieces[0]);
      if t == [] then TrimmedNonEmpty(pieces[1..]) else [t] + TrimmedNonEmpty(pieces[1..])
  }

  /** The paragraphs of a markdown text. */
  function Blocks(markdown: String): seq<String> {
    TrimmedNonEmpty(SplitBlankRuns(NormalizeNewlines(markdown)))
  }

  /** `Math.max(1, maxParagraphs)`. */
  function AtLeastOne(n: int): (r: nat)
    ensures r >= 1 && r >= n && (n >= 1 ==> r == n)
  {
    if n < 1 then 1 else n
  }

  /** `getFirstParagraphs`: empty exactly when the text has no paragraph,
      and otherwise led by the first paragraph
      (`FirstParagraphsAreLeadingBlocks` says which paragraphs follow). */
  function GetFirstParagraphs(markdown: String, maxParagraphs: int): (r: String)
    ensures r == [] <==> Blocks(markdown) == []
    ensures Blocks(markdown) != [] ==> Blocks(markdown)[0] <= r
  {
    var bs := Take(Blocks(markdown), AtLeastOne(maxParagraphs));
    BlocksAreParagraphs(markdown);
    JoinLedByFirst(bs, "\n\n");
    Join(bs, "\n\n")
  }

  /** A join begins with its first piece. */
  lemma JoinLedByFirst(bs: seq<String>, sep: String)
    ensures bs != [] ==> bs[0] <= Join(bs, sep)
    ensures bs == [] ==> Join(bs, sep) == []
  {
    if |bs| > 1 {
      assert Join(bs, sep) == bs[0] + (sep + Join(bs[1..], sep));
    }
  }

  /** What a paragraph looks like: non-empty, trimmed, and free of blank
      lines. */
  predicate IsBlock(b: String) {
    b != [] && IsTrimmed(b) && NoBlankLine(b)
  }

  predicate AllBlocks(bs: seq<String>) {
    forall k | 0 <= k < |bs| :: IsBlock(bs[k])
  }

  predicate NoneHas(bs: seq<String>, c: char) {
    forall k | 0 <= k < |bs| :: c !in bs[k]
  }

  // --- the pieces of a split ---

  predicate NoneBlank(ps: seq<String>) {
    forall k | 0 <= k < |ps| :: NoBlankLine(ps[k])
  }

  /** A piece is read one character at a time, and a line feed is taken
      into it only when the next character is not one. */
  lemma {:induction false} PiecesHaveNoBlankLine(s: String, cur: String)
    requires NoBlankLine(cur)
    requires cur != [] && cur[|cur| - 1] == '\n' ==> s == [] || s[0] != '\n'
    ensures NoneBlank(SplitBlankRunsFrom(s, cur))
    decreases |s|
  {
    if s == [] {
    } else if |s| >= 2 && s[0] == '\n' && s[1] == '\n' {
      var t := SkipNewlines(s);
      assert NoBlankLine([]);
      PiecesHaveNoBlankLine(t, []);
      var rest := SplitBlankRunsFrom(t, []);
      var ps := SplitBlankRunsFrom(s, cur);
      assert ps == [cur] + rest;
      forall k | 0 <= k < |ps| ensures NoBlankLine(ps[k]) {
        if k == 0 {
          assert ps[0] == cur;
          assert NoBlankLine(cur);
        } else {
          assert ps[k] == rest[k - 1];
          assert NoBlankLine(rest[k - 1]);
        }
      }
    } else {
      var next := cur + [s[0]];
      assert NoBlankLine(next) by {
        forall i | 0 <= i < |next| - 1
          ensures !(next[i] == '\n' && next[i + 1] == '\n')
        {
          if i + 1 < |cur| {
            assert next[i] == cur[i] && next[i + 1] == cur[i + 1];
          }
        }
      }
      assert SplitBlankRunsFrom(s, cur) == SplitBlankRunsFrom(s[1..], next);
      PiecesHaveNoBlankLine(s[1..], next);
    }
  }

  /** The pieces hold no character that neither the text nor the piece
      read so far holds. */
  lemma {:induction false} PiecesKeepAbsent(s: String, cur: String, c: char)
    requires c !in s && c !in cur
    ensures NoneHas(SplitBlankRunsFrom(s, cur), c)
    decreases |s|
  {
    if s == [] {
    } else if |s| >= 2 && s[0] == '\n' && s[1] == '\n' {
      SkipNewlinesSuffix(s);
      PiecesKeepAbsent(SkipNewlines(s), [], c);
    } else {
      assert c != s[0];
      assert c !in s[1..];
      PiecesKeepAbsent(s[1..], cur + [s[0]], c);
    }
  }

  lemma {:induction false} SkipNewlinesSuffix(s: String)
    ensures SkipNewlines(s) == s[|s| - |SkipNewlines(s)|..]
    decreases |s|
  {
    if s != [] && s[0] == '\n' {
      SkipNewlinesSuffix(s[1..]);
      assert s[1..][|s| - 1 - |SkipNewlines(s)|..] == s[|s| - |SkipNewlines(s)|..];
    }
  }

  /** An infix of text without blank lines has none. */
  lemma InfixNoBlankLine(s: String, k: nat, n: nat)
    requires k + n <= |s| && NoBlankLine(s)
    ensures NoBlankLine(s[k..k + n])
  {
    var t := s[k..k + n];
    forall i | 0 <= i < |t| - 1
      ensures !(t[i] == '\n' && t[i + 1] == '\n')
    {
      assert t[i] == s[k + i] && t[i + 1] == s[k + i + 1];
    }
  }

  /** Trimming keeps a text free of blank lines. */
  lemma TrimNoBlankLine(s: String)
    requires NoBlankLine(s)
    ensures NoBlankLine(Trim(s))
  {
    TrimInfix(s);
    var r := Trim(s);
    var k :| 0 <= k <= |s| - |r| && r == s[k..k + |r|];
    InfixNoBlankLine(s, k, |r|);
  }

  /** Trimming and dropping empty pieces leaves paragraphs. */
  lemma {:induction false} TrimmedNonEmptyBlocks(pieces: seq<String>, c: char)
    requires NoneBlank(pieces)
    ensures AllBlocks(TrimmedNonEmpty(pieces))
    ensures NoneHas(pieces, c) ==> NoneHas(TrimmedNonEmpty(pieces), c)
  {
    if pieces != [] {
      TrimmedNonEmptyBlocks(pieces[1..], c);
      TrimNoBlankLine(pieces[0]);
      if c !in pieces[0] {
        TrimKeepsAbsent(pieces[0], c);
      }
      assert NoneHas(pieces, c) ==> NoneHas(pieces[1..], c) by {
        if NoneHas(pieces, c) {
          forall k | 0 <= k < |pieces| - 1 ensures c !in pieces[1..][k] {
            assert pieces[1..][k] == pieces[k + 1];
          }
        }
      }
    }
  }

  /** Every block of a text is a paragraph, and, when every CR of the text
      precedes an LF, none holds a CR. */
  lemma BlocksAreParagraphs(markdown: String)
    ensures AllBlocks(Blocks(markdown))
    ensures CrOnlyBeforeLf(markdown) ==> NoneHas(Blocks(markdown), '\r')
  {
    var n := NormalizeNewlines(markdown);
    PiecesHaveNoBlankLine(n, []);
    assert SplitBlankRuns(n) == SplitBlankRunsFrom(n, []);
    if CrOnlyBeforeLf(markdown) {
      NormalizedHasNoCr(markdown);
      PiecesKeepAbsent(n, [], '\r');
    }
    TrimmedNonEmptyBlocks(SplitBlankRuns(n), '\r');
  }

  // --- splitting a join ---

  /** Reading a paragraph never meets a blank line. */
  lemma {:induction false} ReadBlock(b: String, rest: String, cur: String)
    requires NoBlankLine(b) && (b == [] || b[|b| - 1] != '\n')
    ensures SplitBlankRunsFrom(b + rest, cur) == SplitBlankRunsFrom(rest, cur + b)
    decreases |b|
  {
    if b == [] {
      assert b + rest == rest && cur + b == cur;
    } else {
      var t := b[1..];
      ReadBlockStep(b, rest);
      ReadChar(b[0], t + rest, cur);
      ReadBlock(t, rest, cur + [b[0]]);
      assert cur + [b[0]] + t == cur + b;
    }
  }

  /** One step of `ReadBlock`: the text splits into the first character
      and the rest of the paragraph, which keeps the paragraph's
      conditions, and the two together cannot start a blank line. */
  lemma ReadBlockStep(b: String, rest: String)
    requires b != [] && NoBlankLine(b) && b[|b| - 1] != '\n'
    ensures b + rest == [b[0]] + (b[1..] + rest)
    ensures NoBlankLine(b[1..]) && (b[1..] == [] || b[1..][|b[1..]| - 1] != '\n')
    ensures !(b[0] == '\n' && b[1..] + rest != [] && (b[1..] + rest)[0] == '\n')
  {
    InfixNoBlankLine(b, 1, |b| - 1);
    assert b[1..|b|] == b[1..];
    if |b| >= 2 {
      assert (b[1..] + rest)[0] == b[1];
    }
  }

  /** Reading a character that does not start a blank line adds it to the
      piece. */
  lemma ReadChar(c: char, t: String, cur: String)
    requires !(c == '\n' && t != [] && t[0] == '\n')
    ensures SplitBlankRunsFrom([c] + t, cur) == SplitBlankRunsFrom(t, cur + [c])
  {
    assert ([c] + t)[1..] == t;
  }

  /** The separator `\n\n` ends a piece. */
  lemma ReadSeparator(rest: String, cur: String)
    requires rest == [] || rest[0] != '\n'
    ensures SplitBlankRunsFrom("\n\n" + rest, cur) == [cur] + SplitBlankRunsFrom(rest, [])
  {
    var s := "\n\n" + rest;
    assert s[1..] == "\n" + rest;
    assert s[1..][1..] == rest;
    assert SkipNewlines(rest) == rest;
    assert SkipNewlines(s[1..]) == SkipNewlines(rest);
    assert SkipNewlines(s) == rest;
  }

  /** Splitting the paragraphs joined by blank lines gives them back. */
  lemma {:induction false} SplitJoinedBlocks(bs: seq<String>)
    requires bs != [] && AllBlocks(bs)
    ensures SplitBlankRuns(Join(bs, "\n\n")) == bs
  {
    var b := bs[0];
    assert IsBlock(b);
    assert b[|b| - 1] != '\n';
    if |bs| == 1 {
      ReadBlock(b, [], []);
      assert b + [] == b && [] + b == b;
      assert SplitBlankRunsFrom([], b) == [b];
      assert Join(bs, "\n\n") == b;
    } else {
      var rest := Join(bs[1..], "\n\n");
      assert AllBlocks(bs[1..]) by {
        forall k | 0 <= k < |bs| - 1 ensures IsBlock(bs[1..][k]) {
          assert bs[1..][k] == bs[k + 1];
        }
      }
      assert IsBlock(bs[1]);
      assert rest == [] || rest[0] != '\n' by {
        JoinStartsWithFirst(bs[1..]);
      }
      assert Join(bs, "\n\n") == b + "\n\n" + rest;
      assert b + "\n\n" + rest == b + ("\n\n" + rest);
      ReadBlock(b, "\n\n" + rest, []);
      assert [] + b == b;
      ReadSeparator(rest, b);
      SplitJoinedBlocks(bs[1..]);
      assert SplitBlankRuns(rest) == SplitBlankRunsFrom(rest, []);
      assert bs == [b] + bs[1..];
    }
  }

  lemma JoinStartsWithFirst(bs: seq<String>)
    requires bs != [] && bs[0] != []
    ensures Join(bs, "\n\n") != [] && Join(bs, "\n\n")[0] == bs[0][0]
  {
  }

  /** Paragraphs joined by blank lines hold no character none of them holds. */
  lemma {:induction false} JoinKeepsAbsent(bs: seq<String>, c: char)
    requires NoneHas(bs, c) && c != '\n'
    ensures c !in Join(bs, "\n\n")
  {
    if |bs| > 1 {
      assert NoneHas(bs[1..], c) by {
        forall k | 0 <= k < |bs| - 1 ensures c !in bs[1..][k] {
          assert bs[1..][k] == bs[k + 1];
        }
      }
      JoinKeepsAbsent(bs[1..], c);
    } else if |bs| == 1 {
      assert c !in bs[0];
    }
  }

  /** Paragraphs pass the trim-and-filter step unchanged. */
  lemma {:induction false} TrimmedNonEmptyOfBlocks(bs: seq<String>)
    requires AllBlocks(bs)
    ensures TrimmedNonEmpty(bs) == bs
  {
    if bs != [] {
      TrimmedIsFixpoint(bs[0]);
      assert AllBlocks(bs[1..]) by {
        forall k | 0 <= k < |bs| - 1 ensures IsBlock(bs[1..][k]) {
          assert bs[1..][k] == bs[k + 1];
        }
      }
      TrimmedNonEmptyOfBlocks(bs[1..]);
    }
  }

  /** Paragraphs without a CR, joined by blank lines, read back as the same
      paragraphs. */
  lemma BlocksOfJoin(bs: seq<String>)
    requires AllBlocks(bs) && NoneHas(bs, '\r')
    ensures Blocks(Join(bs, "\n\n")) == bs
  {
    var j := Join(bs, "\n\n");
    JoinKeepsAbsent(bs, '\r');
    NormalizeWithoutCr(j);
    if bs == [] {
      assert SplitBlankRuns(j) == [[]];
    } else {
      SplitJoinedBlocks(bs);
      TrimmedNonEmptyOfBlocks(bs);
    }
  }

  lemma TakeKeeps(bs: seq<String>, n: nat, c: char)
    requires AllBlocks(bs)
    ensures AllBlocks(Take(bs, n))
    ensures NoneHas(bs, c) ==> NoneHas(Take(bs, n), c)
  {
  }

  // --- the properties ---

  /** The paragraphs of the result are the first `max(1, maxParagraphs)`
      paragraphs of the text, in order, when every CR of the text precedes
      an LF. */
  lemma FirstParagraphsAreLeadingBlocks(markdown: String, maxParagraphs: int)
    requires CrOnlyBeforeLf(markdown)
    ensures Blocks(GetFirstParagraphs(markdown, maxParagraphs))
            == Take(Blocks(markdown), AtLeastOne(maxParagraphs))
    ensures |Blocks(GetFirstParagraphs(markdown, maxParagraphs))| <= AtLeastOne(maxParagraphs)
  {
    BlocksAreParagraphs(markdown);
    TakeKeeps(Blocks(markdown), AtLeastOne(maxParagraphs), '\r');
    BlocksOfJoin(Take(Blocks(markdown), AtLeastOne(maxParagraphs)));
  }

  /** A maximum below one still gives the first paragraph. */
  lemma NonPositiveMaxGivesFirstBlock(markdown: String, maxParagraphs: int)
    requires maxParagraphs < 1 && Blocks(markdown) != []
    ensures GetFirstParagraphs(markdown, maxParagraphs) == Blocks(markdown)[0]
  {
    assert Take(Blocks(markdown), 1) == [Blocks(markdown)[0]];
  }

  /** Applying the function twice with the same maximum is applying it
      once. */
  lemma FirstParagraphsIdempotent(markdown: String, maxParagraphs: int)
    requires CrOnlyBeforeLf(markdown)
    ensures GetFirstParagraphs(GetFirstParagraphs(markdown, maxParagraphs), maxParagraphs)
            == GetFirstParagraphs(markdown, maxParagraphs)
  {
    FirstParagraphsAreLeadingBlocks(markdown, maxParagraphs);
    var n := AtLeastOne(maxParagraphs);
    var t := Take(Blocks(markdown), n);
    assert Take(t, n) == t;
  }

  /** CR LF line ends give the same paragraphs as LF line ends. */
  lemma CrLfSameAsLf(markdown: String, maxParagraphs: int)
    requires CrOnlyBeforeLf(markdown)
    ensures GetFirstParagraphs(NormalizeNewlines(markdown), maxParagraphs)
            == GetFirstParagraphs(markdown, maxParagraphs)
  {
    NormalizedHasNoCr(markdown);
    NormalizeWithoutCr(NormalizeNewlines(markdown));
  }

  /** Without the condition, a lone CR before a CR LF pair survives one
      normalisation but not two, so the two sides above differ. */
  lemma LoneCrBreaksNormalisation()
    ensures GetFirstParagraphs("a\r\r\nb", 5) == "a\r\nb"
    ensures GetFirstParagraphs(NormalizeNewlines("a\r\r\nb"), 5) == "a\nb"
  {
    assert "b"[1..] == [];
    assert NormalizeNewlines("b") == "b";
    assert "\r\nb"[2..] == "b";
    assert NormalizeNewlines("\r\nb") == "\nb";
    assert "\r\r\nb"[1..] == "\r\nb";
    assert NormalizeNewlines("\r\r\nb") == "\r\nb";
    assert "a\r\r\nb"[1..] == "\r\r\nb";
    assert NormalizeNewlines("a\r\r\nb") == "a\r\nb";
    assert "a\r\nb"[1..] == "\r\nb";
    assert NormalizeNewlines("a\r\nb") == "a\nb";
    OneBlock("a\r\nb");
    OneBlock("a\nb");
  }

  /** A paragraph without a CR is its own only block and its own first
      paragraphs. */
  lemma OneBlock(b: String)
    requires IsBlock(b)
    ensures SplitBlankRuns(b) == [b]
    ensures TrimmedNonEmpty([b]) == [b]
    ensures Join(Take([b], 5), "\n\n") == b
  {
    SplitJoinedBlocks([b]);
    TrimmedNonEmptyOfBlocks([b]);
  }

  // ---------------------------------------------------------------------------
  // The local newsletter list
  // ---------------------------------------------------------------------------

  /** An entry of the dashboard's newsletter list: the columns it keeps of a
      row. */
  datatype Listed = Listed(id: nat, title: String, slug: String, status: Status, isPremium: bool, viewCount: nat)

  /** The entry for a row the server returned. */
  function ListedOf(row: NewsletterRow): Listed {
    Listed(row.id, row.title, row.slug, row.status, row.isPremium, row.viewCount)
  }

  /** `prev.filter(newsletter => newsletter.id !== target)`. */
  function RemoveId(list: seq<Listed>, target: nat): (r: seq<Listed>)
    ensures |r| <= |list|
    ensures forall x :: x in r <==> x in list && x.id != target
  {
    if list == [] then []
    else if list[0].id == target then RemoveId(list[1..], target)
    else [list[0]] + RemoveId(list[1..], target)
  }

  /** Removing from a concatenation removes from both halves, so the kept
      entries stay in their order. */
  lemma {:induction false} RemoveIdAppend(a: seq<Listed>, b: seq<Listed>, target: nat)
    ensures RemoveId(a + b, target) == RemoveId(a, target) + RemoveId(b, target)
  {
    if a != [] {
      assert (a + b)[1..] == a[1..] + b;
      RemoveIdAppend(a[1..], b, target);
    } else {
      assert a + b == b;
    }
  }

  /** A list without the target is left as it is. */
  lemma {:induction false} RemoveAbsentId(list: seq<Listed>, target: nat)
    requires forall k | 0 <= k < |list| :: list[k].id != target
    ensures RemoveId(list, target) == list
  {
    if list != [] {
      RemoveAbsentId(list[1..], target);
    }
  }

  /** `confirmDeleteNewsletter`: the list and the id awaiting deletion
      afterwards. `requestOk` is whether the DELETE request answered with a
      success status; a failed or thrown request only shows an error. A
      missing or zero id returns at once, before the `finally` that clears
      the selection. */
  function ConfirmDelete(list: seq<Listed>, target: Option<int>, requestOk: bool)
    : (r: (seq<Listed>, Option<int>))
    ensures target.None? || target.value == 0 ==> r == (list, target)
    ensures target.Some? && target.value != 0 ==> r.1.None?
    ensures !requestOk ==> r.0 == list
    ensures requestOk && target.Some? && target.value > 0 ==> r.0 == RemoveId(list, target.value)
    ensures forall x | x in r.0 :: x in list
  {
    match target
    case None => (list, target)
    case Some(id) =>
      if id == 0 then (list, target)
      else if !requestOk || id < 0 then (list, None)
      else (RemoveId(list, id), None)
  }

  /** After a successful delete no entry carries the id, and every other
      entry is still there. */
  lemma DeleteRemovesExactlyTarget(list: seq<Listed>, id: nat, x: Listed)
    requires id != 0
    ensures var after := ConfirmDelete(list, Some(id), true).0;
            (x in after <==> x in list && x.id != id)
  {
  }

  // ---------------------------------------------------------------------------
  // Generate and publish from the dashboard
  // ---------------------------------------------------------------------------

  /** The preview of a generated newsletter. */
  datatype Preview = Preview(title: String, content: String, prompt: String)

  /** The state of the AI panel and the list it feeds. */
  datatype PanelState = PanelState(
    newsletters: seq<Listed>,
    preview: Option<Preview>,
    showPreview: bool,
    editableTitle: String,
    editableContent: String,
    aiPrompt: String,
    aiTitle: String)

  /** `generateNewsletterWithAI`: the request it sends, or none when the
      prompt is blank. An empty title is sent as absent. */
  function GenerateRequest(aiPrompt: String, aiTitle: String): (r: Option<GenerateBody>)
    ensures r.None? <==> IsBlank(aiPrompt)
    ensures r.Some? ==> r.value.prompt == Some(aiPrompt) && !r.value.publish && r.value.content.None?
    ensures r.Some? ==> (r.value.title.Some? <==> aiTitle != []) && (aiTitle != [] ==> r.value.title == Some(aiTitle))
    ensures r.Some? ==> r.value.authorId.None? && r.value.includeMedia.None?
  {
    if IsBlank(aiPrompt) then None
    else Some(GenerateBody(Some(aiPrompt), if aiTitle == [] then None else Some(aiTitle), None, false, None, None))
  }

  /** A request the dashboard sends is never the route's `Prompt is
      required` case: it carries a non-empty prompt and no content to
      publish, so the route calls the AI service. */
  lemma GenerateRequestPassesPromptCheck(aiPrompt: String, aiTitle: String)
    requires GenerateRequest(aiPrompt, aiTitle).Some?
    ensures var body := GenerateRequest(aiPrompt, aiTitle).value;
            Truthy(body.prompt) && !(body.publish && Truthy(body.content))
  {
  }

  /** `publishPreviewNewsletter`: the request it sends, or none when there
      is no preview or the edited title or content is blank. */
  function PublishRequest(st: PanelState): (r: Option<GenerateBody>)
    ensures r.None? <==> st.preview.None? || IsBlank(st.editableTitle) || IsBlank(st.editableContent)
    ensures r.Some? ==>
              && r.value.publish
              && r.value.prompt == Some(st.preview.value.prompt)
              && r.value.title == Some(st.editableTitle) && r.value.content == Some(st.editableContent)
              && r.value.authorId.None? && r.value.includeMedia.None?
  {
    if st.preview.None? || IsBlank(st.editableTitle) || IsBlank(st.editableContent) then None
    else Some(GenerateBody(Some(st.preview.value.prompt), Some(st.editableTitle), Some(st.editableContent),
                           true, None, None))
  }

  /** A request the publish button sends takes the route's publish branch,
      and the newsletter it stores carries the edited title and content. */
  lemma PublishRequestPublishesEdits(st: PanelState, now: nat)
    requires PublishRequest(st).Some?
    ensures var body := PublishRequest(st).value;
            && body.publish && Truthy(body.content)
            && var n := PublishedRecord(body.title, body.content.value, AuthorOf(body), now);
               n.title == st.editableTitle && n.content == st.editableContent
  {
    var body := PublishRequest(st).value;
    assert st.editableTitle != [] && st.editableContent != [];
  }

  /** The state after the route answered a publish with `row`: the entry
      appended, and the preview and every input cleared. */
  function OnPublished(st: PanelState, row: NewsletterRow): (r: PanelState)
    ensures |r.newsletters| == |st.newsletters| + 1
    ensures r.newsletters[..|st.newsletters|] == st.newsletters
    ensures r.newsletters[|st.newsletters|] == ListedOf(row)
    ensures r.preview.None? && !r.showPreview
    ensures r.editableTitle == [] && r.editableContent == [] && r.aiPrompt == [] && r.aiTitle == []
  {
    PanelState(st.newsletters + [ListedOf(row)], None, false, [], [], [], [])
  }

  /** Once a publish went through, pressing the button again sends
      nothing: the preview it needs is gone. */
  lemma NoSecondPublish(st: PanelState, row: NewsletterRow)
    ensures PublishRequest(OnPublished(st, row)).None?
  {
  }
}

=== FILE: file_processing.dfy ===
/** Turning an uploaded file into newsletter fields (lib/file-processing.ts):
    the title, description, excerpt and reformatted content of a plain-text
    file, the placeholder output of the PDF and Word stubs, and the MIME-type
    allow-list with its human-readable descriptions. */
module FileProcessing {
  import opened Strings

  /** The four fields every extractor produces. */
  datatype ProcessedContent = ProcessedContent(
    title: String,
    description: String,
    content: String,
    excerpt: String)

  /** An uploaded file as the server sees it: its name, its declared MIME
      type and its text (what `file.text()` resolves to). */
  datatype UploadedFile = UploadedFile(name: String, mimeType: String, text: String)

  const TitleFallback: String := "Uploaded Newsletter"
  const DescriptionFallback: String := "Newsletter content from uploaded file"

  // ---------------------------------------------------------------------------
  // Title
  // ---------------------------------------------------------------------------

  /** The first ten lines of the text (`text.split('\n').slice(0, 10)`). */
  function TitleLines(text: String): seq<String> {
    Take(Split(text, "\n"), 10)
  }

  /** A trimmed line usable as a title: 11 to 99 characters, not a heading. */
  predicate IsTitleCandidate(t: String) {
    10 < |t| < 100 && !("#" <= t)
  }

  /** A line whose trimmed form is a title candidate. */
  predicate IsCandidateLine(line: String) {
    IsTitleCandidate(Trim(line))
  }

  /** The position of the first line whose trimmed form is a title candidate,
      or `|lines|` when there is none. */
  function FirstCandidate(lines: seq<String>): (k: nat)
    ensures k <= |lines|
    ensures k < |lines| ==> IsCandidateLine(lines[k])
    ensures forall j | 0 <= j < k :: !IsCandidateLine(lines[j])
  {
    if lines == [] then 0
    else if IsCandidateLine(lines[0]) then 0
    else 1 + FirstCandidate(lines[1..])
  }

  /** `extractTitleFromText`: the first trimmed line among the first ten that
      is a title candidate, else the fixed fallback. */
  function ExtractTitle(text: String): (r: String)
    ensures var lines := TitleLines(text);
            (exists j | 0 <= j < |lines| :: IsCandidateLine(lines[j])) ==>
              exists k | 0 <= k < |lines| ::
                r == Trim(lines[k]) && IsTitleCandidate(r)
                && forall j | 0 <= j < k :: !IsCandidateLine(lines[j])
    ensures var lines := TitleLines(text);
            (forall j | 0 <= j < |lines| :: !IsCandidateLine(lines[j])) ==>
              r == TitleFallback
    ensures r != []
  {
    var lines := TitleLines(text);
    var k := FirstCandidate(lines);
    if k < |lines| then Trim(lines[k]) else TitleFallback
  }

  // ---------------------------------------------------------------------------
  // Description and excerpt
  // ---------------------------------------------------------------------------

  /** `text.split('\n\n')[0]`: the text before the first blank line. */
  function FirstParagraph(text: String): String {
    Split(text, "\n\n")[0]
  }

  /** `extractDescriptionFromText`: the trimmed first paragraph cut to 200
      characters, with `...` exactly when something was cut; the fixed
      fallback when that paragraph has 20 characters or fewer. */
  function ExtractDescription(text: String): (r: String)
    ensures var p := Trim(FirstParagraph(text));
            && (|p| <= 20 ==> r == DescriptionFallback)
            && (20 < |p| <= 200 ==> r == p)
            && (200 < |p| ==> r == p[..200] + "...")
    ensures |r| <= 203
  {
    var p := Trim(FirstParagraph(text));
    if |p| > 20 then Take(p, 200) + (if |p| > 200 then "..." else "") else DescriptionFallback
  }

  /** `extractExcerptFromText`: newlines become spaces, the result is
      trimmed and cut to 200 characters, with `...` exactly when something
      was cut. */
  function ExtractExcerpt(text: String): (r: String)
    ensures '\n' !in r
    ensures |r| <= 203
    ensures var clean := Trim(ReplaceChar(text, '\n', ' '));
            && (|clean| <= 200 ==> r == clean)
            && (|clean| > 200 ==> r == clean[..200] + "...")
  {
    var clean := Trim(ReplaceChar(text, '\n', ' '));
    TrimKeepsAbsent(ReplaceChar(text, '\n', ' '), '\n');
    Take(clean, 200) + (if |clean| > 200 then "..." else "")
  }

  // ---------------------------------------------------------------------------
  // Content
  // ---------------------------------------------------------------------------

  /** A trimmed line shaped like a heading: short, no full stop, no comma. */
  predicate LooksLikeHeading(t: String) {
    |t| < 50 && '.' !in t && ',' !in t
  }

  /** The block one input line becomes. */
  function FormatLine(line: String): (r: String)
    ensures var t := Trim(line);
            && (t == [] ==> r == [])
            && (t != [] && LooksLikeHeading(t) ==> r == "## " + t)
            && (t != [] && !LooksLikeHeading(t) ==> r == t)
    ensures '\n' !in line ==> '\n' !in r
  {
    var t := Trim(line);
    assert '\n' !in line ==> '\n' !in t by {
      if '\n' !in line {
        TrimKeepsAbsent(line, '\n');
      }
    }
    if |t| == 0 then [] else if LooksLikeHeading(t) then "## " + t else t
  }

  function FormatLines(lines: seq<String>): (r: seq<String>)
    ensures |r| == |lines|
    ensures forall i | 0 <= i < |lines| :: r[i] == FormatLine(lines[i])
  {
    if lines == [] then [] else [FormatLine(lines[0])] + FormatLines(lines[1..])
  }

  /** Formatted lines hold no line feed. */
  lemma FormattedLinesUnbroken(lines: seq<String>)
    requires forall k | 0 <= k < |lines| :: '\n' !in lines[k]
    ensures forall k | 0 <= k < |lines| :: "\n\n"[0] !in FormatLines(lines)[k]
  {
    forall k | 0 <= k < |lines|
      ensures "\n\n"[0] !in FormatLines(lines)[k]
    {
      assert '\n' !in lines[k];
    }
  }

  /** `formatContent`: every line becomes one block, blocks are separated
      by a blank line, so splitting the result at its blank lines gives back
      the formatted lines. */
  function FormatContent(text: String): (r: String)
    ensures Split(r, "\n\n") == FormatLines(Split(text, "\n"))
  {
    var lines := Split(text, "\n");
    FormattedLinesUnbroken(lines);
    SplitJoin(FormatLines(lines), "\n\n");
    Join(FormatLines(lines), "\n\n")
  }

  /** A text without a line feed is one line, so it formats to that line's
      block alone, with no separator added. */
  lemma FormatContentSingleLine(text: String)
    requires '\n' !in text
    ensures FormatContent(text) == FormatLine(text)
  {
    SplitJoin([text], "\n");
    assert Split(text, "\n") == [text];
  }

  // ---------------------------------------------------------------------------
  // MIME types
  // ---------------------------------------------------------------------------

  const PdfType: String := "application/pdf"
  const DocType: String := "application/msword"
  const DocxType: String := "application/vnd.openxmlformats-officedocument.wordprocessingml.document"
  const TextType: String := "text/plain"
  const UnknownFileType: String := "Unknown File Type"

  /** `validateFileType`: the declared type is on the allow-list. */
  predicate ValidateFileType(mimeType: String) {
    mimeType in [PdfType, DocType, DocxType, TextType]
  }

  /** `getFileTypeDescription`. */
  function FileTypeDescription(mimeType: String): (r: String)
    ensures r == UnknownFileType <==> !ValidateFileType(mimeType)
  {
    if mimeType == PdfType then "PDF Document"
    else if mimeType == DocType then "Word Document (DOC)"
    else if mimeType == DocxType then "Word Document (DOCX)"
    else if mimeType == TextType then "Text File"
    else UnknownFileType
  }

  /** Accepted types get pairwise different descriptions: the description
      tells which of the four types it was given. */
  lemma DescriptionsIdentifyTypes(a: String, b: String)
    requires ValidateFileType(a) && ValidateFileType(b)
    ensures FileTypeDescription(a) == FileTypeDescription(b) <==> a == b
  {
  }

  // ---------------------------------------------------------------------------
  // Extractors
  // ---------------------------------------------------------------------------

  /** `processTextFile`. */
  function ProcessTextFile(text: String): (r: ProcessedContent)
    ensures r.title != [] && r.description != []
    ensures '\n' !in r.excerpt
  {
    ProcessedContent(ExtractTitle(text), ExtractDescription(text), FormatContent(text), ExtractExcerpt(text))
  }

  /** The fixed texts a placeholder extractor wraps around the file name. */
  datatype PlaceholderText = PlaceholderText(
    titlePrefix: String, descriptionPrefix: String, headingPrefix: String, note: String, excerptPrefix: String)

  const PdfPlaceholder: PlaceholderText := PlaceholderText(
    "PDF Document - ",
    "Content extracted from PDF: ",
    "# PDF Content from ",
    "\n\n*Note: Full PDF processing requires additional libraries like pdf-parse*",
    "PDF content from ")

  const WordPlaceholder: PlaceholderText := PlaceholderText(
    "Word Document - ",
    "Content extracted from Word document: ",
    "# Word Document Content from ",
    "\n\n*Note: Full Word document processing requires additional libraries like mammoth*",
    "Word document content from ")

  /** The content a placeholder extractor returns for the file `name`. */
  function Placeholder(t: PlaceholderText, name: String): ProcessedContent {
    ProcessedContent(t.titlePrefix + name, t.descriptionPrefix + name,
                     t.headingPrefix + name + t.note, t.excerptPrefix + name)
  }

  /** `processPDFFile`: a placeholder naming the file; no text is read. */
  function ProcessPdfFile(name: String): (r: ProcessedContent)
    ensures "PDF Document - " <= r.title && |name| <= |r.title| && r.title[|r.title| - |name|..] == name
    ensures r.title != [] && r.description != [] && r.excerpt != []
  {
    Placeholder(PdfPlaceholder, name)
  }

  /** `processWordFile`: a placeholder naming the file; no text is read. */
  function ProcessWordFile(name: String): (r: ProcessedContent)
    ensures "Word Document - " <= r.title && |name| <= |r.title| && r.title[|r.title| - |name|..] == name
    ensures r.title != [] && r.description != [] && r.excerpt != []
  {
    Placeholder(WordPlaceholder, name)
  }
}

=== FILE: http.dfy ===
/** The shapes the API routes answer with, and JavaScript truthiness of the
    optional string fields they read from a request. */
module Http {
  import opened Wrappers
  import opened Strings

  /** `NextResponse.json({ success: false, error }, { status })`. */
  datatype ErrorReply = ErrorReply(status: nat, error: String)

  /** A route's answer: the success envelope with its data (status 200), or
      an error reply. */
  datatype Reply<+T> = Ok(data: T) | Err(e: ErrorReply)

  /** `!!x` for a request field that is a string or absent: present and
      non-empty. */
  predicate Truthy(x: Option<String>) {
    x.Some? && x.value != []
  }

  /** `x || fallback`. */
  function OrElse(x: Option<String>, fallback: String): (r: String)
    ensures Truthy(x) ==> r == x.value
    ensures !Truthy(x) ==> r == fallback
  {
    if Truthy(x) then x.value else fallback
  }
}

=== FILE: link_scan.dfy ===
/** The two lazy regular expressions lib/ai-service.ts matches markdown
    links with: `!\[(.*?)\]\((.*?)\)` for image placeholders and
    `\[.*?\]\((.*?)\)` for links, each as a single match at a position,
    the leftmost match from a position, and the global scan `match(/.../g)`
    that collects the successive matches. */
module LinkScan {
  import opened Wrappers
  import opened Strings

  /** One match of `!\[(.*?)\]\((.*?)\)` (opener `![`) or `\[.*?\]\((.*?)\)`
      (opener `[`): it spans `start` to `end` and holds the bracketed `text`
      and the parenthesised `url`. */
  datatype Link = Link(start: nat, text: String, url: String, end: nat)

  /** A lazy `.*?` followed by the two literal characters `x` `y` (`\]\(`):
      the first position at or after `from`, without leaving the line, where
      they stand (`FindPairOnLineFirst`). */
  function FindPairOnLine(s: String, from: nat, x: char, y: char): (r: Option<nat>)
    requires from <= |s|
    ensures r.Some? ==> from <= r.value && r.value + 1 < |s| && s[r.value] == x && s[r.value + 1] == y
    decreases |s| - from
  {
    if from + 1 < |s| && s[from] == x && s[from + 1] == y then Some(from)
    else if from == |s| || IsLineTerminator(s[from]) then None
    else FindPairOnLine(s, from + 1, x, y)
  }

  /** A lazy `.*?` followed by the literal character `c` (`\)`): the first
      position at or after `from`, without leaving the line, where it stands
      (`FindCharOnLineFirst`). */
  function FindCharOnLine(s: String, from: nat, c: char): (r: Option<nat>)
    requires from <= |s|
    ensures r.Some? ==> from <= r.value < |s| && s[r.value] == c
    decreases |s| - from
  {
    if from == |s| then None
    else if s[from] == c then Some(from)
    else if IsLineTerminator(s[from]) then None
    else FindCharOnLine(s, from + 1, c)
  }

  /** What `FindPairOnLine` finds is the first occurrence and lies on the
      line of `from`; when it finds nothing, the pair starts nowhere on that
      line. */
  lemma {:induction false} FindPairOnLineFirst(s: String, from: nat, x: char, y: char)
    requires from <= |s|
    ensures var r := FindPairOnLine(s, from, x, y);
            && (r.Some? ==> forall j | from <= j < r.value :: !IsLineTerminator(s[j]) && !(s[j] == x && s[j + 1] == y))
            && (r.None? ==> forall j | from <= j <= LineEnd(s, from) && j + 1 < |s| :: !(s[j] == x && s[j + 1] == y))
    decreases |s| - from
  {
    if !(from + 1 < |s| && s[from] == x && s[from + 1] == y) && from < |s| && !IsLineTerminator(s[from]) {
      FindPairOnLineFirst(s, from + 1, x, y);
      assert FindPairOnLine(s, from, x, y) == FindPairOnLine(s, from + 1, x, y);
      assert LineEnd(s, from) == LineEnd(s, from + 1);
    }
  }

  /** What `FindCharOnLine` finds is the first occurrence and lies on the
      line of `from`; when it finds nothing, the character is absent from
      that line. */
  lemma {:induction false} FindCharOnLineFirst(s: String, from: nat, c: char)
    requires from <= |s|
    ensures var r := FindCharOnLine(s, from, c);
            && (r.Some? ==> forall j | from <= j < r.value :: !IsLineTerminator(s[j]) && s[j] != c)
            && (r.None? ==> forall j | from <= j <= LineEnd(s, from) && j < |s| :: s[j] != c)
    decreases |s| - from
  {
    if from < |s| && s[from] != c && !IsLineTerminator(s[from]) {
      FindCharOnLineFirst(s, from + 1, c);
      assert FindCharOnLine(s, from, c) == FindCharOnLine(s, from + 1, c);
      assert LineEnd(s, from) == LineEnd(s, from + 1);
    }
  }

  /** `FindPairOnLine` is pinned down by the first occurrence on the line. */
  lemma {:induction false} FindPairOnLineAt(s: String, from: nat, q: nat, x: char, y: char)
    requires from <= q && q + 1 < |s| && s[q] == x && s[q + 1] == y
    requires forall j | from <= j < q :: !IsLineTerminator(s[j]) && !(s[j] == x && s[j + 1] == y)
    ensures FindPairOnLine(s, from, x, y) == Some(q)
    decreases q - from
  {
    if from < q {
      FindPairOnLineAt(s, from + 1, q, x, y);
    }
  }

  /** `FindCharOnLine` is pinned down by the first occurrence on the line. */
  lemma {:induction false} FindCharOnLineAt(s: String, from: nat, e: nat, c: char)
    requires from <= e < |s| && s[e] == c
    requires forall j | from <= j < e :: !IsLineTerminator(s[j]) && s[j] != c
    ensures FindCharOnLine(s, from, c) == Some(e)
    decreases e - from
  {
    if from < e {
      FindCharOnLineAt(s, from + 1, e, c);
    }
  }

  /** The match of `opener`, lazy text, `](`, lazy url, `)` at `p`, if any.
      When the first `)` after the first `](` is not on the line, no later
      `](` on the line can help, so the lazy backtracking is settled by the
      first candidates. */
  function LinkAt(s: String, p: nat, opener: String): (r: Option<Link>)
    requires p <= |s|
    ensures r.Some? ==> r.value.start == p < r.value.end <= |s|
  {
    if !OccursAt(s, opener, p) then None
    else
      var a := p + |opener|;
      var bracket := FindPairOnLine(s, a, ']', '(');
      if bracket.None? then None
      else
        var q := bracket.value;
        var paren := FindCharOnLine(s, q + 2, ')');
        if paren.None? then None
        else Some(Link(p, s[a..q], s[q + 2..paren.value], paren.value + 1))
  }

  /** A match spells out the opener, its text, `](`, its url and `)`. */
  lemma LinkAtShape(s: String, p: nat, opener: String, l: Link)
    requires p <= |s| && LinkAt(s, p, opener) == Some(l)
    ensures s[p..l.end] == opener + l.text + "](" + l.url + ")"
  {
    var a := p + |opener|;
    var q := FindPairOnLine(s, a, ']', '(').value;
    var e := FindCharOnLine(s, q + 2, ')').value;
    assert l == Link(p, s[a..q], s[q + 2..e], e + 1);
    LinkShape(s, p, opener, q, e);
  }

  /** Neither the text nor the url of a match crosses a line. */
  lemma LinkAtOneLine(s: String, p: nat, opener: String, l: Link)
    requires p <= |s| && LinkAt(s, p, opener) == Some(l)
    ensures NoLineTerminator(l.text) && NoLineTerminator(l.url)
  {
    var a := p + |opener|;
    var q := FindPairOnLine(s, a, ']', '(').value;
    var e := FindCharOnLine(s, q + 2, ')').value;
    FindPairOnLineFirst(s, a, ']', '(');
    FindCharOnLineFirst(s, q + 2, ')');
    SliceNoTerminator(s, a, q);
    SliceNoTerminator(s, q + 2, e);
  }

  lemma SliceNoTerminator(s: String, i: nat, j: nat)
    requires i <= j <= |s|
    requires forall k | i <= k < j :: !IsLineTerminator(s[k])
    ensures NoLineTerminator(s[i..j])
  {
    forall k | 0 <= k < j - i
      ensures !IsLineTerminator(s[i..j][k])
    {
      assert s[i..j][k] == s[i + k];
    }
  }

  lemma SliceSplit(s: String, i: nat, j: nat, k: nat)
    requires i <= j <= k <= |s|
    ensures s[i..k] == s[i..j] + s[j..k]
  {
  }

  lemma LinkShape(s: String, p: nat, opener: String, q: nat, e: nat)
    requires OccursAt(s, opener, p) && p + |opener| <= q
    requires q + 2 <= e < |s| && s[q] == ']' && s[q + 1] == '(' && s[e] == ')'
    ensures s[p..e + 1] == opener + s[p + |opener|..q] + "](" + s[q + 2..e] + ")"
  {
    var a := p + |opener|;
    var x, y := s[a..q], s[q + 2..e];
    assert s[p..q] == opener + x by {
      SliceSplit(s, p, a, q);
    }
    assert s[p..q + 2] == opener + x + "](" by {
      SliceSplit(s, p, q, q + 2);
      assert s[q..q + 2] == [s[q], s[q + 1]];
    }
    assert s[p..e] == opener + x + "](" + y by {
      SliceSplit(s, p, q + 2, e);
    }
    assert s[p..e + 1] == opener + x + "](" + y + ")" by {
      SliceSplit(s, p, e, e + 1);
      assert s[e..e + 1] == [s[e]];
    }
  }

  /** The leftmost match starting at or after `p` (`NextLinkFirst`). */
  function NextLink(s: String, p: nat, opener: String): (r: Option<Link>)
    requires p <= |s|
    ensures r.Some? ==> p <= r.value.start < r.value.end <= |s|
    decreases |s| - p
  {
    if p == |s| then None
    else
      var l := LinkAt(s, p, opener);
      if l.Some? then l else NextLink(s, p + 1, opener)
  }

  /** `NextLink` finds the match at its start, and no match starts between
      `p` and there. */
  lemma {:induction false} NextLinkFirst(s: String, p: nat, opener: String)
    requires p <= |s|
    ensures var r := NextLink(s, p, opener);
            && (r.Some? ==> LinkAt(s, r.value.start, opener) == r)
            && forall q | p <= q < |s| && (r.None? || q < r.value.start) :: LinkAt(s, q, opener).None?
    decreases |s| - p
  {
    if p < |s| && LinkAt(s, p, opener).None? {
      NextLinkFirst(s, p + 1, opener);
      assert NextLink(s, p, opener) == NextLink(s, p + 1, opener);
    }
  }

  /** All matches of the global regular expression, left to right, from
      `p` on (`ScanLinksMatches`). */
  function ScanLinks(s: String, p: nat, opener: String): (r: seq<Link>)
    requires p <= |s|
    ensures forall k | 0 <= k < |r| :: p <= r[k].start < r[k].end <= |s|
    ensures forall k | 0 <= k < |r| - 1 :: r[k].end <= r[k + 1].start
    decreases |s| - p
  {
    match NextLink(s, p, opener)
    case None => []
    case Some(l) =>
      var rest := ScanLinks(s, l.end, opener);
      var r := [l] + rest;
      assert forall k | 1 <= k < |r| :: r[k] == rest[k - 1];
      r
  }

  /** Every item of `r` is the match at its own start. */
  predicate AllMatches(s: String, r: seq<Link>, opener: String) {
    forall k | 0 <= k < |r| :: r[k].start <= |s| && LinkAt(s, r[k].start, opener) == Some(r[k])
  }

  /** No match starts at or after `p` and before `e`. */
  predicate NoMatchBetween(s: String, p: nat, e: nat, opener: String) {
    forall q | p <= q < e && q <= |s| :: LinkAt(s, q, opener).None?
  }

  /** No match starts between one item's end and the next item's start, nor
      after the last item. */
  predicate NoneSkipped(s: String, r: seq<Link>, opener: String) {
    && (forall k | 0 <= k < |r| - 1 :: NoMatchBetween(s, r[k].end, r[k + 1].start, opener))
    && (r != [] ==> NoMatchBetween(s, r[|r| - 1].end, |s|, opener))
  }

  /** Every item of the scan is the match at its start, no match starts
      between `p` and the first item, and none is skipped after it: the scan
      is exactly the leftmost, non-overlapping matches a global regular
      expression finds. */
  lemma {:induction false} ScanLinksMatches(s: String, p: nat, opener: String)
    requires p <= |s|
    ensures AllMatches(s, ScanLinks(s, p, opener), opener)
    ensures var r := ScanLinks(s, p, opener);
            NoMatchBetween(s, p, if r == [] then |s| else r[0].start, opener)
    ensures NoneSkipped(s, ScanLinks(s, p, opener), opener)
    decreases |s| - p
  {
    NextLinkFirst(s, p, opener);
    var n := NextLink(s, p, opener);
    if n.Some? {
      var l := n.value;
      var rest := ScanLinks(s, l.end, opener);
      ScanLinksMatches(s, l.end, opener);
      assert AllMatches(s, rest, opener);
      var r := ScanLinks(s, p, opener);
      assert r == [l] + rest;
      forall k | 0 <= k < |r| - 1
        ensures NoMatchBetween(s, r[k].end, r[k + 1].start, opener)
      {
        if k == 0 {
          assert r[1] == rest[0];
        } else {
          assert r[k] == rest[k - 1] && r[k + 1] == rest[k];
        }
      }
      if rest != [] {
        assert r[|r| - 1] == rest[|rest| - 1];
      }
      forall k | 0 <= k < |r|
        ensures r[k].start <= |s| && LinkAt(s, r[k].start, opener) == Some(r[k])
      {
        if k == 0 {
          assert r[0] == l;
          assert LinkAt(s, l.start, opener) == n;
        } else {
          var m := rest[k - 1];
          assert r[k] == m;
          assert LinkAt(s, m.start, opener) == Some(m);
        }
      }
    }
  }

  /** Where the opener occurs nowhere from `p` on, the scan finds nothing. */
  lemma ScanWithoutOpener(s: String, p: nat, opener: String)
    requires p <= |s|
    requires forall q | p <= q <= |s| :: !OccursAt(s, opener, q)
    ensures ScanLinks(s, p, opener) == []
  {
    NextLinkFirst(s, p, opener);
  }

  /** A placeholder written the way the prompt asks for is read back with
      its description and URL, provided the description holds no `](` and
      the URL no `)`. */
  lemma PlaceholderRoundTrip(d: String, u: String, rest: String)
    requires NoLineTerminator(d) && NoLineTerminator(u)
    requires !Includes(d, "](") && ')' !in u
    ensures var s := "![" + d + "](" + u + ")" + rest;
            LinkAt(s, 0, "![") == Some(Link(0, d, u, |d| + |u| + 5))
  {
    var s := "![" + d + "](" + u + ")" + rest;
    var q := 2 + |d|;
    var e := q + 2 + |u|;
    PlaceholderLayout(d, u, rest);
    TextEndsAtBracket(s, 2, q);
    UrlEndsAtParen(s, q + 2, e);
    LinkAtFound(s, 0, "![", q, e);
  }

  lemma PlaceholderLayout(d: String, u: String, rest: String)
    ensures var s := "![" + d + "](" + u + ")" + rest;
            var q := 2 + |d|;
            var e := q + 2 + |u|;
            && e < |s| && s[..2] == "![" && s[2..q] == d && s[q] == ']' && s[q + 1] == '('
            && s[q + 2..e] == u && s[e] == ')'
  {
  }

  /** The lazy text from `a` stops at the first `](`, found at `q`. */
  lemma TextEndsAtBracket(s: String, a: nat, q: nat)
    requires a <= q && q + 1 < |s| && s[q] == ']' && s[q + 1] == '('
    requires NoLineTerminator(s[a..q]) && !Includes(s[a..q], "](")
    ensures FindPairOnLine(s, a, ']', '(') == Some(q)
  {
    var d := s[a..q];
    forall j | a <= j < q
      ensures !IsLineTerminator(s[j]) && !(s[j] == ']' && s[j + 1] == '(')
    {
      assert s[j] == d[j - a];
      if j + 1 < q {
        assert s[j + 1] == d[j + 1 - a];
        OccursAtPair(d, j - a, ']', '(');
        NoOccurrence(d, "](", j - a);
      }
    }
    FindPairOnLineAt(s, a, q, ']', '(');
  }

  /** The lazy url from `b` stops at the first `)`, found at `e`. */
  lemma UrlEndsAtParen(s: String, b: nat, e: nat)
    requires b <= e < |s| && s[e] == ')'
    requires NoLineTerminator(s[b..e]) && ')' !in s[b..e]
    ensures FindCharOnLine(s, b, ')') == Some(e)
  {
    forall j | b <= j < e
      ensures !IsLineTerminator(s[j]) && s[j] != ')'
    {
      assert s[j] == s[b..e][j - b];
    }
    FindCharOnLineAt(s, b, e, ')');
  }

  lemma LinkAtFound(s: String, p: nat, opener: String, q: nat, e: nat)
    requires p + |opener| <= |s| && OccursAt(s, opener, p)
    requires FindPairOnLine(s, p + |opener|, ']', '(') == Some(q)
    requires FindCharOnLine(s, q + 2, ')') == Some(e)
    ensures LinkAt(s, p, opener) == Some(Link(p, s[p + |opener|..q], s[q + 2..e], e + 1))
  {
    var a := p + |opener|;
    var bracket := FindPairOnLine(s, a, ']', '(');
    var paren := FindCharOnLine(s, bracket.value + 2, ')');
    assert LinkAt(s, p, opener) == Some(Link(p, s[a..bracket.value], s[bracket.value + 2..paren.value], paren.value + 1));
  }
}

=== FILE: queries.dfy ===
/** The queries of src/db/queries.ts that the authorization gates and the
    routes rely on, over in-memory tables.  Each write returns the new table
    together with the rows `returning()` hands back. */
module Queries {
  import opened Wrappers
  import opened Strings
  import opened Schema

  // ---------------------------------------------------------------------------
  // Users, tiers and roles
  // ---------------------------------------------------------------------------

  /** `getUserSubscriptionByClerkId`: the rows with that id, which the
      unique constraint limits to one. */
  function UserRows(users: Users, id: UserId): (r: seq<UserRow>)
    requires UsersKeyed(users)
    ensures |r| <= 1
    ensures r == [] <==> id !in users
    ensures forall k | 0 <= k < |r| :: r[k].clerkUserId == id
  {
    if id in users then [users[id]] else []
  }

  /** `createUserSubscription`: insert a row with the column defaults; a
      second row for the same id violates the unique constraint. */
  function CreateUserSubscription(users: Users, u: UserInsert, now: nat): (r: Result<(Users, UserRow), DbError>)
    requires UsersKeyed(users)
    ensures r.Failure? <==> u.clerkUserId in users
    ensures r.Failure? ==> r.error == UniqueViolation("clerkUserId")
    ensures r.Success? ==>
              && r.value.0 == users[u.clerkUserId := r.value.1]
              && UsersKeyed(r.value.0)
              && r.value.1 == NewUserRow(u, now)
              && r.value.1.clerkUserId == u.clerkUserId
              && r.value.1.email == u.email && r.value.1.name == u.name
              && r.value.1.tier == u.tier.GetOr(Free) && r.value.1.role == u.role.GetOr(User)
              && r.value.1.isActive == u.isActive.GetOr(true) && r.value.1.updatedAt == At(now)
  {
    if u.clerkUserId in users then Failure(UniqueViolation("clerkUserId"))
    else
      var row := NewUserRow(u, now);
      Success((users[u.clerkUserId := row], row))
  }

  /** `getUserTier`: the stored tier, `free` when there is no row. */
  function GetUserTier(users: Users, id: UserId): (r: Tier)
    ensures id in users ==> r == users[id].tier
    ensures id !in users ==> r == Free
  {
    if id in users then users[id].tier else Free
  }

  /** `getUserRole`: the stored role, `user` when there is no row. */
  function GetUserRole(users: Users, id: UserId): (r: Role)
    ensures id in users ==> r == users[id].role
    ensures id !in users ==> r == User
  {
    if id in users then users[id].role else User
  }

  /** `isUserAdmin`: the user has a row whose role is `admin` or
      `super_admin`. */
  predicate IsUserAdmin(users: Users, id: UserId)
    ensures IsUserAdmin(users, id) <==> id in users && users[id].role != User
  {
    var role := GetUserRole(users, id);
    role == Admin || role == SuperAdmin
  }

  /** `canUserAccessContent`: anyone may read free content; premium content
      needs a stored tier other than `free`. */
  function CanUserAccessContent(users: Users, id: UserId, isPremium: bool): (r: bool)
    ensures r <==> !isPremium || (id in users && users[id].tier != Free)
  {
    if !isPremium then true
    else if GetUserTier(users, id) == Free then false
    else true
  }

  /** A user without a row reads only free content and is no admin. */
  lemma UnknownUserIsFreeMember(users: Users, id: UserId)
    requires id !in users
    ensures !CanUserAccessContent(users, id, true) && CanUserAccessContent(users, id, false)
    ensures !IsUserAdmin(users, id)
  {
  }

  /** A user inserted without tier and role gets the schema defaults: the
      free tier, no admin rights, and an active row. */
  lemma NewUserDefaults(users: Users, u: UserInsert, now: nat)
    requires UsersKeyed(users) && u.clerkUserId !in users
    requires u.tier.None? && u.role.None? && u.isActive.None?
    ensures var r := CreateUserSubscription(users, u, now);
            && r.Success?
            && GetUserTier(r.value.0, u.clerkUserId) == Free
            && !IsUserAdmin(r.value.0, u.clerkUserId)
            && !CanUserAccessContent(r.value.0, u.clerkUserId, true)
            && r.value.1.isActive
  {
  }

  // ---------------------------------------------------------------------------
  // Granting and revoking admin rights
  // ---------------------------------------------------------------------------

  /** `setUserAsAdmin`: an existing row gets role `admin` and the given
      email and name, keeping its tier and active flag; otherwise a new row
      is inserted with tier `premium`, role `admin`, active. */
  function SetUserAsAdmin(users: Users, id: UserId, email: String, name: String, now: nat)
    : (r: (Users, seq<UserRow>))
    requires UsersKeyed(users)
    ensures |r.1| == 1 && r.0 == users[id := r.1[0]] && UsersKeyed(r.0)
    ensures var row := r.1[0];
            && row.clerkUserId == id && row.role == Admin
            && row.email == email && row.name == Some(name)
            && row.updatedAt == At(now)
    ensures id in users ==> r.1[0].tier == users[id].tier && r.1[0].isActive == users[id].isActive
    ensures id !in users ==> r.1[0].tier == Premium && r.1[0].isActive
  {
    if |UserRows(users, id)| > 0 then
      var row := users[id].(role := Admin, email := email, name := Some(name), updatedAt := At(now));
      (users[id := row], [row])
    else
      var row := NewUserRow(UserInsert(id, email, Some(name), Some(Premium), Some(Admin), Some(true)), now);
      (users[id := row], [row])
  }

  /** After `setUserAsAdmin` the user passes `isUserAdmin`, and nobody
      else's admin status or tier changes. */
  lemma SetUserAsAdminGrants(users: Users, id: UserId, email: String, name: String, now: nat, other: UserId)
    requires UsersKeyed(users) && other != id
    ensures var after := SetUserAsAdmin(users, id, email, name, now).0;
            && IsUserAdmin(after, id)
            && (IsUserAdmin(after, other) <==> IsUserAdmin(users, other))
            && GetUserTier(after, other) == GetUserTier(users, other)
  {
  }

  /** A `super_admin` passed to `setUserAsAdmin` comes out as a plain
      `admin`. */
  lemma SetUserAsAdminDemotesSuperAdmin(users: Users, id: UserId, email: String, name: String, now: nat)
    requires UsersKeyed(users) && id in users && users[id].role == SuperAdmin
    ensures GetUserRole(SetUserAsAdmin(users, id, email, name, now).0, id) == Admin
  {
  }

  /** `removeAdminRole`: the user's role becomes `user` and `updatedAt` the
      clock; nothing else changes, and an unknown id changes nothing. */
  function RemoveAdminRole(users: Users, id: UserId, now: nat): (r: (Users, seq<UserRow>))
    requires UsersKeyed(users)
    ensures UsersKeyed(r.0) && r.0.Keys == users.Keys
    ensures id !in users ==> r == (users, [])
    ensures id in users ==>
              && r.1 == [r.0[id]]
              && r.0[id] == users[id].(role := User, updatedAt := At(now))
    ensures forall other | other in users && other != id :: r.0[other] == users[other]
  {
    if id in users then
      var row := users[id].(role := User, updatedAt := At(now));
      (users[id := row], [row])
    else (users, [])
  }

  /** After `removeAdminRole` the user fails `isUserAdmin`, whether it was
      an `admin` or a `super_admin`, keeps its tier, and every other user's
      admin status is as before. */
  lemma RemoveAdminRoleRevokes(users: Users, id: UserId, now: nat, other: UserId)
    requires UsersKeyed(users) && other != id
    ensures var after := RemoveAdminRole(users, id, now).0;
            && !IsUserAdmin(after, id)
            && GetUserTier(after, id) == GetUserTier(users, id)
            && (IsUserAdmin(after, other) <==> IsUserAdmin(users, other))
  {
  }

  /** `getAllAdmins`: the active rows whose role is exactly `admin`. */
  function GetAllAdmins(users: Users): (r: set<UserRow>)
    requires UsersKeyed(users)
    ensures forall row | row in r :: IsUserAdmin(users, row.clerkUserId) && users[row.clerkUserId] == row
    ensures forall id | id in users :: users[id] in r <==> users[id].role == Admin && users[id].isActive
  {
    set id | id in users && users[id].role == Admin && users[id].isActive :: users[id]
  }

  /** The fields of an admin row that `getAdminData` and the set-admin
      route hand to the client. */
  datatype AdminSummary = AdminSummary(
    clerkUserId: UserId, email: String, name: Option<String>, role: Role, tier: Tier)

  function Summary(row: UserRow): AdminSummary {
    AdminSummary(row.clerkUserId, row.email, row.name, row.role, row.tier)
  }

  /** `admins.map(...)` over the listed rows. */
  function Summaries(rows: set<UserRow>): (r: set<AdminSummary>)
    ensures forall row | row in rows :: Summary(row) in r
    ensures forall s | s in r :: exists row | row in rows :: s == Summary(row)
  {
    set row | row in rows :: Summary(row)
  }

  /** A user's summary is listed exactly when the user is an active
      `admin`: the summary carries the id, which picks out the row. */
  lemma SummaryListed(users: Users)
    requires UsersKeyed(users)
    ensures forall id | id in users ::
              Summary(users[id]) in Summaries(GetAllAdmins(users)) <==> users[id].role == Admin && users[id].isActive
  {
    var admins := GetAllAdmins(users);
    forall id | id in users && Summary(users[id]) in Summaries(admins)
      ensures users[id] in admins
    {
      var row :| row in admins && Summary(users[id]) == Summary(row);
      assert users[row.clerkUserId] == row;
    }
  }

  /** A `super_admin` passes `isUserAdmin` but is not listed by
      `getAllAdmins`; neither is an inactive admin. */
  lemma AdminListingIsNarrower(users: Users, id: UserId)
    requires UsersKeyed(users) && id in users
    requires users[id].role == SuperAdmin || !users[id].isActive
    ensures users[id] !in GetAllAdmins(users)
  {
  }

  /** A freshly inserted admin is listed; an existing inactive user made
      admin is not, since the update leaves `isActive` alone. */
  lemma SetUserAsAdminListed(users: Users, id: UserId, email: String, name: String, now: nat)
    requires UsersKeyed(users)
    ensures var r := SetUserAsAdmin(users, id, email, name, now);
            r.1[0] in GetAllAdmins(r.0) <==> id !in users || users[id].isActive
  {
    var r := SetUserAsAdmin(users, id, email, name, now);
    assert r.0[id] == r.1[0];
  }

  // ---------------------------------------------------------------------------
  // Newsletters
  // ---------------------------------------------------------------------------

  /** `createNewsletter`: insert under the next identity with the column
      defaults, unless the slug is already taken. */
  function CreateNewsletter(t: Newsletters, n: NewsletterInsert): (r: Result<(Newsletters, NewsletterRow), DbError>)
    requires NewslettersValid(t)
    ensures r.Failure? <==> SlugTaken(t, n.slug)
    ensures r.Failure? ==> r.error == UniqueViolation("slug")
    ensures r.Success? ==>
              var (t', row) := r.value;
              && NewslettersValid(t')
              && row.id == t.nextId && t'.nextId == t.nextId + 1
              && t'.rows == t.rows[row.id := row]
              && row == NewNewsletterRow(t.nextId, n)
              && row.slug == n.slug && row.title == n.title && row.content == n.content
              && row.status == n.status.GetOr(Draft) && row.isPremium == n.isPremium.GetOr(false)
              && row.viewCount == 0
  {
    if SlugTaken(t, n.slug) then Failure(UniqueViolation("slug"))
    else
      var row := NewNewsletterRow(t.nextId, n);
      Success((Table(t.rows[t.nextId := row], t.nextId + 1), row))
  }

  /** `getAllNewsletters`: every newsletter, whatever its status. */
  function GetAllNewsletters(t: Newsletters): (r: set<NewsletterRow>)
    ensures forall id | id in t.rows :: t.rows[id] in r
    ensures forall row | row in r :: row in t.rows.Values
  {
    t.rows.Values
  }

  /** An insert that names neither status nor premium flag stores a draft
      that is free to read. */
  lemma NewsletterDefaults(t: Newsletters, n: NewsletterInsert)
    requires NewslettersValid(t) && !SlugTaken(t, n.slug)
    requires n.status.None? && n.isPremium.None?
    ensures var r := CreateNewsletter(t, n);
            r.Success? && r.value.1.status == Draft && !r.value.1.isPremium
  {
  }

  /** Inserting twice with the same slug: the second insert fails and the
      table after the first is what remains. */
  lemma SameSlugTwice(t: Newsletters, n: NewsletterInsert, m: NewsletterInsert)
    requires NewslettersValid(t) && !SlugTaken(t, n.slug) && m.slug == n.slug
    ensures var first := CreateNewsletter(t, n);
            first.Success? && CreateNewsletter(first.value.0, m).Failure?
  {
    var first := CreateNewsletter(t, n);
    var row := first.value.1;
    assert first.value.0.rows[row.id].slug == m.slug;
  }

  /** `incrementNewsletterViewCount`: that row's count goes up by one, no
      other row changes; an unknown id changes nothing. */
  function IncrementNewsletterViewCount(t: Newsletters, id: nat): (r: (Newsletters, seq<NewsletterRow>))
    requires NewslettersValid(t)
    ensures NewslettersValid(r.0)
    ensures r.0.nextId == t.nextId && r.0.rows.Keys == t.rows.Keys
    ensures id !in t.rows ==> r == (t, [])
    ensures id in t.rows ==>
              && r.1 == [r.0.rows[id]]
              && r.0.rows[id].viewCount == t.rows[id].viewCount + 1
              && r.0.rows[id].(viewCount := t.rows[id].viewCount) == t.rows[id]
    ensures forall other | other in t.rows && other != id :: r.0.rows[other] == t.rows[other]
  {
    if id in t.rows then
      var row := t.rows[id].(viewCount := t.rows[id].viewCount + 1);
      (t.(rows := t.rows[id := row]), [row])
    else (t, [])
  }

  // ---------------------------------------------------------------------------
  // AI products
  // ---------------------------------------------------------------------------

  /** `createAIProduct`: insert under the next identity with the column
      defaults, unless the slug is already taken. */
  function CreateAIProduct(t: Products, p: ProductInsert): (r: Result<(Products, ProductRow), DbError>)
    requires ProductsValid(t)
    ensures r.Failure? <==> ProductSlugTaken(t, p.slug)
    ensures r.Success? ==>
              var (t', row) := r.value;
              && ProductsValid(t')
              && row.id == t.nextId && t'.rows == t.rows[row.id := row]
              && row == NewProductRow(t.nextId, p)
              && row.slug == p.slug && row.name == p.name
              && (p.currency.None? ==> row.currency == "USD")
              && (p.isActive.None? ==> row.isActive)
              && (p.isFeatured.None? ==> !row.isFeatured)
  {
    if ProductSlugTaken(t, p.slug) then Failure(UniqueViolation("slug"))
    else
      var row := NewProductRow(t.nextId, p);
      Success((Table(t.rows[t.nextId := row], t.nextId + 1), row))
  }

  /** `getAllAIProducts`: the active products only. */
  function GetAllAIProducts(t: Products): (r: set<ProductRow>)
    ensures forall id | id in t.rows :: t.rows[id] in r <==> t.rows[id].isActive
    ensures forall row | row in r :: row.isActive && row in t.rows.Values
  {
    set id | id in t.rows && t.rows[id].isActive :: t.rows[id]
  }

  // ---------------------------------------------------------------------------
  // Newsletter subscriptions
  // ---------------------------------------------------------------------------

  predicate SubscriptionOf(row: SubscriptionRow, user: UserId, newsletterId: nat) {
    row.clerkUserId == user && row.newsletterId == newsletterId
  }

  /** `subscribeToNewsletter`: a new active row. */
  function SubscribeToNewsletter(t: Subscriptions, user: UserId, newsletterId: nat, now: nat)
    : (r: (Subscriptions, SubscriptionRow))
    requires SubscriptionsValid(t)
    ensures SubscriptionsValid(r.0)
    ensures r.0.rows == t.rows[t.nextId := r.1]
    ensures SubscriptionOf(r.1, user, newsletterId) && r.1.isActive
  {
    var row := SubscriptionRow(t.nextId, user, newsletterId, At(now), true);
    (Table(t.rows[t.nextId := row], t.nextId + 1), row)
  }

  /** `unsubscribeFromNewsletter`: every row of that user and newsletter is
      marked inactive; no row is deleted and no other row changes. */
  function UnsubscribeFromNewsletter(t: Subscriptions, user: UserId, newsletterId: nat)
    : (r: (Subscriptions, set<SubscriptionRow>))
    requires SubscriptionsValid(t)
    ensures SubscriptionsValid(r.0)
    ensures r.0.rows.Keys == t.rows.Keys && r.0.nextId == t.nextId
    ensures forall id | id in t.rows ::
              if SubscriptionOf(t.rows[id], user, newsletterId)
              then r.0.rows[id] == t.rows[id].(isActive := false)
              else r.0.rows[id] == t.rows[id]
    ensures forall row | row in r.1 :: SubscriptionOf(row, user, newsletterId) && !row.isActive
  {
    var rows := map id | id in t.rows ::
      if SubscriptionOf(t.rows[id], user, newsletterId) then t.rows[id].(isActive := false) else t.rows[id];
    (t.(rows := rows), set id | id in t.rows && SubscriptionOf(t.rows[id], user, newsletterId) :: rows[id])
  }

  /** `getUserNewsletterSubscriptions`: the user's active rows, all of them. */
  function UserNewsletterSubscriptions(t: Subscriptions, user: UserId): (r: set<SubscriptionRow>)
    ensures forall row | row in r :: row.clerkUserId == user && row.isActive && row in t.rows.Values
    ensures forall id | id in t.rows :: t.rows[id] in r <==> t.rows[id].clerkUserId == user && t.rows[id].isActive
  {
    set id | id in t.rows && t.rows[id].clerkUserId == user && t.rows[id].isActive :: t.rows[id]
  }

  /** After unsubscribing, the user's listing no longer holds that
      newsletter but still holds every other active subscription. */
  lemma UnsubscribeHides(t: Subscriptions, user: UserId, newsletterId: nat, row: SubscriptionRow)
    requires SubscriptionsValid(t)
    ensures var listed := UserNewsletterSubscriptions(UnsubscribeFromNewsletter(t, user, newsletterId).0, user);
            && (row in listed ==> row.newsletterId != newsletterId)
            && (row in UserNewsletterSubscriptions(t, user) && row.newsletterId != newsletterId ==> row in listed)
  {
    var after := UnsubscribeFromNewsletter(t, user, newsletterId).0;
    if row in UserNewsletterSubscriptions(t, user) && row.newsletterId != newsletterId {
      var id :| id in t.rows && t.rows[id] == row;
      assert after.rows[id] == row;
    }
  }
}

=== FILE: schema.dfy ===
/** The tables of src/db/schema.ts that the modelled code reads and writes:
    their enumerations, the rows with the columns the code uses, the column
    defaults an insert falls back to, and the uniqueness constraints, which
    become invariants of the in-memory tables. */
module Schema {
  import opened Wrappers
  import opened Strings

  // ---------------------------------------------------------------------------
  // Enumerations
  // ---------------------------------------------------------------------------

  /** `user_tier`. */
  datatype Tier = Free | Paid | Premium

  /** `user_role`. */
  datatype Role = User | Admin | SuperAdmin

  /** `newsletter_status`. */
  datatype Status = Draft | Published | Archived

  function TierName(t: Tier): String {
    match t
    case Free => "free"
    case Paid => "paid"
    case Premium => "premium"
  }

  function RoleName(r: Role): String {
    match r
    case User => "user"
    case Admin => "admin"
    case SuperAdmin => "super_admin"
  }

  function StatusName(s: Status): String {
    match s
    case Draft => "draft"
    case Published => "published"
    case Archived => "archived"
  }

  /** The enumeration member spelled `s`, if any: the inverse of `TierName`. */
  function ParseTier(s: String): (r: Option<Tier>)
    ensures forall t: Tier :: r == Some(t) <==> TierName(t) == s
  {
    if s == "free" then Some(Free)
    else if s == "paid" then Some(Paid)
    else if s == "premium" then Some(Premium)
    else None
  }

  /** The inverse of `RoleName`. */
  function ParseRole(s: String): (r: Option<Role>)
    ensures forall role: Role :: r == Some(role) <==> RoleName(role) == s
  {
    if s == "user" then Some(User)
    else if s == "admin" then Some(Admin)
    else if s == "super_admin" then Some(SuperAdmin)
    else None
  }

  /** The inverse of `StatusName`. */
  function ParseStatus(s: String): (r: Option<Status>)
    ensures forall st: Status :: r == Some(st) <==> StatusName(st) == s
  {
    if s == "draft" then Some(Draft)
    else if s == "published" then Some(Published)
    else if s == "archived" then Some(Archived)
    else None
  }

  /** A timestamp column's value: the server clock at the write, in
      milliseconds (`new Date()`, `defaultNow()`), or `new Date(text)` for a
      client-supplied string, whose parsing is not modelled. */
  datatype Moment = At(ms: nat) | Parsed(text: String)

  // ---------------------------------------------------------------------------
  // user_subscriptions
  // ---------------------------------------------------------------------------

  /** The identity provider's user id (`clerkUserId`). */
  type UserId = String

  datatype UserRow = UserRow(
    clerkUserId: UserId,
    email: String,
    name: Option<String>,
    tier: Tier,
    role: Role,
    isActive: bool,
    updatedAt: Moment)

  /** A row to insert; `None` leaves the column to its default. */
  datatype UserInsert = UserInsert(
    clerkUserId: UserId,
    email: String,
    name: Option<String>,
    tier: Option<Tier>,
    role: Option<Role>,
    isActive: Option<bool>)

  /** The table, keyed by `clerkUserId`: the map's keys are the column's
      unique constraint. */
  type Users = map<UserId, UserRow>

  /** Every row sits under its own id. */
  predicate UsersKeyed(users: Users) {
    forall id | id in users :: users[id].clerkUserId == id
  }

  /** The row an insert stores: tier `free`, role `user`, active, and the
      clock for `updatedAt` where the insert says nothing. */
  function NewUserRow(u: UserInsert, now: nat): UserRow {
    UserRow(u.clerkUserId, u.email, u.name, u.tier.GetOr(Free), u.role.GetOr(User),
            u.isActive.GetOr(true), At(now))
  }

  // ---------------------------------------------------------------------------
  // Tables with a generated identity and a unique slug
  // ---------------------------------------------------------------------------

  /** A table whose `id` is `generatedAlwaysAsIdentity()`: the rows by id
      and the id the next insert receives. */
  datatype Table<R> = Table(rows: map<nat, R>, nextId: nat)

  /** An empty table; identities start at 1. */
  function EmptyTable<R>(): Table<R> {
    Table(map[], 1)
  }

  /** The error an insert or update throws. */
  datatype DbError = UniqueViolation(column: String)

  // ---------------------------------------------------------------------------
  // newsletters
  // ---------------------------------------------------------------------------

  datatype NewsletterRow = NewsletterRow(
    id: nat,
    title: String,
    slug: String,
    description: Option<String>,
    content: String,
    excerpt: Option<String>,
    status: Status,
    publishedAt: Option<Moment>,
    authorId: String,
    tags: Option<seq<String>>,
    readTime: Option<int>,
    isPremium: bool,
    viewCount: nat)

  datatype NewsletterInsert = NewsletterInsert(
    title: String,
    slug: String,
    description: Option<String>,
    content: String,
    excerpt: Option<String>,
    status: Option<Status>,
    publishedAt: Option<Moment>,
    authorId: String,
    tags: Option<seq<String>>,
    readTime: Option<int>,
    isPremium: Option<bool>)

  type Newsletters = Table<NewsletterRow>

  /** Ids are below `nextId` and match their key, and no two rows share a
      slug. */
  predicate NewslettersValid(t: Newsletters) {
    && 1 <= t.nextId
    && (forall id | id in t.rows :: t.rows[id].id == id && 1 <= id < t.nextId)
    && (forall a, b | a in t.rows && b in t.rows && a != b :: t.rows[a].slug != t.rows[b].slug)
  }

  predicate SlugTaken(t: Newsletters, slug: String) {
    exists id | id in t.rows :: t.rows[id].slug == slug
  }

  /** The row an insert stores under `id`: status `draft`, not premium and
      no views where the insert says nothing. */
  function NewNewsletterRow(id: nat, n: NewsletterInsert): NewsletterRow {
    NewsletterRow(id, n.title, n.slug, n.description, n.content, n.excerpt,
                  n.status.GetOr(Draft), n.publishedAt, n.authorId, n.tags, n.readTime,
                  n.isPremium.GetOr(false), 0)
  }

  // ---------------------------------------------------------------------------
  // ai_products
  // ---------------------------------------------------------------------------

  datatype ProductRow = ProductRow(
    id: nat,
    name: String,
    slug: String,
    description: String,
    longDescription: Option<String>,
    category: Option<String>,
    price: Option<String>,
    currency: String,
    features: Option<seq<String>>,
    tags: Option<seq<String>>,
    isActive: bool,
    isFeatured: bool,
    viewCount: nat)

  datatype ProductInsert = ProductInsert(
    name: String,
    slug: String,
    description: String,
    longDescription: Option<String>,
    category: Option<String>,
    price: Option<String>,
    currency: Option<String>,
    features: Option<seq<String>>,
    tags: Option<seq<String>>,
    isActive: Option<bool>,
    isFeatured: Option<bool>)

  type Products = Table<ProductRow>

  predicate ProductsValid(t: Products) {
    && 1 <= t.nextId
    && (forall id | id in t.rows :: t.rows[id].id == id && 1 <= id < t.nextId)
    && (forall a, b | a in t.rows && b in t.rows && a != b :: t.rows[a].slug != t.rows[b].slug)
  }

  predicate ProductSlugTaken(t: Products, slug: String) {
    exists id | id in t.rows :: t.rows[id].slug == slug
  }

  /** The row an insert stores under `id`: currency `USD`, active and not
      featured where the insert says nothing. */
  function NewProductRow(id: nat, p: ProductInsert): ProductRow {
    ProductRow(id, p.name, p.slug, p.description, p.longDescription, p.category, p.price,
               p.currency.GetOr("USD"), p.features, p.tags,
               p.isActive.GetOr(true), p.isFeatured.GetOr(false), 0)
  }

  // ---------------------------------------------------------------------------
  // newsletter_subscriptions
  // ---------------------------------------------------------------------------

  /** A subscription; the table has no uniqueness constraint beyond `id`. */
  datatype SubscriptionRow = SubscriptionRow(
    id: nat,
    clerkUserId: UserId,
    newsletterId: nat,
    subscribedAt: Moment,
    isActive: bool)

  type Subscriptions = Table<SubscriptionRow>

  predicate SubscriptionsValid(t: Subscriptions) {
    1 <= t.nextId && forall id | id in t.rows :: t.rows[id].id == id && 1 <= id < t.nextId
  }
}

=== FILE: set_admin_route.dfy ===
/** app/api/admin/set-admin/route.ts: POST grants admin rights to a user,
    GET reports whether a given user is an admin and lists the admins.
    Both check the session (401) and the caller's role (403) first. */
module SetAdminRoute {
  import opened Wrappers
  import opened Strings
  import opened Schema
  import opened Queries
  import opened Http
  import opened AdminAuth

  /** The JSON body of a POST; a field that is missing or not a string is
      `None`. */
  datatype SetAdminBody = SetAdminBody(clerkUserId: Option<String>, email: Option<String>, name: Option<String>)

  /** The success envelope of a POST. */
  datatype Granted = Granted(data: seq<UserRow>, message: String)

  /** The `data` of a GET. */
  datatype AdminStatus = AdminStatus(isAdmin: bool, allAdmins: set<AdminSummary>)

  const FieldsRequired: ErrorReply := ErrorReply(400, "clerkUserId, email, and name are required")
  const TargetRequired: ErrorReply := ErrorReply(400, "clerkUserId is required")
  const GrantedMessage: String := "User has been set as admin successfully"

  /** The role check both handlers make inline. */
  function CallerCheck(session: Session, users: Users): (r: Option<ErrorReply>)
    ensures r == RequireAdminAuth(session, users)
  {
    if !SignedIn(session) then Some(AuthenticationRequired)
    else if !IsUserAdmin(users, session.value) then Some(AdminAccessRequired)
    else None
  }

  /** `POST`: the two gates, then the presence of all three fields, then
      the `setUserAsAdmin` upsert. */
  function Post(session: Session, users: Users, body: SetAdminBody, now: nat): (r: (Reply<Granted>, Users))
    requires UsersKeyed(users)
    ensures UsersKeyed(r.1)
    ensures RequireAdminAuth(session, users).Some? ==> r == (Err(RequireAdminAuth(session, users).value), users)
    ensures RequireAdminAuth(session, users).None?
            && !(Truthy(body.clerkUserId) && Truthy(body.email) && Truthy(body.name)) ==>
              r == (Err(FieldsRequired), users)
    ensures r.0.Ok? <==>
              RequireAdminAuth(session, users).None?
              && Truthy(body.clerkUserId) && Truthy(body.email) && Truthy(body.name)
    ensures r.0.Ok? ==>
              && r.0.data.message == GrantedMessage
              && (r.1, r.0.data.data) ==
                   SetUserAsAdmin(users, body.clerkUserId.value, body.email.value, body.name.value, now)
              && IsUserAdmin(r.1, body.clerkUserId.value)
    ensures r.0.Err? ==> r.1 == users
  {
    match CallerCheck(session, users)
    case Some(e) => (Err(e), users)
    case None =>
      if !Truthy(body.clerkUserId) || !Truthy(body.email) || !Truthy(body.name) then (Err(FieldsRequired), users)
      else
        var (after, rows) := SetUserAsAdmin(users, body.clerkUserId.value, body.email.value, body.name.value, now);
        (Ok(Granted(rows, GrantedMessage)), after)
  }

  /** `GET`: the two gates, then the `clerkUserId` query parameter, then
      that user's admin status and the list of admins. */
  function Get(session: Session, users: Users, clerkUserId: Option<String>): (r: Reply<AdminStatus>)
    requires UsersKeyed(users)
    ensures RequireAdminAuth(session, users).Some? ==> r == Err(RequireAdminAuth(session, users).value)
    ensures RequireAdminAuth(session, users).None? && !Truthy(clerkUserId) ==> r == Err(TargetRequired)
    ensures r.Ok? <==> RequireAdminAuth(session, users).None? && Truthy(clerkUserId)
    ensures r.Ok? ==> (r.data.isAdmin <==> IsUserAdmin(users, clerkUserId.value))
    ensures r.Ok? ==> forall s | s in r.data.allAdmins :: s.role == Admin
    ensures r.Ok? ==> r.data.allAdmins == Summaries(GetAllAdmins(users))
    ensures r.Ok? ==> forall id | id in users ::
              Summary(users[id]) in r.data.allAdmins <==> users[id].role == Admin && users[id].isActive
  {
    match CallerCheck(session, users)
    case Some(e) => Err(e)
    case None =>
      if !Truthy(clerkUserId) then Err(TargetRequired)
      else
        var admins := GetAllAdmins(users);
        SummaryListed(users);
        Ok(AdminStatus(IsUserAdmin(users, clerkUserId.value), Summaries(admins)))
  }

  /** `isAdmin` reports the user named in the query, not the caller: any
      two admins asking about the same user get the same answer. */
  lemma GetReportsTarget(caller1: Session, caller2: Session, users: Users, target: String)
    requires UsersKeyed(users) && target != []
    requires RequireAdminAuth(caller1, users).None? && RequireAdminAuth(caller2, users).None?
    ensures Get(caller1, users, Some(target)) == Get(caller2, users, Some(target))
    ensures Get(caller1, users, Some(target)).data.isAdmin <==> IsUserAdmin(users, target)
  {
  }

  /** A POST then a GET about the same user, by the same admin, reports
      that user as an admin. */
  lemma PostThenGet(session: Session, users: Users, id: String, email: String, name: String, now: nat)
    requires UsersKeyed(users) && RequireAdminAuth(session, users).None?
    requires id != [] && email != [] && name != []
    ensures var after := Post(session, users, SetAdminBody(Some(id), Some(email), Some(name)), now).1;
            Get(session, after, Some(id)) == Ok(AdminStatus(true, Summaries(GetAllAdmins(after))))
  {
    var after := Post(session, users, SetAdminBody(Some(id), Some(email), Some(name)), now).1;
    if session.value != id {
      SetUserAsAdminGrants(users, id, email, name, now, session.value);
    }
    assert RequireAdminAuth(session, after).None?;
  }
}

=== FILE: slugs.dfy ===
/** The two `generateSlug` helpers of the newsletter routes.  Both lower-case
    the title, delete every character outside `[a-z0-9\s-]`, turn each run of
    white space into a hyphen, collapse runs of hyphens and call `trim()`.
    The AI-generation route then appends `-` and the current time in
    milliseconds; the upload route does not.  `trim()` only strips white
    space, of which none is left by then, so hyphens at either end survive. */
module Slugs {
  import opened Wrappers
  import opened Strings

  /** The characters `[a-z0-9-]` a slug is made of. */
  predicate IsSlugChar(c: char) {
    'a' <= c <= 'z' || '0' <= c <= '9' || c == '-'
  }

  predicate IsAlnum(c: char) {
    'a' <= c <= 'z' || '0' <= c <= '9'
  }

  predicate NoDoubleHyphen(s: String) {
    forall i | 0 <= i < |s| - 1 :: !(s[i] == '-' && s[i + 1] == '-')
  }

  /** Well-formed slug text: only `[a-z0-9-]`, never two hyphens in a row. */
  predicate IsSlugText(s: String) {
    (forall i | 0 <= i < |s| :: IsSlugChar(s[i])) && NoDoubleHyphen(s)
  }

  /** The lower-case ASCII letters and digits of `s`, in order. */
  function Alnums(s: String): String {
    if s == [] then [] else (if IsAlnum(s[0]) then [s[0]] else []) + Alnums(s[1..])
  }

  /** Starts with a hyphen or with white space. */
  predicate StartsWithSeparator(s: String) {
    s != [] && (s[0] == '-' || IsSpace(s[0]))
  }

  // ---------------------------------------------------------------------------
  // The four rewriting steps
  // ---------------------------------------------------------------------------

  /** `.replace(/[^a-z0-9\s-]/g, '')`. */
  function KeepSlugCharsAndSpace(s: String): (r: String)
    ensures forall i | 0 <= i < |r| :: IsSlugChar(r[i]) || IsSpace(r[i])
    ensures Alnums(r) == Alnums(s)
    ensures r == [] <==> forall i | 0 <= i < |s| :: !IsSlugChar(s[i]) && !IsSpace(s[i])
    ensures StartsWithSeparator(s) ==> r != [] && r[0] == s[0]
  {
    if s == [] then []
    else if IsSlugChar(s[0]) || IsSpace(s[0]) then [s[0]] + KeepSlugCharsAndSpace(s[1..])
    else KeepSlugCharsAndSpace(s[1..])
  }

  /** `.replace(/\s+/g, '-')`: each maximal run of white space becomes one
      hyphen (`SpaceRunsToHyphenAlnums`, `SpaceRunsToHyphenChars`). */
  function SpaceRunsToHyphen(s: String): (r: String)
    ensures HasNoSpace(r)
    ensures r == [] <==> s == []
    ensures StartsWithSeparator(s) ==> r[0] == '-'
    decreases |s|
  {
    if s == [] then []
    else if IsSpace(s[0]) then "-" + SpaceRunsToHyphen(SkipSpaces(s))
    else [s[0]] + SpaceRunsToHyphen(s[1..])
  }

  /** Replacing white-space runs by hyphens keeps the letters and digits. */
  lemma {:induction false} SpaceRunsToHyphenAlnums(s: String)
    ensures Alnums(SpaceRunsToHyphen(s)) == Alnums(s)
    decreases |s|
  {
    if s == [] {
    } else if IsSpace(s[0]) {
      var t := SkipSpaces(s);
      SkippedSpacesAreNotAlnum(s);
      SpaceRunsToHyphenAlnums(t);
      AlnumsCons('-', SpaceRunsToHyphen(t));
    } else {
      SpaceRunsToHyphenAlnums(s[1..]);
      AlnumsCons(s[0], SpaceRunsToHyphen(s[1..]));
      AlnumsCons(s[0], s[1..]);
      assert [s[0]] + s[1..] == s;
    }
  }

  /** Replacing white-space runs by hyphens leaves only slug characters when
      only slug characters and white space were there. */
  lemma {:induction false} SpaceRunsToHyphenChars(s: String)
    requires forall i | 0 <= i < |s| :: IsSlugChar(s[i]) || IsSpace(s[i])
    ensures var r := SpaceRunsToHyphen(s);
            forall i | 0 <= i < |r| :: IsSlugChar(r[i])
    decreases |s|
  {
    if s == [] {
    } else if IsSpace(s[0]) {
      var t := SkipSpaces(s);
      assert forall i | 0 <= i < |t| :: t[i] == s[|s| - |t| + i];
      SpaceRunsToHyphenChars(t);
      assert SpaceRunsToHyphen(s) == "-" + SpaceRunsToHyphen(t);
    } else {
      SpaceRunsToHyphenChars(s[1..]);
      assert SpaceRunsToHyphen(s) == [s[0]] + SpaceRunsToHyphen(s[1..]);
    }
  }

  lemma {:induction false} SkippedSpacesAreNotAlnum(s: String)
    ensures Alnums(SkipSpaces(s)) == Alnums(s)
  {
    if s != [] && IsSpace(s[0]) {
      SkippedSpacesAreNotAlnum(s[1..]);
    }
  }

  /** Drops a leading run of hyphens. */
  function SkipHyphens(s: String): (r: String)
    ensures |r| < |s| || r == s
    ensures r == s[|s| - |r|..]
    ensures r == [] || r[0] != '-'
    ensures Alnums(r) == Alnums(s)
  {
    if s != [] && s[0] == '-' then SkipHyphens(s[1..]) else s
  }

  /** `.replace(/-+/g, '-')`: each maximal run of hyphens becomes one
      (`CollapseHyphensKeeps`). */
  function CollapseHyphens(s: String): (r: String)
    ensures NoDoubleHyphen(r)
    ensures r == [] <==> s == []
    ensures (s == [] || s[0] != '-') ==> (r == [] || r[0] != '-')
    ensures s != [] && s[0] == '-' ==> r[0] == '-'
    decreases |s|
  {
    if s == [] then []
    else if s[0] == '-' then "-" + CollapseHyphens(SkipHyphens(s))
    else [s[0]] + CollapseHyphens(s[1..])
  }

  /** Alnums distributes over a leading character. */
  lemma AlnumsCons(c: char, t: String)
    ensures Alnums([c] + t) == (if IsAlnum(c) then [c] else []) + Alnums(t)
  {
    assert ([c] + t)[1..] == t;
  }

  /** Collapsing hyphen runs keeps the letters and digits. */
  lemma {:induction false} CollapseHyphensAlnums(s: String)
    ensures Alnums(CollapseHyphens(s)) == Alnums(s)
    decreases |s|
  {
    if s == [] {
    } else if s[0] == '-' {
      var t := SkipHyphens(s);
      CollapseHyphensAlnums(t);
      AlnumsCons('-', CollapseHyphens(t));
    } else {
      CollapseHyphensAlnums(s[1..]);
      AlnumsCons(s[0], CollapseHyphens(s[1..]));
      AlnumsCons(s[0], s[1..]);
      assert [s[0]] + s[1..] == s;
    }
  }

  /** Collapsing hyphen runs introduces no white space. */
  lemma {:induction false} CollapseHyphensNoSpace(s: String)
    requires HasNoSpace(s)
    ensures HasNoSpace(CollapseHyphens(s))
    decreases |s|
  {
    if s == [] {
    } else if s[0] == '-' {
      var t := SkipHyphens(s);
      assert forall i | 0 <= i < |t| :: t[i] == s[|s| - |t| + i];
      CollapseHyphensNoSpace(t);
      assert CollapseHyphens(s) == "-" + CollapseHyphens(t);
    } else {
      CollapseHyphensNoSpace(s[1..]);
      assert CollapseHyphens(s) == [s[0]] + CollapseHyphens(s[1..]);
    }
  }

  /** Collapsing hyphen runs introduces no character outside `[a-z0-9-]`. */
  lemma {:induction false} CollapseHyphensSlugChars(s: String)
    requires forall i | 0 <= i < |s| :: IsSlugChar(s[i])
    ensures var r := CollapseHyphens(s);
            forall i | 0 <= i < |r| :: IsSlugChar(r[i])
    decreases |s|
  {
    if s == [] {
    } else if s[0] == '-' {
      var t := SkipHyphens(s);
      assert forall i | 0 <= i < |t| :: t[i] == s[|s| - |t| + i];
      CollapseHyphensSlugChars(t);
      assert CollapseHyphens(s) == "-" + CollapseHyphens(t);
    } else {
      CollapseHyphensSlugChars(s[1..]);
      assert CollapseHyphens(s) == [s[0]] + CollapseHyphens(s[1..]);
    }
  }

  /** Collapsing hyphen runs keeps the letters and digits, and introduces
      neither white space nor a character outside `[a-z0-9-]`. */
  lemma CollapseHyphensKeeps(s: String)
    ensures var r := CollapseHyphens(s);
            && Alnums(r) == Alnums(s)
            && (HasNoSpace(s) ==> HasNoSpace(r))
            && ((forall i | 0 <= i < |s| :: IsSlugChar(s[i])) ==>
                  forall i | 0 <= i < |r| :: IsSlugChar(r[i]))
  {
    CollapseHyphensAlnums(s);
    if HasNoSpace(s) {
      CollapseHyphensNoSpace(s);
    }
    if forall i | 0 <= i < |s| :: IsSlugChar(s[i]) {
      CollapseHyphensSlugChars(s);
    }
  }

  // ---------------------------------------------------------------------------
  // The two slug functions
  // ---------------------------------------------------------------------------

  /** The slug of the upload route (no suffix); also the base of the
      AI-generation route's slug. */
  function BaseSlug(title: String): (r: String)
    ensures IsSlugText(r)
    ensures Alnums(r) == Alnums(ToLower(title))
  {
    var kept := KeepSlugCharsAndSpace(ToLower(title));
    SpaceRunsToHyphenAlnums(kept);
    SpaceRunsToHyphenChars(kept);
    CollapseHyphensKeeps(SpaceRunsToHyphen(kept));
    var collapsed := CollapseHyphens(SpaceRunsToHyphen(kept));
    TrimmedIsFixpoint(collapsed);
    Trim(collapsed)
  }

  /** The final `trim()` never changes anything: no white space is left. */
  lemma BaseSlugTrimIsNoOp(title: String)
    ensures BaseSlug(title) == CollapseHyphens(SpaceRunsToHyphen(KeepSlugCharsAndSpace(ToLower(title))))
  {
    var kept := KeepSlugCharsAndSpace(ToLower(title));
    CollapseHyphensKeeps(SpaceRunsToHyphen(kept));
    var collapsed := CollapseHyphens(SpaceRunsToHyphen(kept));
    TrimmedIsFixpoint(collapsed);
  }

  lemma KeptEmpty(title: String)
    ensures KeepSlugCharsAndSpace(ToLower(title)) == [] <==>
              forall i | 0 <= i < |title| :: !IsSlugChar(LowerChar(title[i])) && !IsSpace(title[i])
  {
    var low := ToLower(title);
    forall i | 0 <= i < |title|
      ensures low[i] == LowerChar(title[i]) && (IsSpace(low[i]) <==> IsSpace(title[i]))
    {
    }
  }

  /** The base slug is empty exactly when the title has no ASCII letter,
      digit, white space or hyphen. */
  lemma BaseSlugEmpty(title: String)
    ensures BaseSlug(title) == [] <==>
              forall i | 0 <= i < |title| :: !IsSlugChar(LowerChar(title[i])) && !IsSpace(title[i])
  {
    BaseSlugTrimIsNoOp(title);
    assert BaseSlug(title) == [] <==> KeepSlugCharsAndSpace(ToLower(title)) == [];
    KeptEmpty(title);
  }

  /** `trim()` strips only white space: a title that starts with white space
      or a hyphen gives a slug that starts with a hyphen. */
  lemma BaseSlugKeepsLeadingHyphen(title: String)
    requires title != [] && (title[0] == '-' || IsSpace(title[0]))
    ensures BaseSlug(title) != [] && BaseSlug(title)[0] == '-'
  {
    assert ToLower(title)[0] == title[0];
    BaseSlugTrimIsNoOp(title);
  }

  // ---------------------------------------------------------------------------
  // Slug text is a fixpoint
  // ---------------------------------------------------------------------------

  lemma {:induction false} KeepSlugCharsOfSlugText(s: String)
    requires forall i | 0 <= i < |s| :: IsSlugChar(s[i])
    ensures KeepSlugCharsAndSpace(s) == s
    decreases |s|
  {
    if s != [] {
      KeepSlugCharsOfSlugText(s[1..]);
      assert [s[0]] + s[1..] == s;
    }
  }

  lemma {:induction false} SpaceRunsToHyphenOfSpaceless(s: String)
    requires HasNoSpace(s)
    ensures SpaceRunsToHyphen(s) == s
    decreases |s|
  {
    if s != [] {
      assert !IsSpace(s[0]);
      SpaceRunsToHyphenOfSpaceless(s[1..]);
      assert [s[0]] + s[1..] == s;
    }
  }

  lemma NoDoubleHyphenTail(s: String)
    requires s != [] && NoDoubleHyphen(s)
    ensures NoDoubleHyphen(s[1..])
    ensures s[0] == '-' ==> SkipHyphens(s) == s[1..]
  {
    var t := s[1..];
    forall i | 0 <= i < |t| - 1
      ensures !(t[i] == '-' && t[i + 1] == '-')
    {
      assert t[i] == s[i + 1] && t[i + 1] == s[i + 2];
    }
    if s[0] == '-' && t != [] {
      assert t[0] == s[1] != '-';
    }
  }

  lemma {:induction false} CollapseHyphensOfSingleHyphens(s: String)
    requires NoDoubleHyphen(s)
    ensures CollapseHyphens(s) == s
    decreases |s|
  {
    if s != [] {
      var t := s[1..];
      NoDoubleHyphenTail(s);
      CollapseHyphensOfSingleHyphens(t);
      if s[0] == '-' {
        assert CollapseHyphens(s) == "-" + CollapseHyphens(t);
      } else {
        assert CollapseHyphens(s) == [s[0]] + CollapseHyphens(t);
      }
      assert [s[0]] + t == s;
    }
  }

  /** Slug text is its own slug. */
  lemma BaseSlugOfSlugText(s: String)
    requires IsSlugText(s)
    ensures BaseSlug(s) == s
  {
    assert ToLower(s) == s;
    KeepSlugCharsOfSlugText(s);
    assert HasNoSpace(s);
    SpaceRunsToHyphenOfSpaceless(s);
    CollapseHyphensOfSingleHyphens(s);
    BaseSlugTrimIsNoOp(s);
  }

  /** Slugging a slug changes nothing. */
  lemma BaseSlugIdempotent(title: String)
    ensures BaseSlug(BaseSlug(title)) == BaseSlug(title)
  {
    BaseSlugOfSlugText(BaseSlug(title));
  }

  /** `${base}-${now}`: a slug text, a hyphen, and the decimal numeral of `now`. */
  function AppendTimestamp(base: String, now: nat): (r: String)
    requires IsSlugText(base)
    ensures forall i | 0 <= i < |r| :: IsSlugChar(r[i])
    ensures |r| >= 2 && IsDigit(r[|r| - 1])
    ensures base <= r
  {
    var d := NatToDecimal(now);
    var r := base + "-" + d;
    forall i | 0 <= i < |r|
      ensures IsSlugChar(r[i])
    {
      if i < |base| {
        assert r[i] == base[i];
      } else if i > |base| {
        assert r[i] == d[i - |base| - 1];
      }
    }
    assert r[|r| - 1] == d[|d| - 1];
    r
  }

  /** The AI-generation route's slug: the base, a hyphen, and the clock
      reading `now` (milliseconds since the epoch) in decimal. */
  function TimestampedSlug(title: String, now: nat): (r: String)
    ensures forall i | 0 <= i < |r| :: IsSlugChar(r[i])
    ensures |r| >= 2 && IsDigit(r[|r| - 1])
    ensures BaseSlug(title) <= r
  {
    AppendTimestamp(BaseSlug(title), now)
  }

  // ---------------------------------------------------------------------------
  // Reading the timestamp back
  // ---------------------------------------------------------------------------

  /** The length of the longest run of digits at the end of `s`. */
  function DigitRun(s: String): (n: nat)
    ensures n <= |s|
    ensures forall i | |s| - n <= i < |s| :: IsDigit(s[i])
    ensures n < |s| ==> !IsDigit(s[|s| - n - 1])
  {
    if s != [] && IsDigit(s[|s| - 1]) then DigitRun(s[..|s| - 1]) + 1 else 0
  }

  /** The timestamp a slug of the form `<base>-<digits>` carries. */
  function SlugTimestamp(s: String): Option<nat> {
    var n := DigitRun(s);
    var d := s[|s| - n..];
    assert IsDigits(d) by {
      assert forall i | 0 <= i < n :: d[i] == s[|s| - n + i];
    }
    if n > 0 && n < |s| && s[|s| - n - 1] == '-' then Some(DecimalValue(d)) else None
  }

  /** The digit run is the one that follows the last non-digit. */
  lemma {:induction false} DigitRunAt(s: String, k: nat)
    requires k <= |s| && forall i | k <= i < |s| :: IsDigit(s[i])
    requires k == 0 || !IsDigit(s[k - 1])
    ensures DigitRun(s) == |s| - k
    decreases |s|
  {
    if k < |s| {
      var init := s[..|s| - 1];
      DigitRunAt(init, k);
    }
  }

  /** The AI-generation route's slug always carries its timestamp, which can
      be read back from it. */
  lemma SlugTimestampRoundTrip(title: String, now: nat)
    ensures SlugTimestamp(TimestampedSlug(title, now)) == Some(now)
  {
    var prefix := BaseSlug(title) + "-";
    var d := NatToDecimal(now);
    var s := prefix + d;
    assert TimestampedSlug(title, now) == AppendTimestamp(BaseSlug(title), now) == s;
    assert forall i | |prefix| <= i < |s| :: s[i] == d[i - |prefix|];
    DigitRunAt(s, |prefix|);
    assert s[|prefix|..] == d;
    DecimalRoundTrip(now);
  }

  /** Two AI-generation slugs taken at different clock readings differ,
      whatever the titles. */
  lemma TimestampedSlugsDiffer(t1: String, n1: nat, t2: String, n2: nat)
    requires n1 != n2
    ensures TimestampedSlug(t1, n1) != TimestampedSlug(t2, n2)
  {
    SlugTimestampRoundTrip(t1, n1);
    SlugTimestampRoundTrip(t2, n2);
  }

  /** A title without any ASCII letter, digit, white space or hyphen gives
      `-<timestamp>`. */
  lemma SymbolOnlyTitleSlug(title: String, now: nat)
    requires forall i | 0 <= i < |title| :: !IsSlugChar(LowerChar(title[i])) && !IsSpace(title[i])
    ensures TimestampedSlug(title, now) == "-" + NatToDecimal(now)
  {
    BaseSlugEmpty(title);
    var b := BaseSlug(title);
    assert b == [];
    assert TimestampedSlug(title, now) == AppendTimestamp(b, now);
    assert AppendTimestamp(b, now) == b + "-" + NatToDecimal(now);
  }
}

=== FILE: strings.dfy ===
/** The JavaScript string primitives the application builds on, restricted to
    ASCII text: white space and trimming, case folding, `split`/`join` on a
    string separator and on runs of white space, `slice(0, n)`, `indexOf`,
    `includes`, `replace` of the first occurrence, the lines of a
    multi-line regular expression, and the decimal rendering of a
    non-negative integer. */
module Strings {

  type String = seq<char>

  // ---------------------------------------------------------------------------
  // Character classes
  // ---------------------------------------------------------------------------

  /** White space as `\s` and `String.prototype.trim` see it, restricted to ASCII. */
  predicate IsSpace(c: char) {
    c == ' ' || c == '\t' || c == '\n' || c == '\r' || c == '\U{0B}' || c == '\U{0C}'
  }

  /** The ASCII line terminators of a multi-line regular expression (`^`, `$`, `.`). */
  predicate IsLineTerminator(c: char) {
    c == '\n' || c == '\r'
  }

  predicate IsBlank(s: String) {
    forall i | 0 <= i < |s| :: IsSpace(s[i])
  }

  predicate HasNoSpace(s: String) {
    forall i | 0 <= i < |s| :: !IsSpace(s[i])
  }

  /** No leading and no trailing white space. */
  predicate IsTrimmed(s: String) {
    s == [] || (!IsSpace(s[0]) && !IsSpace(s[|s| - 1]))
  }

  // ---------------------------------------------------------------------------
  // Trimming
  // ---------------------------------------------------------------------------

  /** `s.trimStart()`: drops the leading white space and nothing else
      (`TrimStartDrops`). */
  function TrimStart(s: String): (r: String)
    ensures |r| <= |s|
    ensures r == [] || !IsSpace(r[0])
  {
    if |s| > 0 && IsSpace(s[0]) then TrimStart(s[1..]) else s
  }

  lemma {:induction false} TrimStartDrops(s: String)
    ensures var r := TrimStart(s);
            r == s[|s| - |r|..] && IsBlank(s[..|s| - |r|])
  {
    if |s| > 0 && IsSpace(s[0]) {
      TrimStartDrops(s[1..]);
      var r := TrimStart(s);
      assert s[..|s| - |r|] == [s[0]] + s[1..][..|s| - 1 - |r|];
    }
  }

  /** `s.trimEnd()`: drops the trailing white space and nothing else
      (`TrimEndDrops`). */
  function TrimEnd(s: String): (r: String)
    ensures |r| <= |s|
    ensures r == [] || !IsSpace(r[|r| - 1])
  {
    if |s| > 0 && IsSpace(s[|s| - 1]) then TrimEnd(s[..|s| - 1]) else s
  }

  lemma {:induction false} TrimEndDrops(s: String)
    ensures var r := TrimEnd(s);
            r == s[..|r|] && IsBlank(s[|r|..])
  {
    if |s| > 0 && IsSpace(s[|s| - 1]) {
      var init := s[..|s| - 1];
      TrimEndDrops(init);
      var r := TrimEnd(s);
      assert s[|r|..] == init[|r|..] + [s[|s| - 1]];
    }
  }

  /** `s.trim()`: drops white space at both ends (`TrimInfix`). */
  function Trim(s: String): (r: String)
    ensures IsTrimmed(r)
    ensures |r| <= |s|
  {
    var t := TrimStart(s);
    TrimEndDrops(t);
    TrimEnd(t)
  }

  /** `r` is `s` without its leading and trailing white space: a trimmed
      infix between a blank prefix and a blank suffix, which fixes it. */
  predicate IsTrimOf(r: String, s: String) {
    IsTrimmed(r)
    && exists k :: 0 <= k <= |s| - |r| && r == s[k..k + |r|]
                   && IsBlank(s[..k]) && IsBlank(s[k + |r|..])
  }

  /** What `trim()` leaves is the infix of `s` between a blank prefix and a
      blank suffix. */
  lemma TrimInfix(s: String)
    ensures IsTrimOf(Trim(s), s)
  {
    var t := TrimStart(s);
    var r := TrimEnd(t);
    TrimStartDrops(s);
    TrimEndDrops(t);
    var k := |s| - |t|;
    assert r == s[k..k + |r|];
    assert s[k + |r|..] == t[|r|..];
  }

  lemma TrimEmptyIffBlank(s: String)
    ensures Trim(s) == [] <==> IsBlank(s)
  {
    var t := TrimStart(s);
    TrimStartDrops(s);
    TrimEndDrops(t);
    if TrimEnd(t) == [] {
      assert t[0..] == t;
      assert s[..|s|] == s;
    }
  }

  /** Trimming introduces no character that was not there. */
  lemma TrimKeepsAbsent(s: String, c: char)
    requires c !in s
    ensures c !in Trim(s)
  {
    var t := TrimStart(s);
    var r := TrimEnd(t);
    TrimStartDrops(s);
    TrimEndDrops(t);
    forall i | 0 <= i < |r|
      ensures r[i] != c
    {
      assert r[i] == t[i] == s[|s| - |t| + i];
    }
  }

  lemma TrimmedIsFixpoint(s: String)
    requires IsTrimmed(s)
    ensures Trim(s) == s
  {
  }

  // ---------------------------------------------------------------------------
  // Case folding
  // ---------------------------------------------------------------------------

  function LowerChar(c: char): char {
    if 'A' <= c <= 'Z' then (c as int + 32) as char else c
  }

  /** `s.toLowerCase()` on ASCII letters; every other character is kept. */
  function ToLower(s: String): (r: String)
    ensures |r| == |s|
    ensures forall i | 0 <= i < |s| :: r[i] == LowerChar(s[i])
  {
    if s == [] then [] else [LowerChar(s[0])] + ToLower(s[1..])
  }

  // ---------------------------------------------------------------------------
  // Prefixes, search and replacement
  // ---------------------------------------------------------------------------

  /** `s.slice(0, n)` for a non-negative `n`. */
  function Take<T>(s: seq<T>, n: nat): (r: seq<T>)
    ensures r <= s
    ensures |r| == if n < |s| then n else |s|
  {
    if n < |s| then s[..n] else s
  }

  const Ellipsis: String := "..."

  /** `r` is the first `n` characters of `text` (all of it when shorter)
      followed by an ellipsis. */
  predicate IsClipOf(r: String, text: String, n: nat) {
    && |r| == (if |text| < n then |text| else n) + 3
    && r[..|r| - 3] <= text && r[|r| - 3..] == Ellipsis
  }

  /** `text.slice(0, n) + '...'`. */
  function Clip(text: String, n: nat): (r: String)
    ensures IsClipOf(r, text, n)
  {
    var r := Take(text, n) + Ellipsis;
    assert r[..|r| - 3] == Take(text, n);
    r
  }

  predicate OccursAt(s: String, pat: String, i: int) {
    0 <= i && i + |pat| <= |s| && s[i..i + |pat|] == pat
  }

  /** `s.indexOf(pat)`: the first position where `pat` occurs, or -1. */
  function IndexOf(s: String, pat: String): (r: int)
    ensures r == -1 || OccursAt(s, pat, r)
    ensures forall j | 0 <= j && (r == -1 || j < r) :: !OccursAt(s, pat, j)
  {
    IndexFrom(s, pat, 0)
  }

  function IndexFrom(s: String, pat: String, i: nat): (r: int)
    requires i <= |s|
    ensures r == -1 || (i <= r && OccursAt(s, pat, r))
    ensures forall j | i <= j && (r == -1 || j < r) :: !OccursAt(s, pat, j)
    decreases |s| - i
  {
    if i + |pat| <= |s| && s[i..i + |pat|] == pat then i
    else if i == |s| then -1
    else IndexFrom(s, pat, i + 1)
  }

  /** `s.includes(pat)`. */
  predicate Includes(s: String, pat: String) {
    IndexOf(s, pat) >= 0
  }

  lemma IncludesWitness(s: String, pat: String, i: int)
    requires OccursAt(s, pat, i)
    ensures Includes(s, pat)
  {
  }

  /** Where `includes` fails, the pattern occurs nowhere. */
  lemma NoOccurrence(s: String, pat: String, i: int)
    requires !Includes(s, pat)
    ensures !OccursAt(s, pat, i)
  {
  }

  /** A two-character pattern occurs where its two characters stand. */
  lemma OccursAtPair(s: String, i: int, x: char, y: char)
    ensures OccursAt(s, [x, y], i) <==> 0 <= i && i + 2 <= |s| && s[i] == x && s[i + 1] == y
  {
    if 0 <= i && i + 2 <= |s| {
      assert s[i..i + 2] == [s[i], s[i + 1]];
    }
  }

  /** A character that occurs is found by `indexOf`. */
  lemma IndexOfChar(s: String, c: char)
    requires c in s
    ensures 0 <= IndexOf(s, [c]) < |s| && s[IndexOf(s, [c])] == c
  {
    var i :| 0 <= i < |s| && s[i] == c;
    assert OccursAt(s, [c], i);
    var k := IndexOf(s, [c]);
    assert s[k..k + 1] == [c];
  }

  /** The text `replace` puts in place of a match of a string pattern
      (GetSubstitution of ECMA-262): in the replacement `template`, `$$`
      stands for `$`, `$&` for the matched text, `` $` `` for the text before
      the match and `$'` for the text after it.  A string pattern has no
      capture groups, so every other `$` stands for itself. */
  function Substitution(template: String, before: String, matched: String, after: String): (r: String)
    ensures '$' !in template ==> r == template
  {
    if template == [] then []
    else if template[0] == '$' && |template| >= 2 && template[1] in "$&`'" then
      var piece := match template[1]
        case '$' => "$"
        case '&' => matched
        case '`' => before
        case _ => after;
      piece + Substitution(template[2..], before, matched, after)
    else [template[0]] + Substitution(template[1..], before, matched, after)
  }

  /** `s.replace(pat, template)` with a string pattern: only the first
      occurrence is replaced, by the expanded template, and `s` is returned
      unchanged when there is none. */
  function ReplaceFirst(s: String, pat: String, template: String): (r: String)
    ensures !Includes(s, pat) ==> r == s
    ensures Includes(s, pat) ==>
              var i := IndexOf(s, pat);
              r == s[..i] + Substitution(template, s[..i], pat, s[i + |pat|..]) + s[i + |pat|..]
    ensures Includes(s, pat) && '$' !in template ==>
              var i := IndexOf(s, pat); r == s[..i] + template + s[i + |pat|..]
  {
    var i := IndexOf(s, pat);
    if i < 0 then s else s[..i] + Substitution(template, s[..i], pat, s[i + |pat|..]) + s[i + |pat|..]
  }

  /** `$$` in a replacement text comes out as a single `$`: the text
      `a$$b` put in place of `x` gives `a$b`. */
  lemma DollarPairIsOneDollar()
    ensures ReplaceFirst("x", "x", "a$$b") == "a$b"
  {
    assert OccursAt("x", "x", 0);
    assert Substitution("b", [], "x", []) == "b";
    assert Substitution("$$b", [], "x", []) == "$b";
  }

  /** `s.replace(/a/g, b)` for a single character `a`. */
  function ReplaceChar(s: String, a: char, b: char): (r: String)
    ensures |r| == |s|
    ensures forall i | 0 <= i < |s| :: r[i] == (if s[i] == a then b else s[i])
  {
    if s == [] then [] else [if s[0] == a then b else s[0]] + ReplaceChar(s[1..], a, b)
  }

  // ---------------------------------------------------------------------------
  // split / join on a string separator
  // ---------------------------------------------------------------------------

  /** `parts.join(sep)`. */
  function Join(parts: seq<String>, sep: String): String {
    if |parts| == 0 then []
    else if |parts| == 1 then parts[0]
    else parts[0] + sep + Join(parts[1..], sep)
  }

  /** `s.split(sep)` for a non-empty separator: the pieces between the
      occurrences of `sep` found left to right without overlap. */
  function Split(s: String, sep: String): (parts: seq<String>)
    requires |sep| > 0
    ensures |parts| >= 1
    ensures Join(parts, sep) == s
    ensures |sep| == 1 ==> forall k | 0 <= k < |parts| :: sep[0] !in parts[k]
  {
    SplitFrom(s, sep, [])
  }

  /** The scan behind `Split`: `cur` is the piece read so far. */
  function SplitFrom(s: String, sep: String, cur: String): (parts: seq<String>)
    requires |sep| > 0
    ensures |parts| >= 1
    ensures Join(parts, sep) == cur + s
    ensures |sep| == 1 && sep[0] !in cur ==> forall k | 0 <= k < |parts| :: sep[0] !in parts[k]
    decreases |s|
  {
    if |s| == 0 then [cur]
    else if sep <= s then
      var rest := SplitFrom(s[|sep|..], sep, []);
      assert sep + s[|sep|..] == s;
      [cur] + rest
    else
      assert (cur + [s[0]]) + s[1..] == cur + s;
      SplitFrom(s[1..], sep, cur + [s[0]])
  }

  /** A piece free of the separator's first character is read through
      without splitting. */
  lemma {:induction false} SplitFromSkips(b: String, t: String, sep: String, cur: String)
    requires |sep| > 0 && sep[0] !in b
    ensures SplitFrom(b + t, sep, cur) == SplitFrom(t, sep, cur + b)
    decreases |b|
  {
    if b == [] {
      assert b + t == t && cur + b == cur;
    } else {
      var s := b + t;
      assert s[0] == b[0] && !(sep <= s);
      assert s[1..] == b[1..] + t;
      SplitFromSkips(b[1..], t, sep, cur + [b[0]]);
      assert (cur + [b[0]]) + b[1..] == cur + b;
    }
  }

  lemma {:induction false} SplitFromJoin(bs: seq<String>, sep: String, cur: String)
    requires |bs| >= 1 && |sep| > 0
    requires forall k | 0 <= k < |bs| :: sep[0] !in bs[k]
    ensures SplitFrom(Join(bs, sep), sep, cur) == [cur + bs[0]] + bs[1..]
    decreases |bs|
  {
    if |bs| == 1 {
      SplitFromSkips(bs[0], [], sep, cur);
      assert bs[0] + [] == bs[0];
    } else {
      var j := Join(bs[1..], sep);
      assert Join(bs, sep) == bs[0] + (sep + j);
      SplitFromSkips(bs[0], sep + j, sep, cur);
      assert (sep + j)[|sep|..] == j;
      SplitFromJoin(bs[1..], sep, []);
      assert [] + bs[1..][0] == bs[1];
      assert [bs[1]] + bs[2..] == bs[1..];
    }
  }

  /** `join` followed by `split` gives the pieces back when no piece holds
      the separator's first character. */
  lemma SplitJoin(bs: seq<String>, sep: String)
    requires |bs| >= 1 && |sep| > 0
    requires forall k | 0 <= k < |bs| :: sep[0] !in bs[k]
    ensures Split(Join(bs, sep), sep) == bs
  {
    SplitFromJoin(bs, sep, []);
    assert [] + bs[0] == bs[0];
    assert [bs[0]] + bs[1..] == bs;
  }

  /** The first piece of a split is everything before the first occurrence
      of the separator, or the whole string when there is none. */
  lemma FirstPieceIsPrefix(s: String, sep: String)
    requires |sep| > 0
    ensures var k := IndexOf(s, sep);
            Split(s, sep)[0] == if k < 0 then s else s[..k]
  {
    FirstPieceFrom(s, sep, 0);
    assert s[0..] == s && s[..0] == [];
  }

  lemma {:induction false} FirstPieceFrom(s: String, sep: String, i: nat)
    requires |sep| > 0 && i <= |s|
    ensures var k := IndexFrom(s, sep, i);
            SplitFrom(s[i..], sep, s[..i])[0] == if k < 0 then s else s[..k]
    decreases |s| - i
  {
    if i + |sep| <= |s| && s[i..i + |sep|] == sep {
      assert sep <= s[i..];
    } else if i == |s| {
      assert s[..i] == s;
    } else {
      assert !(sep <= s[i..]);
      assert s[i..][1..] == s[i + 1..];
      assert s[..i] + [s[i..][0]] == s[..i + 1];
      FirstPieceFrom(s, sep, i + 1);
    }
  }

  // ---------------------------------------------------------------------------
  // split on runs of white space (`s.split(/\s+/)`)
  // ---------------------------------------------------------------------------

  /** The characters of `s` that are not white space, in order. */
  function RemoveSpaces(s: String): String {
    if s == [] then [] else (if IsSpace(s[0]) then [] else [s[0]]) + RemoveSpaces(s[1..])
  }

  function Concat(parts: seq<String>): String {
    if parts == [] then [] else parts[0] + Concat(parts[1..])
  }

  /** Drops a leading run of white space. */
  function SkipSpaces(s: String): (r: String)
    ensures |r| < |s| || r == s
    ensures r == s[|s| - |r|..]
    ensures RemoveSpaces(r) == RemoveSpaces(s)
    ensures r == [] || !IsSpace(r[0])
  {
    if s != [] && IsSpace(s[0]) then SkipSpaces(s[1..]) else s
  }

  /** `s.split(/\s+/)`: the maximal pieces without white space; an empty
      piece appears before a leading run and after a trailing one. */
  function SplitSpaceRuns(s: String): (parts: seq<String>)
    ensures |parts| >= 1
    ensures forall k | 0 <= k < |parts| :: HasNoSpace(parts[k])
    ensures Concat(parts) == RemoveSpaces(s)
  {
    SplitRunsFrom(s, [])
  }

  function SplitRunsFrom(s: String, cur: String): (parts: seq<String>)
    requires HasNoSpace(cur)
    ensures |parts| >= 1
    ensures forall k | 0 <= k < |parts| :: HasNoSpace(parts[k])
    ensures Concat(parts) == cur + RemoveSpaces(s)
    decreases |s|
  {
    if s == [] then
      assert Concat([cur]) == cur + [];
      [cur]
    else if IsSpace(s[0]) then
      var rest := SplitRunsFrom(SkipSpaces(s), []);
      assert Concat([cur] + rest) == cur + Concat(rest) by {
        assert ([cur] + rest)[1..] == rest;
      }
      [cur] + rest
    else
      assert (cur + [s[0]]) + RemoveSpaces(s[1..]) == cur + RemoveSpaces(s);
      SplitRunsFrom(s[1..], cur + [s[0]])
  }

  /** The number of maximal runs of white space in `s`, counted at their
      last character: a white-space character that is last or followed by
      another character. */
  function RunEnds(s: String): nat {
    if s == [] then 0
    else (if IsSpace(s[0]) && (|s| == 1 || !IsSpace(s[1])) then 1 else 0) + RunEnds(s[1..])
  }

  /** Skipping a leading run of white space passes exactly one run end. */
  lemma {:induction false} SkipSpacesRunEnds(s: String)
    requires s != [] && IsSpace(s[0])
    ensures RunEnds(s) == 1 + RunEnds(SkipSpaces(s))
    decreases |s|
  {
    if |s| > 1 && IsSpace(s[1]) {
      SkipSpacesRunEnds(s[1..]);
    }
  }

  lemma {:induction false} SplitRunsFromCount(s: String, cur: String)
    requires HasNoSpace(cur)
    ensures |SplitRunsFrom(s, cur)| == 1 + RunEnds(s)
    decreases |s|
  {
    if s == [] {
    } else if IsSpace(s[0]) {
      SkipSpacesRunEnds(s);
      SplitRunsFromCount(SkipSpaces(s), []);
    } else {
      SplitRunsFromCount(s[1..], cur + [s[0]]);
    }
  }

  /** `s.split(/\s+/)` yields one piece more than `s` has runs of white
      space. */
  lemma SplitSpaceRunsCount(s: String)
    ensures |SplitSpaceRuns(s)| == 1 + RunEnds(s)
  {
    SplitRunsFromCount(s, []);
  }

  // ---------------------------------------------------------------------------
  // Lines (the `m` flag: `^` and `$` at line terminators)
  // ---------------------------------------------------------------------------

  predicate NoLineTerminator(s: String) {
    forall i | 0 <= i < |s| :: !IsLineTerminator(s[i])
  }

  /** Position `p` begins a line. */
  predicate IsLineStart(s: String, p: nat) {
    p <= |s| && (p == 0 || IsLineTerminator(s[p - 1]))
  }

  /** The first line terminator at or after `i`, or `|s|`. */
  function LineEnd(s: String, i: nat): (e: nat)
    requires i <= |s|
    ensures i <= e <= |s|
    ensures e == |s| || IsLineTerminator(s[e])
    ensures forall j | i <= j < e :: !IsLineTerminator(s[j])
    decreases |s| - i
  {
    if i == |s| || IsLineTerminator(s[i]) then i else LineEnd(s, i + 1)
  }

  /** `LineEnd` is pinned down by its contract. */
  lemma LineEndAt(s: String, i: nat, e: nat)
    requires i <= e <= |s|
    requires forall j | i <= j < e :: !IsLineTerminator(s[j])
    requires e == |s| || IsLineTerminator(s[e])
    ensures LineEnd(s, i) == e
  {
  }

  // ---------------------------------------------------------------------------
  // Decimal rendering of non-negative integers (`${n}`)
  // ---------------------------------------------------------------------------

  predicate IsDigit(c: char) {
    '0' <= c <= '9'
  }

  predicate IsDigits(s: String) {
    forall i | 0 <= i < |s| :: IsDigit(s[i])
  }

  function DigitChar(d: nat): (c: char)
    requires d < 10
    ensures IsDigit(c) && c as int - '0' as int == d
  {
    ('0' as int + d) as char
  }

  /** The decimal numeral of `n`: non-empty, digits only, no leading zero. */
  function NatToDecimal(n: nat): (r: String)
    ensures |r| >= 1 && IsDigits(r)
    ensures r[0] != '0' || r == "0"
  {
    if n < 10 then [DigitChar(n)] else NatToDecimal(n / 10) + [DigitChar(n % 10)]
  }

  /** The value a string of digits denotes. */
  function DecimalValue(s: String): nat
    requires IsDigits(s)
  {
    if s == [] then 0
    else DecimalValue(s[..|s| - 1]) * 10 + (s[|s| - 1] as int - '0' as int)
  }

  lemma {:induction false} DecimalRoundTrip(n: nat)
    ensures DecimalValue(NatToDecimal(n)) == n
  {
    if n >= 10 {
      var r := NatToDecimal(n);
      assert r[..|r| - 1] == NatToDecimal(n / 10);
      DecimalRoundTrip(n / 10);
    }
  }

  /** Distinct numbers have distinct numerals. */
  lemma DecimalInjective(m: nat, n: nat)
    requires NatToDecimal(m) == NatToDecimal(n)
    ensures m == n
  {
    DecimalRoundTrip(m);
    DecimalRoundTrip(n);
  }
}

=== FILE: upload_route.dfy ===
/** app/api/admin/newsletters/upload/route.ts: an admin uploads a file, its
    text is turned into newsletter fields, and a published newsletter is
    stored under a slug made from the title, without a timestamp. */
module UploadRoute {
  import opened Wrappers
  import opened Strings
  import opened Schema
  import opened Queries
  import opened Http
  import opened AdminAuth
  import opened FileProcessing
  import opened Slugs

  /** The multipart form: the file, and the `title` and `authorId` fields,
      each `None` when the form does not carry it. */
  datatype UploadForm = UploadForm(file: Option<UploadedFile>, title: Option<String>, authorId: Option<String>)

  const NoFileProvided: ErrorReply := ErrorReply(400, "No file provided")
  const UploadFailed: ErrorReply := ErrorReply(500, "Failed to process uploaded file")
  const ProcessingFailed: String :=
    "Failed to process the uploaded file. Please ensure the file is not corrupted."
  const ProcessingError: ErrorReply := ErrorReply(500, ProcessingFailed)
  const DefaultAuthor: String := "admin"
  const UploadTags: seq<String> := ["uploaded", "file-import"]

  const InvalidTypePrefix: String := "Invalid file type. Please upload PDF, DOC, DOCX, or TXT files only. Detected: "

  /** The 400 answer for a type outside the allow-list, naming the type it
      detected. */
  function InvalidFileType(mimeType: String): (r: ErrorReply)
    ensures r.status == 400
    ensures var d := FileTypeDescription(mimeType); |d| <= |r.error| && r.error[|r.error| - |d|..] == d
  {
    var d := FileTypeDescription(mimeType);
    var r := ErrorReply(400, InvalidTypePrefix + d);
    assert r.error[|r.error| - |d|..] == d;
    r
  }

  /** `processUploadedFile`: dispatch on the declared type; any other type
      is a failure. */
  function ProcessUploadedFile(file: UploadedFile): (r: Result<ProcessedContent, String>)
    ensures r.Success? <==> ValidateFileType(file.mimeType)
    ensures r.Failure? ==> r.error == ProcessingFailed
    ensures file.mimeType == TextType ==> r == Success(ProcessTextFile(file.text))
    ensures file.mimeType == PdfType ==> r == Success(ProcessPdfFile(file.name))
    ensures file.mimeType == DocType || file.mimeType == DocxType ==> r == Success(ProcessWordFile(file.name))
    ensures r.Success? ==> r.value.title != [] && r.value.description != []
  {
    if file.mimeType == TextType then Success(ProcessTextFile(file.text))
    else if file.mimeType == PdfType then Success(ProcessPdfFile(file.name))
    else if file.mimeType == DocType || file.mimeType == DocxType then Success(ProcessWordFile(file.name))
    else Failure(ProcessingFailed)
  }

  /** `Math.ceil(length / 1000)`: the number of 1000-character minutes,
      rounded up, and zero for empty content. */
  function UploadReadTime(length: nat): (r: nat)
    ensures length <= 1000 * r
    ensures r == 0 || 1000 * (r - 1) < length
    ensures r == 0 <==> length == 0
  {
    (length + 999) / 1000
  }

  /** The fields of the stored newsletter. */
  function UploadRecord(form: UploadForm, file: UploadedFile, data: ProcessedContent, now: nat)
    : (n: NewsletterInsert)
    ensures n.status == Some(Published) && n.isPremium == Some(false) && n.tags == Some(UploadTags)
    ensures n.publishedAt == Some(At(now))
    ensures n.content == data.content
    ensures IsSlugText(n.slug)
    ensures n.readTime.Some? && n.readTime.value >= 0 && n.readTime.value == UploadReadTime(|data.content|)
    ensures n.authorId == OrElse(form.authorId, DefaultAuthor)
    ensures n.title == OrElse(form.title, if data.title != [] then data.title else "Uploaded Newsletter - " + file.name)
    ensures n.slug == BaseSlug(OrElse(form.title, if data.title != [] then data.title else file.name))
  {
    var titleSource := if data.title != [] then data.title else file.name;
    NewsletterInsert(
      OrElse(form.title, if data.title != [] then data.title else "Uploaded Newsletter - " + file.name),
      BaseSlug(OrElse(form.title, titleSource)),
      Some(if data.description != [] then data.description else "Newsletter uploaded from " + file.name),
      data.content,
      Some(if data.excerpt != [] then data.excerpt else "No excerpt available"),
      Some(Published),
      Some(At(now)),
      OrElse(form.authorId, DefaultAuthor),
      Some(UploadTags),
      Some(UploadReadTime(|data.content|)),
      Some(false))
  }

  /** `POST`: the gate, then the file's presence, then its type, then the
      extraction, then the insert. */
  function Post(session: Session, users: Users, store: Newsletters, form: UploadForm, now: nat)
    : (r: (Reply<seq<NewsletterRow>>, Newsletters))
    requires NewslettersValid(store)
    ensures NewslettersValid(r.1)
    ensures RequireAdminAuth(session, users).Some? ==> r == (Err(RequireAdminAuth(session, users).value), store)
    ensures RequireAdminAuth(session, users).None? && form.file.None? ==> r == (Err(NoFileProvided), store)
    ensures RequireAdminAuth(session, users).None? && form.file.Some? && !ValidateFileType(form.file.value.mimeType) ==>
              r == (Err(InvalidFileType(form.file.value.mimeType)), store)
    ensures r.0.Err? ==> r.1 == store
    ensures r.0.Ok? ==>
              && RequireAdminAuth(session, users).None? && form.file.Some?
              && ValidateFileType(form.file.value.mimeType)
              && |r.0.data| == 1
              && var row := r.0.data[0];
                 && r.1.rows == store.rows[row.id := row]
                 && row.id == store.nextId && row.id !in store.rows
                 && row.status == Published && !row.isPremium && row.tags == Some(UploadTags)
    ensures RequireAdminAuth(session, users).None? && form.file.Some? && ValidateFileType(form.file.value.mimeType) ==>
              var file := form.file.value;
              var n := UploadRecord(form, file, ProcessUploadedFile(file).value, now);
              && (r.0.Ok? <==> !SlugTaken(store, n.slug))
              && (r.0.Err? ==> r.0.e == UploadFailed)
              && (r.0.Ok? ==> r.0.data[0] == NewNewsletterRow(store.nextId, n))
  {
    match RequireAdminAuth(session, users)
    case Some(e) => (Err(e), store)
    case None =>
      match form.file
      case None => (Err(NoFileProvided), store)
      case Some(file) =>
        if !ValidateFileType(file.mimeType) then (Err(InvalidFileType(file.mimeType)), store)
        else
          match ProcessUploadedFile(file)
          case Failure(_) => (Err(ProcessingError), store)
          case Success(data) =>
            match CreateNewsletter(store, UploadRecord(form, file, data, now))
            case Failure(_) => (Err(UploadFailed), store)
            case Success(res) => (Ok([res.1]), res.0)
  }

  /** Every accepted type yields a title and a description, so the stored
      title is the form's or the extracted one, never the
      `Uploaded Newsletter - <name>` fallback, and the description is never
      the `Newsletter uploaded from <name>` fallback. */
  lemma UploadFallbacksUnused(form: UploadForm, file: UploadedFile, now: nat)
    requires ValidateFileType(file.mimeType)
    ensures var data := ProcessUploadedFile(file).value;
            var n := UploadRecord(form, file, data, now);
            && n.title == OrElse(form.title, data.title)
            && n.slug == BaseSlug(OrElse(form.title, data.title))
            && n.description == Some(data.description)
  {
  }

  /** A blank text file is stored with empty content, a read time of zero
      and the excerpt fallback. */
  lemma BlankTextFile(form: UploadForm, name: String, now: nat)
    ensures var file := UploadedFile(name, TextType, []);
            var n := UploadRecord(form, file, ProcessUploadedFile(file).value, now);
            n.content == [] && n.readTime == Some(0) && n.excerpt == Some("No excerpt available")
  {
    var data := ProcessTextFile([]);
    assert Split([], "\n") == [[]] by {
      assert Join([[]], "\n") == [];
      SplitJoin([[]], "\n");
    }
    assert FormatLines([[]]) == [FormatLine([])];
    assert data.content == [];
    assert ReplaceChar([], '\n', ' ') == [];
    assert data.excerpt == [];
  }

  /** Two uploads under the same form title get the same slug, so once the
      first is stored the second is refused with a 500 and stores nothing. */
  lemma SameTitleUploadedTwice(
    session: Session, users: Users, store: Newsletters, form1: UploadForm, form2: UploadForm, n1: nat, n2: nat)
    requires NewslettersValid(store) && RequireAdminAuth(session, users).None?
    requires Truthy(form1.title) && form2.title == form1.title
    requires form1.file.Some? && ValidateFileType(form1.file.value.mimeType)
    requires form2.file.Some? && ValidateFileType(form2.file.value.mimeType)
    requires !SlugTaken(store, BaseSlug(form1.title.value))
    ensures var after := Post(session, users, store, form1, n1).1;
            Post(session, users, after, form2, n2) == (Err(UploadFailed), after)
  {
    var first := Post(session, users, store, form1, n1);
    var after := first.1;
    var row := first.0.data[0];
    var file1 := form1.file.value;
    var data1 := ProcessUploadedFile(file1).value;
    assert row.slug == UploadRecord(form1, file1, data1, n1).slug == BaseSlug(form1.title.value);
    var file2 := form2.file.value;
    var data2 := ProcessUploadedFile(file2).value;
    assert UploadRecord(form2, file2, data2, n2).slug == BaseSlug(form1.title.value);
    assert after.rows[row.id].slug == row.slug;
    assert SlugTaken(after, row.slug);
  }
}

=== FILE: user_data_access.dfy ===
/** The ownership checks of lib/user-data-access.ts: a signed-in user may
    read only the row stored under their own id. */
module UserDataAccess {
  import opened Wrappers
  import opened Strings
  import opened Schema
  import opened Queries
  import opened AdminAuth
  import opened Auth

  const SignUpPath: String := "/sign-up"
  const AccessDenied: String := "Access denied: You can only access your own data"

  /** `requireUserOwnership`: the same decision as `requireAuth`. */
  function RequireUserOwnership(session: Session): (r: Flow<UserId>)
    ensures r == RequireAuth(session)
    ensures r.Continue? ==> r.value == session.value
  {
    if !SignedIn(session) then Redirect(SignInPath) else Continue(session.value)
  }

  /** `getCurrentUserData`: the caller's own row; a caller without a row is
      sent to sign up. */
  function GetCurrentUserData(session: Session, users: Users): (r: Flow<UserRow>)
    requires UsersKeyed(users)
    ensures !SignedIn(session) ==> r == Redirect(SignInPath)
    ensures SignedIn(session) && session.value !in users ==> r == Redirect(SignUpPath)
    ensures r.Continue? <==> SignedIn(session) && session.value in users
    ensures r.Continue? ==> r.value.clerkUserId == session.value && r.value == users[session.value]
  {
    match RequireUserOwnership(session)
    case Continue(id) =>
      var rows := UserRows(users, id);
      if |rows| == 0 then Redirect(SignUpPath) else Continue(rows[0])
    case Redirect(path) => Redirect(path)
    case Throw(message) => Throw(message)
  }

  /** `validateUserOwnership`: the caller's id when it is the requested
      one; an error when it is not. */
  function ValidateUserOwnership(session: Session, requested: UserId): (r: Flow<UserId>)
    ensures !SignedIn(session) ==> r == Redirect(SignInPath)
    ensures SignedIn(session) ==> (r == Throw(AccessDenied) <==> session.value != requested)
    ensures r.Continue? <==> SignedIn(session) && session.value == requested
    ensures r.Continue? ==> r.value == requested
  {
    match RequireUserOwnership(session)
    case Continue(id) => if id != requested then Throw(AccessDenied) else Continue(id)
    case Redirect(path) => Redirect(path)
    case Throw(message) => Throw(message)
  }

  /** `getUserDataIfOwner`: the ownership check, then the caller's row. */
  function GetUserDataIfOwner(session: Session, users: Users, requested: UserId): (r: Flow<UserRow>)
    requires UsersKeyed(users)
    ensures r.Continue? ==> SignedIn(session) && session.value == requested
    ensures r.Continue? ==> r.value.clerkUserId == requested
    ensures SignedIn(session) && session.value != requested ==> r == Throw(AccessDenied)
  {
    match ValidateUserOwnership(session, requested)
    case Continue(_) => GetCurrentUserData(session, users)
    case Redirect(path) => Redirect(path)
    case Throw(message) => Throw(message)
  }

  /** Nobody reads another user's row: whatever the session and the table,
      the only row `getUserDataIfOwner` can hand out is the requested
      user's own, and only to that user. */
  lemma OwnerOnly(session: Session, users: Users, requested: UserId)
    requires UsersKeyed(users)
    ensures GetUserDataIfOwner(session, users, requested).Continue? <==>
              SignedIn(session) && session.value == requested && requested in users
    ensures GetUserDataIfOwner(session, users, requested).Continue? ==>
              GetUserDataIfOwner(session, users, requested).value == users[requested]
  {
  }
}

=== FILE: wrappers.dfy ===
/** Option and Result, the two failure-carrying shapes used throughout the model.
    `Option` stands for a JavaScript value that may be `null`/`undefined`;
    `Result` stands for a call that either returns or throws. */
module Wrappers {

  datatype Option<+T> = None | Some(value: T) {

    /** The wrapped value, or `default` when there is none (`x ?? default`). */
    function GetOr(default: T): T {
      match this
      case Some(v) => v
      case None => default
    }
  }

  datatype Result<+T, +E> = Success(value: T) | Failure(error: E)
}
